=== FILE: README.md ===
# sqlite-eda in Dafny

This project models the pure logic of sqlite-eda, a tool for exploratory data analysis of SQLite databases. It has a Node.js server, which profiles tables and suggests charts, and a browser client, which shows the profiles, runs queries and draws charts. The model covers:

- **Value classification and column type detection** (`TypeDetector`, `DatePatterns`).
  - Each value gets one class, under a strict precedence.
  - The classes are tallied per column.
  - A dominant type is picked with the 80% and 90% thresholds, written as integer comparisons (`c*5 > n*4`, `i*10 > num*9`).
  - The confidence is a rounded percentage.
  - The detector also keeps the first five distinct examples, and stats that depend on the type: min/mean/max, string lengths and the `potentialCategory` flag.
- **Table profile assembly** (`TableProfiler`). The detector runs on every column of a sample. Its output is merged with the row count and the `PRAGMA table_info` rows.
- **The chart recommender** (`Recommender`). This is `suggestVisualizations`, a pure function from a profile to a list of suggestions: bars, pies, histograms, lines and scatter plots.
- **Column statistics** (`ColumnStatistics`).
  - The builder is chosen by the class of the column's first value.
  - The builders turn query results into counts, percentages, a ten-bucket histogram, top values, categories and date distributions.
- **The schema reader** (`SchemaAnalyzer`). It normalises the table list and the `PRAGMA` rows, falls back to the keys of a sample row, and isolates the failure of one table from the others.
- **The three profiling routes of the HTTP server** (`ServerRoutes`, `Identifiers`). Names are sanitised, then the request gets a 400, a 404, a 500 or reaches the profiler.
- **The SQL console of the client** (`QueryConsole`): the query history with its cursor, and the two query builders.
- **Small pieces of the client:**
  - `MainView`: the CSV export, example formatting and the table-size estimate;
  - `DataExplorer` and `VizRegistry`: the opening queries, the chart queries built for a recommendation, quote escaping, the tab mapping, the set of charts on screen, the column-chart rule, the percentages of the column table and the type tally;
  - `HistogramBins`: the equal-width binning of the histogram chart.

Some things are parameters rather than definitions: JavaScript's `Number(s)`, `Date.parse` and the conversion of a non-integral number to text are fields of a `JsRuntime` value (`Js`); natural numbers (query limits, byte amounts) are rendered by `Text.Decimal`. SQL results are inputs, written `Answer(rows)` or `Fails(message)` (`Wrappers`). JavaScript numbers are modelled as `real`. `Js.Value` has both `null` and `undefined`, and a missing key reads as `undefined`.

## Model

| member | source | states |
|---|---|---|
| TypeDetector.GetValueType | src/data-profiler.js:230-262 | the class given to a value is one whose rule admits it, and it is the null class exactly for null and undefined |
| TypeDetector.GetValueTypePrecedence | src/data-profiler.js:230-262 | every value gets exactly one class: that of the first rule (null, boolean, number, date, datetime, string) that admits it; no earlier rule admits it |
| TypeDetector.ZeroAndOneAreIntegers | src/data-profiler.js:235-243 | the strings '0' and '1' pass the boolean pre-check yet are classed integer, never boolean |
| TypeDetector.DateStringsAreDates | src/data-profiler.js:245-252 | a non-numeric string shaped YYYY-MM-DD that parses as a date is classed date |
| DatePatterns.DateAndDateTimeExclusive | src/data-profiler.js:247-248 | no string matches both the date and the datetime pattern, so the order of the two tests never matters |
| DatePatterns.DateTimeStartsWithDate | src/data-profiler.js:247-248 | the first ten characters of any datetime match the date pattern |
| TypeDetector.ScanValues | src/data-profiler.js:127-159 | the loop leaves the votes, distinct set, examples, string lengths and numeric accumulators equal to their definitions over the whole sample |
| TypeDetector.StepExtends | src/data-profiler.js:127-159 | one loop iteration turns the state after a prefix into the state after the prefix extended by one value |
| TypeDetector.TallyCounts | src/data-profiler.js:136-144 | the number votes equal integer plus float votes; granular votes equal the non-null values; numbers summed equal number votes |
| TypeDetector.VoteCounts | src/data-profiler.js:136-141 | each non-null value adds exactly one granular vote, and a number vote exactly for integer or float |
| TypeDetector.NullTagIff | src/data-profiler.js:230-243 | the null class is given exactly to null and undefined, and a number class only to values `Number` parses |
| TypeDetector.FirstSeenFacts | src/data-profiler.js:128-133 | the distinct values in first-seen order have no repeats, are the values of the sample, and number at most the sample size |
| TypeDetector.ExamplesAreFirstSeen | src/data-profiler.js:131-133 | the examples are the first five distinct values in first-seen order, or all of them when fewer |
| TypeDetector.AddNumberOk | src/data-profiler.js:140-151 | adding a number keeps min <= max and count·min <= sum <= count·max, with min and max set exactly when something was counted |
| TypeDetector.NumbersRange | src/data-profiler.js:140-151 | over any sample the numeric accumulators satisfy those bounds |
| TypeDetector.Dominant | src/data-profiler.js:162-189 | the chosen type is never unknown, a boolean majority always chooses boolean, and the votes returned are those of the chosen type |
| TypeDetector.DominantTable | src/data-profiler.js:162-189 | boolean majority wins over all; then date, then datetime over numbers; a number majority is integer iff more than 9 in 10 numbers are integers; string otherwise; never unknown |
| TypeDetector.DominantVotes | src/data-profiler.js:162-189 | the confidence is computed from the votes of the type that was chosen |
| TypeDetector.MajoritiesExclusive | src/data-profiler.js:167-189 | at most one of the over-80% majorities holds, so the overrides never compete |
| TypeDetector.StatsFor | src/data-profiler.js:192-217 | for a numeric type, min <= mean <= max |
| TypeDetector.DetectDataType | src/data-profiler.js:94-225 | the empty sample gives exactly the unknown result; otherwise the type is the decision of the thresholds over the sample's votes, the confidence is the rounded share of that type's votes in the sample, totalCount = n, nullCount = 0, 1 <= uniqueCount <= n, confidence in 0..100, at most 5 examples, numeric stats iff numeric type, length stats iff string, potentialCategory iff one of its two rules |
| TypeDetector.DetectFacts | src/data-profiler.js:162-225 | for a non-empty sample the rounded confidence lies in 0..100, a numeric type has counted numbers, and the type is never unknown |
| TypeDetector.TallyInvariant | src/data-profiler.js:127-197 | for a sample without nulls each value casts exactly one granular vote, number = integer + float, and 1 <= uniqueCount <= n |
| TypeDetector.AllBooleansAreBoolean | src/data-profiler.js:186-189 | a sample of booleans is typed boolean with confidence 100 |
| TypeDetector.DetectExamples | src/data-profiler.js:117-133 | the detector's examples are the first five distinct values of the sample |
| Js.RoundedPercent | src/data-profiler.js:221 | `Math.round(100·part/whole)` for non-negative parts: the result is within half a unit of the exact percentage, halves rounding up |
| Js.RoundedPercentBounds | src/data-profiler.js:221 | a share of a whole rounds to a percentage in 0..100 |
| Js.RoundedPercentOfWhole | src/client/js/data-explorer.js:555 | the whole of a whole is exactly 100% |
| Js.JsPercent | src/data-profiler.js:383 | `Math.round(part/whole*100) \|\| 0` is a percentage in 0..100 for a share of a whole; over a zero whole it is 0 exactly when the part is 0 too |
| Js.IsShareOfUnique | src/data-profiler.js:383 | the description of `Math.round(part/whole*100) \|\| 0` (nearest integer to the exact percentage, halves up; 0 for 0/0; +Infinity for a positive part over 0) fixes a single value |
| Js.JsPercentIsShare | src/data-profiler.js:383 | the percentage computed is the one that description fixes |
| TableProfiler.ColumnValues | src/data-profiler.js:64-67 | the values passed to the detector hold no null or undefined, at most one per row |
| TableProfiler.ColumnValuesEmptyIff | src/data-profiler.js:64-67 | a column passes no values exactly when every row has it null or missing |
| TableProfiler.EntriesFor | src/data-profiler.js:56-79 | one entry per key, in key order, each holding the detector's result on that column's values |
| TableProfiler.AnalyzeTableDataTypes | src/data-profiler.js:38-86 | a failing sample query is rethrown; an empty sample gives no columns; otherwise the columns are the first row's keys in order |
| TableProfiler.AnalyzedColumnsDistinct | src/data-profiler.js:56-78 | no column is analysed twice |
| TableProfiler.AllNullColumnIsUnknown | src/data-profiler.js:61-102 | a column that is null in every sampled row gets the unknown result |
| TableProfiler.FindPragma | src/data-profiler.js:734-735 | the PRAGMA row found carries the column's name, and none is found exactly when no row has it |
| TableProfiler.FindPragmaFirst | src/data-profiler.js:735 | the row found is the first row with the column's name |
| TableProfiler.ColumnProfileOf | src/data-profiler.js:728-757 | the column's name, detected type, confidence, examples and stats come from the detector unchanged; the SQL type is always truthy; a primary key needs a PRAGMA row; without one the column is nullable and typed 'unknown'; a unique count is never 0 |
| TableProfiler.RowCountOf | src/data-profiler.js:708-711 | the row count is the count query's truthy `count`, and 0 otherwise, including for an empty result |
| TableProfiler.GenerateTableProfile | src/data-profiler.js:705-765 | the first failing query is rethrown in query order; otherwise the profile carries the table name, columnCount = number of columns, and a truthy row count or 0 |
| TableProfiler.ProfileColumnsFromSample | src/data-profiler.js:719-756 | column i of the profile is the profile of the i-th analysed sample column joined with its PRAGMA row, one per analysed column |
| TableProfiler.ProfileColumnOrder | src/data-profiler.js:719-728 | the profile's columns are the keys of the first sampled row, in that order, not schema order; an empty sample gives none |
| TableProfiler.PragmaFlags | src/data-profiler.js:745-753 | primaryKey iff the matching row's pk is 1; nullable iff its notnull is not 1; a non-empty type is kept |
| TableProfiler.ColumnWithoutPragma | src/data-profiler.js:732-753 | a column no PRAGMA row names is typed 'unknown', is no primary key and is nullable |
| TableProfiler.ProfileCounts | src/data-profiler.js:754-755 | nullCount is 0; uniqueCount is a count iff some sampled value is present, then between 1 and the sample size, otherwise 'Unknown' |
| Recommender.IsCategorical | src/data-profiler.js:787-791 | a non-string column is categorical iff flagged potentialCategory; a flagged column always is; an unflagged categorical column is a string column with a distinct count below 20 |
| Recommender.IsPieCategory | src/data-profiler.js:824-826 | a pie category has a distinct count of at most 10, and a string pie category is always categorical |
| Recommender.Bars | src/data-profiler.js:799-821 | |cat|·|num| bar charts, or |cat| when there is no numeric column; all of kind bar |
| Recommender.BarsAt | src/data-profiler.js:799-821 | position i·w+k holds the bar of category i against numeric column k, in order, or the count bar of category i without numeric columns |
| Recommender.Pies | src/data-profiler.js:824-850 | |pie categories|·|num| pie charts, or one per category without numeric columns; all of kind pie |
| Recommender.PiesAt | src/data-profiler.js:824-850 | position i·w+k holds the pie of category i against numeric column k, or the count pie of category i without numeric columns |
| Recommender.Histograms | src/data-profiler.js:853-861 | one histogram per numeric column |
| Recommender.HistogramsPerColumn | src/data-profiler.js:853-861 | the k-th histogram is of the k-th numeric column, at medium priority |
| Recommender.Lines | src/data-profiler.js:864-886 | |dates|·|num| line charts, or one per date column without numeric columns; all of kind line |
| Recommender.LinesAt | src/data-profiler.js:864-886 | position i·w+k holds the line of date column i against numeric column k, or the count line of date column i without numeric columns |
| Recommender.PairsCount | src/data-profiler.js:890-891 | the nested loop over j > i visits |xs|·(|xs|-1)/2 pairs |
| Recommender.PairsCover | src/data-profiler.js:890-891 | every pair of positions i < j is visited |
| Recommender.PairsArePairs | src/data-profiler.js:890-891 | only pairs of positions i < j are visited |
| Recommender.Scatters | src/data-profiler.js:889-901 | one scatter plot per visited pair, in loop order |
| Recommender.ScattersCount | src/data-profiler.js:889-901 | |num|·(|num|-1)/2 scatter plots |
| Recommender.ScattersCoverPairs | src/data-profiler.js:889-901 | every pair i < j of numeric columns gets its scatter plot |
| Recommender.ScattersArePairs | src/data-profiler.js:889-901 | every scatter plot is of a pair i < j of numeric columns |
| Recommender.SuggestVisualizations | src/data-profiler.js:772-776 | a missing profile gives no suggestions |
| Recommender.SuggestionsOrdered | src/data-profiler.js:799-904 | all bars come first, then pies, histograms, lines and scatter plots |
| Recommender.SuggestionCounts | src/data-profiler.js:799-904 | the number of each kind: bars |cat|·w, pies |pie|·w, lines |date|·w (w = |num|, or 1 without numeric columns), |num| histograms, |num|·(|num|-1)/2 scatters; nothing is deduplicated |
| Recommender.ViewsOf | src/data-profiler.js:192-217 | a generated profile's columns never carry `distinctCount` |
| Recommender.GeneratedProfileHasNoPies | src/data-profiler.js:787-826 | a generated profile gets no pie chart, and its categorical columns are exactly those flagged potentialCategory |
| ColumnStatistics.NullPercentsAgree | src/data-profiler.js:317-319 | the numeric builder's null percentage agrees with the other builders', and is a percentage |
| ColumnStatistics.Base | src/data-profiler.js:317-383 | count + nulls = total; the null percentage is the nulls' `Math.round(…) \|\| 0` share of all rows, in 0..100; the distinct percentage is the distinct values' share of the non-null values, in 0..100 when they do not exceed them |
| ColumnStatistics.Shares | src/data-profiler.js:433-437 | one share per group with its value and count, whose percent is the group's `Math.round(…) \|\| 0` share of the non-null count, in 0..100 when the group is part of that count |
| ColumnStatistics.BucketsUpTo | src/data-profiler.js:395-418 | bucket k has the k-th equal-width bounds; its count is the bucket query's, or 0 when that query fails |
| ColumnStatistics.HistogramShape | src/data-profiler.js:386-419 | with min and max set, exactly 10 buckets and 10 counts, the first starting at min, the last ending at max, contiguous |
| ColumnStatistics.NumericBuilder | src/data-profiler.js:304-440 | the first failing compulsory query (counts, range, distinct, top values) is rethrown, and only such a failure fails the builder; percentiles only when both percentile queries answer; a histogram iff min and max are set; the base fields are `Base` of the counts and distinct count, with the `total ? … : 0` null percentage; min, max and mean are the range row's fields; the top values are the shares of the first 5 top groups in the non-null count |
| ColumnStatistics.TextBuilder | src/data-profiler.js:446-539 | fails exactly on a failing count, distinct or top-value query, or category query when there are at most 20 distinct values; length fields iff the length query answers; categories iff at most 20 distinct values, and then the shares of the category groups in the non-null count; the top values are the shares of the first 5 top groups; the base fields are `Base` of the counts and distinct count |
| ColumnStatistics.DateBuilder | src/data-profiler.js:544-644 | fails exactly on a failing count, range or distinct query; years iff the year query answers, as the shares of the year groups in the non-null count; months iff both distribution queries answer, the shares of the first 12 month groups; minDate and maxDate are the range row's fields; the base fields are `Base` of the counts and distinct count |
| ColumnStatistics.GenericBuilder | src/data-profiler.js:649-698 | fails exactly on a failing count, distinct or top-value query; otherwise generic statistics whose base fields are `Base` of the counts and distinct count and whose top values are the shares of the first 5 top groups in the non-null count |
| ColumnStatistics.GenerateColumnStatistics | src/data-profiler.js:270-299 | no data exactly for an empty first query; the error message of a failing first or count query |
| ColumnStatistics.DispatchByFirstValue | src/data-profiler.js:280-294 | numeric stats only for an integer or float first value, text only for a string, date only for a date or datetime, generic otherwise |
| ColumnStatistics.BuildersTolerateOptionalQueries | src/data-profiler.js:353-418 | when the unguarded queries succeed, failing percentile, bucket, length and date-distribution queries do not fail the call |
| ColumnStatistics.StatisticsCounts | src/data-profiler.js:317-319 | every builder reports count and nulls that add up to the total, and a null percentage that is `JsPercent(nulls, total)`, so in 0..100 |
| ColumnStatistics.TextCategories | src/data-profiler.js:498-536 | categories are listed iff there are at most 20 distinct values; at most 5 top values |
| ColumnStatistics.DateDistributions | src/data-profiler.js:598-639 | at most 12 months, and months only along with years |
| QueryConsole.Remember | src/client/js/query.js:90-96 | the history grows by one up to 50 entries, then the oldest is dropped; the new query is last |
| QueryConsole.RememberOk | src/client/js/query.js:90-98 | remembering keeps the history at most 50 long, trimmed and without equal neighbours |
| QueryConsole.Execute | src/client/js/query.js:83-109 | a query is sent iff there is an editor with non-blank text, and it is the trimmed text; nothing sent means nothing changes |
| QueryConsole.ExecuteRepeat | src/client/js/query.js:90-99 | a query equal to the last entry leaves history and cursor alone |
| QueryConsole.ExecuteAppends | src/client/js/query.js:90-98 | a new query is remembered and the cursor moves past the end |
| QueryConsole.ExecutePreservesInv | src/client/js/query.js:83-99 | executing keeps the history well formed and the cursor in 0..|history| |
| QueryConsole.Navigate | src/client/js/query.js:111-128 | the history never changes; the cursor either stays or moves by the direction into 0..|history| |
| QueryConsole.NavigateShowsEntry | src/client/js/query.js:120-127 | after a move the editor shows the entry under the cursor, or is empty past the end |
| QueryConsole.NavigateOutOfRange | src/client/js/query.js:112-118 | a move outside the history, or with no history, changes nothing |
| QueryConsole.NavigatePreservesInv | src/client/js/query.js:111-128 | navigating keeps the cursor within 0..|history| |
| QueryConsole.NavigateBackAndForth | src/client/js/query.js:115-120 | a step back then forward returns to the same cursor |
| QueryConsole.GenerateSelectQuery | src/client/js/query.js:158-166 | empty iff no table; starts `SELECT ` then the joined columns or `*`, and ends with the limit and `;` |
| QueryConsole.SelectLimitReadsBack | src/client/js/query.js:158-165 | the digits after LIMIT read back as the given limit, 100 by default |
| QueryConsole.GenerateGroupByQuery | src/client/js/query.js:176-184 | empty iff no table or group column; otherwise starts with the group column, then the aggregate, and ends `ORDER BY 2 DESC LIMIT 100;` |
| QueryConsole.GroupByCountsByDefault | src/client/js/query.js:179-181 | without an aggregate column the aggregate is `COUNT(*) as count` |
| SchemaAnalyzer.NamesOf | src/schema-analyzer.js:43 | the names of the elements in order, or an error when an element is null |
| SchemaAnalyzer.GetTables | src/schema-analyzer.js:32-59 | a failing query is rethrown; an array of strings is returned unchanged; an array led by a named object gives the names |
| SchemaAnalyzer.GetTablesEmptyCases | src/schema-analyzer.js:39-54 | an empty array, an unrecognised first element or a non-array gives no tables |
| SchemaAnalyzer.GetTablesNames | src/schema-analyzer.js:42-43 | a list of named rows gives their names, in order |
| SchemaAnalyzer.MapRows | src/schema-analyzer.js:101-107 | the rows map one to one, failing iff some row is null |
| SchemaAnalyzer.MapRow | src/schema-analyzer.js:101-107 | a row maps unless it is null or undefined; notNull iff its notnull is 1, primaryKey iff its pk is 1, a truthy name, type or default is copied from the row, a falsy name or type becomes '' and a falsy default null |
| SchemaAnalyzer.UnknownColumns | src/schema-analyzer.js:119-126 | one 'unknown' column per name, in order |
| SchemaAnalyzer.Fallback | src/schema-analyzer.js:111-127 | no sample row gives no columns; otherwise one column per key of the first row, named by it, typed 'unknown', nullable, no primary key, no default |
| SchemaAnalyzer.GetTableStructure | src/schema-analyzer.js:65-138 | no database gives []; a result that is neither array nor object gives []; a failing PRAGMA hands over to the fallback |
| SchemaAnalyzer.PragmaRowMapping | src/schema-analyzer.js:81-107 | array and object results map alike: notNull iff notnull is 1, primaryKey iff pk is 1, a truthy name, type or default is the row's own, a falsy name or type becomes '', a falsy default null |
| SchemaAnalyzer.FallbackColumns | src/schema-analyzer.js:111-127 | the fallback gives one column per key of the sampled row, typed 'unknown', nullable, not a primary key |
| SchemaAnalyzer.NullRowFallsBack | src/schema-analyzer.js:101-111 | a null PRAGMA row makes the mapping throw and the fallback decide |
| SchemaAnalyzer.GetSchema | src/schema-analyzer.js:7-27 | a failing table list is rethrown; otherwise one entry per table in list order |
| SchemaAnalyzer.SchemaIsolation | src/schema-analyzer.js:12-20 | a table's entry depends only on its own lookup, and a throwing lookup gives [] |
| Identifiers.Sanitize | src/server.js:47 | the result is made of [A-Za-z0-9_] only, and is as long as the input's count of such characters |
| Identifiers.SanitizeAppend | src/server.js:47 | sanitising works character by character: it distributes over concatenation |
| Identifiers.SanitizeFixedIff | src/server.js:47 | a name is left unchanged iff it is already an identifier |
| Identifiers.SanitizeIdempotent | src/server.js:114-115 | sanitising twice is sanitising once |
| Identifiers.SanitizeEmptyIff | src/server.js:49-51 | the sanitised name is empty iff the input has no identifier character |
| Identifiers.IdentifierHasNoQuotes | src/client/js/data-explorer.js:289-290 | a sanitised name cannot close a double- or single-quoted SQL token |
| ServerRoutes.Handle | src/server.js:108-159 | the profiler is reached only with non-empty sanitised names, and gets a column exactly on the stats route |
| ServerRoutes.EmptyTableNameIsBadRequest | src/server.js:47-51 | a table name without identifier characters is a 400 whatever the queries would return |
| ServerRoutes.EmptyColumnNameIsBadRequest | src/server.js:114-123 | on the stats route, a usable table name with an unusable column name is a 400 before any query |
| ServerRoutes.UnknownTableIsNotFound | src/server.js:125-136 | a sanitised table absent from the table list is a 404 |
| ServerRoutes.ProceedIff | src/server.js:108-153 | the profiler is reached iff the names are non-empty, the table is listed and, on the stats route, the column is one of the table's |
| ServerRoutes.ColumnsOnlyForStats | src/server.js:41-106 | the profile and visualization routes ignore the column list |
| MainView.EscapeField | src/client/js/main.js:302-306 | a field is quote-wrapped iff it contains a comma or a double quote, and is unchanged otherwise |
| MainView.EscapeKeepsOut | src/client/js/main.js:304-306 | escaping adds no character but double quotes |
| MainView.FieldRoundTrip | src/client/js/main.js:305 | stripping the outer quotes and collapsing doubled quotes gives the original text back |
| MainView.ExportCsv | src/client/js/main.js:293-309 | nothing is exported exactly when the result is empty |
| MainView.RecordRoundTrip | src/client/js/main.js:299-307 | a CSV reader splitting a row line at unquoted commas recovers every field text |
| MainView.CsvRoundTrip | src/client/js/main.js:293-309 | without line breaks in the data and with plain keys, reading the export back gives the header keys and then each row's field texts, in order |
| MainView.NewlineSplitsRecord | src/client/js/main.js:302-306 | a value with a line break but no comma or quote is not wrapped, so it splits its record into two lines |
| MainView.ShowExample | src/client/js/main.js:456-462 | NULL exactly for null, (empty) exactly for '', long strings cut with '...', a locale number exactly for parseable values of numeric columns, the value itself otherwise |
| MainView.FormatExamples | src/client/js/main.js:452-465 | no examples gives the placeholder; otherwise the first three examples, each shown by the 15/12 rule |
| MainView.ExampleTextBounded | src/client/js/main.js:459 | a shown string example is at most 15 characters, and a cut one is its first 12 characters and '...' |
| MainView.RoundDiv | src/client/js/main.js:592-594 | `Math.round(a/b)`: within half a unit of the exact quotient, halves rounding up |
| MainView.EstimateTableSize | src/client/js/main.js:588-595 | 'Unknown' iff rows or cols is 0; otherwise the largest unit not above rows·cols·20 bytes, at most GB, and the amount rounded in that unit |
| MainView.SizeText | src/client/js/main.js:590-594 | 'Unknown' exactly for the unknown estimate; otherwise the amount's digits, a space and the unit |
| MainView.SizeTextReadsBack | src/client/js/main.js:590-594 | the digits before the first space read back as the amount, and the rest is the unit |
| VizRegistry.VizKey | src/client/js/data-explorer.js:1175 | the key starts with the type and a dash and ends with a dash and the query |
| VizRegistry.Create | src/client/js/data-explorer.js:1178-1185 | a visualization is created iff its key is new, and then only that key is added |
| VizRegistry.Close | src/client/js/data-explorer.js:1217-1222 | closing removes the key and keeps every other |
| VizRegistry.Clear | src/client/js/data-explorer.js:166-171 | clearing the panel forgets every key |
| VizRegistry.ClearAllowsCreate | src/client/js/data-explorer.js:371-374 | after a clear any visualization can be created again |
| VizRegistry.CreateTwiceRefused | src/client/js/data-explorer.js:1178-1182 | a second request with the same key is refused and changes nothing |
| VizRegistry.CloseUndoesCreate | src/client/js/data-explorer.js:1217-1222 | closing a new visualization restores the set, and it can be created again |
| VizRegistry.KeysCanCollide | src/client/js/data-explorer.js:1175 | a dash in a title makes two different requests share a key, and the second is refused |
| DataExplorer.TableCountQuery | src/client/js/data-explorer.js:289-290 | the row-count query quotes one sanitised name |
| DataExplorer.ColumnDataQuery | src/client/js/data-explorer.js:347-351 | the column query quotes two sanitised names |
| DataExplorer.OpeningQueriesQuoteNames | src/client/js/data-explorer.js:289-351 | those queries hold exactly 2 and 4 double quotes: every name is delimited and none can break out |
| DataExplorer.QuotesDelimitNames | src/client/js/data-explorer.js:1062-1122 | a query of quoted sanitised names holds exactly two double quotes per name |
| DataExplorer.ColumnOr | src/client/js/data-explorer.js:1067 | a given column name is sanitised, an absent one is replaced by the default; either way an identifier |
| DataExplorer.GroupedQuery | src/client/js/data-explorer.js:1065-1087 | the bar and pie queries quote five sanitised names |
| DataExplorer.LineQuery | src/client/js/data-explorer.js:1089-1098 | the line query quotes four sanitised names |
| DataExplorer.HistogramQuery | src/client/js/data-explorer.js:1100-1108 | the histogram query quotes three sanitised names |
| DataExplorer.ScatterQuery | src/client/js/data-explorer.js:1110-1119 | the scatter query quotes five sanitised names |
| DataExplorer.ChartQuery | src/client/js/data-explorer.js:1058-1123 | every generated query quotes only sanitised names, the current table among them |
| DataExplorer.ChartQueryQuotesNames | src/client/js/data-explorer.js:1058-1123 | two double quotes per name; a histogram without a column uses 'value'; a bar query names five |
| DataExplorer.SafeQuery | src/client/js/data-explorer.js:1052-1054 | a recommendation's own query is left with no backtick |
| DataExplorer.SafeQueryReadsBack | src/client/js/data-explorer.js:1052-1054 | collapsing the doubled single quotes gives back the trimmed query with backticks as double quotes |
| DataExplorer.SafeQueryKeepsPlain | src/client/js/data-explorer.js:1052-1054 | a trimmed query without backticks or single quotes is passed unchanged |
| DataExplorer.TabFor | src/client/js/data-explorer.js:1145-1154 | the tab is one of the six tabs, and equals the type exactly when the type names a tab |
| DataExplorer.TabForIdempotent | src/client/js/data-explorer.js:1145-1154 | mapping a tab again gives the same tab |
| DataExplorer.ApplyRecommendation | src/client/js/data-explorer.js:1036-1143 | nothing happens without a recommendation or table; a query is set iff there is a query handler, with no backtick when the recommendation brings one and else with two quotes per name; the tab follows the type; the chart is registered only with a container |
| DataExplorer.ApplyTwiceRegistersOnce | src/client/js/data-explorer.js:1170-1185 | applying the same recommendation twice leaves the explorer as after once |
| DataExplorer.SuggestionQueries | src/client/js/data-explorer.js:1050-1128 | a suggestion's own query is sent escaped; one without a query gets the generated one |
| DataExplorer.ColumnSuggestions | src/client/js/data-explorer.js:383-417 | one suggestion exactly when the stats have a numeric range, categories or a date range: a histogram iff the numeric range, a bar iff categories, a line iff the date range; never more than one |
| DataExplorer.ColumnSuggestionFollowsFirstValue | src/client/js/data-explorer.js:383-417 | the chart offered for a column follows the class of its first value |
| DataExplorer.FormatExampleValue | src/client/js/data-explorer.js:590-607 | a shown string is at most 21 characters, and one shown as is is at most 20 |
| DataExplorer.ExampleFormatsAgree | src/client/js/data-explorer.js:590-607 | on values of at most 15 characters, the explorer shows examples as the main view does |
| DataExplorer.RowPercents | src/client/js/data-explorer.js:553-558 | completeness is Math.round of the present values' share of `totalCount \|\| 1`, and uniqueness the `\|\| 0` share of unique values among the present ones; completeness is in 0..100 when nulls do not exceed the total, and 100 without nulls or without stats; uniqueness is in 0..100 when the counts are consistent, and 0 without stats |
| DataExplorer.DetectedColumnsLookComplete | src/client/js/data-explorer.js:553-555 | every column of a generated profile shows 100% complete, since the detector never counts nulls |
| DataExplorer.TypeCounts | src/client/js/data-explorer.js:609-615 | one entry per type present, holding the number of columns of that type |
| DataExplorer.TallyCountsEveryColumn | src/client/js/data-explorer.js:611-615 | the per-type counts add up to the number of columns |
| HistogramBins.BinCount | src/client/js/visualizations/histogram-chart.js:27 | the given number of bins, 10 when it is 0 |
| HistogramBins.NumericValues | src/client/js/visualizations/histogram-chart.js:16-19 | a number is kept exactly when some row's cell is neither null nor undefined and `Number` reads it as that number; at most one per row |
| HistogramBins.MinOf | src/client/js/visualizations/histogram-chart.js:28 | the least value, and one of the values |
| HistogramBins.MaxOf | src/client/js/visualizations/histogram-chart.js:29 | the greatest value, and one of the values |
| HistogramBins.BinIndex | src/client/js/visualizations/histogram-chart.js:37-45 | the maximum goes to the last bin; any other value goes to the bin whose index is the floor of (v − min)/width, exactly when that quotient lies in [0, n); nothing when all values are equal |
| HistogramBins.BinIndexInRange | src/client/js/visualizations/histogram-chart.js:37-45 | every value between min and max lands in some bin |
| HistogramBins.BinCountsAreCounts | src/client/js/visualizations/histogram-chart.js:34-46 | bin b counts exactly the values whose index is b |
| HistogramBins.BinsHoldEveryValue | src/client/js/visualizations/histogram-chart.js:35-46 | with values between min and max the bins add up to the number of values |
| HistogramBins.CountBins | src/client/js/visualizations/histogram-chart.js:34-46 | the counting loop gives, for each bin, the number of values whose index is that bin |
| HistogramBins.BinBounds | src/client/js/visualizations/histogram-chart.js:49-53 | n labels, the first starting at min, the last ending at max, each ending where the next starts |
| HistogramBins.Render | src/client/js/visualizations/histogram-chart.js:13-53 | no data exactly for an empty result; otherwise 'no numeric data' exactly when the chosen column (the option, else the first key of the first row) has no numeric value or there is no such key; a chart has exactly bin-count counts and labels |
| HistogramBins.RenderCountsEveryValue | src/client/js/visualizations/histogram-chart.js:16-53 | every numeric value is counted once, and the labels run from the least to the greatest value |
| Text.Trim | src/client/js/query.js:86 | the trimmed text neither starts nor ends with whitespace |
| Text.TrimEmptyIff | src/client/js/query.js:86-87 | the trimmed text is empty iff the text is blank |
| Text.TrimStart | src/client/js/query.js:86 | drops exactly a whitespace prefix, leaving a suffix that does not start with whitespace |
| Text.TrimEnd | src/client/js/query.js:86 | drops exactly a whitespace suffix, leaving a prefix that does not end with whitespace |
| Text.ReplaceAll | src/client/js/main.js:305 | a text without the replaced character is unchanged, and a replacement without it leaves none |
| Text.Decimal | src/client/js/query.js:165 | a non-empty run of decimal digits without a leading zero, except for 0 itself |
| Text.DecimalRoundTrip | src/client/js/query.js:165 | the decimal rendering of a limit reads back as the limit |

## Left out

- Rendering is left out: D3 drawing, DOM updates, toasts, event wiring, `fetch`, Socket.IO and the Express plumbing. The model stops at the values those layers would show or send.
- SQL execution and the database connector are left out. Every query result is an input. The percentile `OFFSET` and the `strftime` bucketing are engine behaviour, so their results are inputs too.
- ColumnStatistics.DateBuilder: `rangeDays` is not modelled. It is a JavaScript `Date` subtraction over the minimum and maximum dates (src/data-profiler.js:575-582), and `new Date` parsing is outside the model.
- `Number(s)`, `Date.parse` and JavaScript's conversion of a general number to text are parameters (`JsRuntime`), not definitions.
- Text.Decimal: renders every natural in plain digits; JavaScript's `String(n)` switches to exponent form from 10^21 up ('1e+21'), which is not modelled.
- `toLocaleString`, `toFixed` and the `Math.round(x*100)/100` bucket labels are not formatted. The model keeps the number or the bounds that would be formatted.
- JavaScript numbers are exact reals, so infinities are not modelled. A REAL cell holding an infinity, or a text cell such as 'Infinity', '-Infinity' or '1e999', which `Number` turns into an infinity, has no counterpart in `Js.Value` or `JsRuntime.numberOf`. The source classes such a text float and reports infinite min, max and mean. NaN and +Infinity appear only where control flow depends on them: the `\|\| 0` percentages and histogram bounds over non-numbers.
- Js.RoundedPercent: rounds the exact percentage. The source rounds the double `(a / b) * 100`, which can fall just below a half: 23 of 40 gives 57.49999999999999 in double arithmetic, so a confidence of 57, where the model gives 58. Every percentage built on it (confidence, null, distinct and group percentages, the column table) shares this difference.
- String lengths count Dafny characters. JavaScript counts UTF-16 code units, so the 15, 20 and 12/18 cut-offs differ on characters outside the Basic Multilingual Plane.
- `normalizeQueryResult` and `normalizeArrayResult` are not modelled. Profiles and statistics take a canonical sequence of records. The schema reader keeps the array, object and other shapes it branches on.
- Records keep their keys in the given order. JavaScript's ordering of integer-like keys first in `Object.keys` is not modelled.
- TableProfiler.ColumnProfileOf: only the array form of the PRAGMA result is modelled (first match via `find`). The object form at src/data-profiler.js:736-742 takes the last match, and is left out.
- SchemaAnalyzer.GetSchema: the result is a sequence of (table, columns) pairs rather than an object keyed by name. Duplicate table names, which SQLite does not allow, would overwrite each other in the source.
- ServerRoutes.Handle: the table and column lists are canonical arrays of records. Normalising a non-array result with `Object.values`, and the `TypeError` from a null element (a 500), are not modelled. Failures inside the profiler itself are not modelled either.
- DataExplorer.ApplyRecommendation: `executeImmediately` is taken as its default, `true`. The query is set and the tab switched. Clicking the tab button is represented by the chosen tab.
- DataExplorer.Recommendation: its fields are strings, with "" standing for an absent or falsy field. Non-string field values are not modelled. One consequence: the key template at src/client/js/data-explorer.js:1175 writes an absent type or title as "undefined", so in the source an absent title collides with the title "undefined", while `VizRegistry.VizKey` renders it as "" and makes it collide with an empty title instead.
- HistogramBins.BinCount: `options.bins` is a natural number. Negative or fractional bin counts, and `Math.min`/`Math.max` over arrays too large to spread as arguments, are not modelled.
- ColumnStatistics: histogram bucket bounds are computed only when min and max are numbers. Otherwise JavaScript would produce NaN or string concatenations, and the bucket is marked unmodelled.

=== FILE: column_statistics.dfy ===
/** Column statistics: `generateColumnStatistics` picks a statistics builder
    from the class of the column's first value, and the builders turn query
    results into counts, percentages, ranges, a ten-bucket histogram, top
    values, categories and date distributions (src/data-profiler.js:270-698).
    The query results are inputs; queries the source wraps in `try` fall back
    when they fail, the others abort the whole call with the error message. */
module ColumnStatistics {
  import opened Wrappers
  import opened Js
  import opened TypeDetector

  /** `COUNT(col) as count, COUNT(*) as total`: SQL never counts more
      non-null values than rows. */
  datatype CountPair = CountPair(count: nat, total: nat)

  type Counts = c: CountPair | c.count <= c.total witness CountPair(0, 0)

  /** One row of a `GROUP BY ... COUNT(*) as count` query: the group's value
      (a cell, a year or a month) and its row count. */
  datatype Group = Group(value: Value, count: nat)

  /** The results of the queries the builders run, for one column. The
      grouped queries are given in the order their `ORDER BY` produces,
      without their `LIMIT`, which the model applies. */
  datatype ColumnDb = ColumnDb(
    firstRow: Answer<seq<Record>>,     // SELECT col FROM t LIMIT 1
    counts: Answer<Counts>,
    range: Answer<seq<Record>>,        // MIN/MAX/AVG, or MIN/MAX of a date column
    percentile25: Answer<seq<Record>>,
    percentile75: Answer<seq<Record>>,
    distinct: Answer<nat>,             // COUNT(DISTINCT col) || 0
    bucket: nat -> Answer<nat>,        // the count query of histogram bucket i
    top: Answer<seq<Group>>,           // GROUP BY col ORDER BY count DESC
    lengths: Answer<seq<Record>>,      // MIN/MAX/AVG(length(col))
    categories: Answer<seq<Group>>,    // as `top`, without LIMIT 5
    years: Answer<seq<Group>>,
    months: Answer<seq<Group>>)

  /** `normalizeQueryResult(rows)`: the first row; an empty array is returned
      itself, and every field of it reads as `undefined`. */
  function FirstRow(rows: seq<Record>): Record {
    if |rows| > 0 then rows[0] else Row([], map[])
  }

  /** `{ value, count, percent }` of a group. */
  datatype Share = Share(value: Value, count: nat, percent: Percent)

  /** `groups.map(g => ({ value, count, percent: Math.round(g.count / count * 100) || 0 }))`:
      each group keeps its value and count, and its percent is its share of
      the column's non-null count, a percentage whenever the group is part
      of that count. */
  function Shares(groups: seq<Group>, count: nat): (r: seq<Share>)
    ensures |r| == |groups|
    ensures forall k :: 0 <= k < |r| ==>
              r[k].value == groups[k].value && r[k].count == groups[k].count
    ensures forall k :: 0 <= k < |r| ==> r[k].percent == JsPercent(groups[k].count, count)
    ensures forall k :: 0 <= k < |r| && groups[k].count <= count ==>
              r[k].percent.Pct? && 0 <= r[k].percent.n <= 100
  {
    if |groups| == 0 then []
    else [Share(groups[0].value, groups[0].count, JsPercent(groups[0].count, count))]
         + Shares(groups[1..], count)
  }

  function Take<T>(xs: seq<T>, n: nat): (r: seq<T>)
    ensures |r| <= n && |r| <= |xs|
    ensures r == xs[..|r|]
    ensures |xs| >= n ==> |r| == n
  {
    if |xs| <= n then xs else xs[..n]
  }

  /** The fields every builder fills in first. */
  datatype BaseStats = BaseStats(count: nat, nulls: nat, nullPercent: Percent,
                                 distinctCount: nat, distinctPercent: Percent)

  /** `bucketCount` in the numeric builder. */
  const BucketCount: nat := 10

  /** The bounds of a histogram bucket; with a minimum or maximum that is not
      a number the bounds are `NaN` or a string concatenation, which the model
      does not compute. */
  datatype Bucket = Bounds(lower: real, upper: real) | Unmodelled

  datatype Histogram = Histogram(buckets: seq<Bucket>, counts: seq<nat>)

  datatype ColumnStats =
    | NoData
    | Failed(message: string)
    | NumericStats(base: BaseStats, min: Value, max: Value, mean: Value,
                   percentile25: Option<Value>, percentile75: Option<Value>,
                   histogram: Option<Histogram>, topValues: seq<Share>)
    | TextStats(base: BaseStats, minLength: Option<Value>, maxLength: Option<Value>,
                avgLength: Option<Value>, topValues: seq<Share>, categories: Option<seq<Share>>)
    | DateStats(base: BaseStats, minDate: Value, maxDate: Value,
                yearDistribution: Option<seq<Share>>, monthDistribution: Option<seq<Share>>)
    | GenericStats(base: BaseStats, topValues: seq<Share>)

  // ---- counts and percentages ---------------------------------------------

  /** The numeric builder's `total ? Math.round(nulls / total * 100) : 0`. */
  function NumericNullPercent(c: Counts): Percent {
    if c.total == 0 then Pct(0) else Pct(RoundedPercent(c.total - c.count, c.total))
  }

  /** The other builders' `Math.round(nulls / total * 100) || 0`. */
  function NullPercent(c: Counts): Percent {
    JsPercent(c.total - c.count, c.total)
  }

  /** The two ways of writing the null percentage agree, and give a
      percentage: with no rows there are no nulls, and 0/0 falls back to 0. */
  lemma NullPercentsAgree(c: Counts)
    ensures NumericNullPercent(c) == NullPercent(c)
    ensures NullPercent(c).Pct? && 0 <= NullPercent(c).n <= 100
  {
  }

  /** The count, null and distinct fields: the null percentage is the nulls'
      share of all rows, and the distinct percentage is the distinct values'
      share of the non-null values, a percentage since SQL never counts more
      distinct values than values. */
  function Base(c: Counts, distinct: nat, numeric: bool): (b: BaseStats)
    ensures b.count == c.count && b.count + b.nulls == c.total
    ensures b.nullPercent == JsPercent(b.nulls, c.total)
    ensures b.nullPercent.Pct? && 0 <= b.nullPercent.n <= 100
    ensures b.distinctCount == distinct && b.distinctPercent == JsPercent(distinct, c.count)
    ensures distinct <= c.count ==> b.distinctPercent.Pct? && 0 <= b.distinctPercent.n <= 100
  {
    NullPercentsAgree(c);
    var nulls := c.total - c.count;
    BaseStats(c.count, nulls,
              if numeric then NumericNullPercent(c) else NullPercent(c),
              distinct, JsPercent(distinct, c.count))
  }

  // ---- the numeric builder ---------------------------------------------------

  /** `stats.min + bucketSize * i` up to `stats.min + bucketSize * (i + 1)`. */
  function BucketOf(min: Value, max: Value, i: nat): Bucket {
    if min.Num? && max.Num? then
      var size := (max.x - min.x) / BucketCount as real;
      Bounds(min.x + size * i as real, min.x + size * (i + 1) as real)
    else Unmodelled
  }

  /** The buckets `0 .. i - 1` and their counts; a failed count query counts 0. */
  function BucketsUpTo(db: ColumnDb, min: Value, max: Value, i: nat): (h: Histogram)
    ensures |h.buckets| == i && |h.counts| == i
    ensures forall k :: 0 <= k < i ==> h.buckets[k] == BucketOf(min, max, k)
    ensures forall k :: 0 <= k < i ==>
              h.counts[k] == (match db.bucket(k) case Answer(n) => n case Fails(_) => 0)
  {
    if i == 0 then Histogram([], [])
    else
      var h := BucketsUpTo(db, min, max, i - 1);
      var n := match db.bucket(i - 1) case Answer(n) => n case Fails(_) => 0;
      Histogram(h.buckets + [BucketOf(min, max, i - 1)], h.counts + [n])
  }

  /** The histogram exists when neither the minimum nor the maximum is null. */
  function HistogramFor(db: ColumnDb, min: Value, max: Value): Option<Histogram> {
    if min != Null && max != Null then Some(BucketsUpTo(db, min, max, BucketCount)) else None
  }

  /** A field of a percentile query's first row, when it is not `undefined`. */
  function PercentileOf(rows: seq<Record>, column: string): Option<Value> {
    var v := Cell(FirstRow(rows), column);
    if v == Undefined then None else Some(v)
  }

  /** `generateNumericStats`: the count, range, distinct and top-value
      queries are compulsory and the first of them to fail is rethrown; the
      percentiles are kept only when both percentile queries answer, and the
      histogram exists exactly when the range has a minimum and a maximum. */
  function NumericBuilder(db: ColumnDb, column: string): (a: Answer<ColumnStats>)
    ensures db.counts.Fails? ==> a == Fails(db.counts.message)
    ensures db.counts.Answer? && db.range.Fails? ==> a == Fails(db.range.message)
    ensures db.counts.Answer? && db.range.Answer? && db.distinct.Fails? ==> a == Fails(db.distinct.message)
    ensures db.counts.Answer? && db.range.Answer? && db.distinct.Answer? && db.top.Fails? ==>
              a == Fails(db.top.message)
    ensures a.Answer? <==> db.counts.Answer? && db.range.Answer? && db.distinct.Answer? && db.top.Answer?
    ensures a.Answer? ==>
              && a.value.NumericStats?
              && a.value.base.count == db.counts.value.count
              && a.value.base.distinctCount == db.distinct.value
              && (a.value.percentile25.Some? ==> db.percentile25.Answer? && db.percentile75.Answer?)
              && (a.value.histogram.Some? <==> a.value.min != Null && a.value.max != Null)
              && |a.value.topValues| <= 5
    ensures a.Answer? ==>
              var range := FirstRow(db.range.value);
              && a.value.base == Base(db.counts.value, db.distinct.value, true)
              && a.value.min == Cell(range, "min") && a.value.max == Cell(range, "max")
              && a.value.mean == Cell(range, "mean")
              && a.value.topValues == Shares(Take(db.top.value, 5), db.counts.value.count)
  {
    var c :- db.counts;
    var rangeRows :- db.range;
    var range := FirstRow(rangeRows);
    var min := Cell(range, "min");
    var max := Cell(range, "max");
    // both percentile queries run before either field is set
    var percentiles :=
      if db.percentile25.Answer? && db.percentile75.Answer? then
        (PercentileOf(db.percentile25.value, column), PercentileOf(db.percentile75.value, column))
      else (None, None);
    var distinct :- db.distinct;
    var top :- db.top;
    Answer(NumericStats(Base(c, distinct, true), min, max, Cell(range, "mean"),
                        percentiles.0, percentiles.1, HistogramFor(db, min, max),
                        Shares(Take(top, 5), c.count)))
  }

  /** A histogram has ten buckets and ten counts, its buckets tile the range
      from the minimum to the maximum without gaps, and a bucket whose count
      query fails counts 0. */
  lemma HistogramShape(db: ColumnDb, min: Value, max: Value)
    requires min != Null && max != Null
    ensures var h := HistogramFor(db, min, max);
            && h.Some?
            && |h.value.buckets| == 10 && |h.value.counts| == 10
            && (forall k :: 0 <= k < 10 && db.bucket(k).Fails? ==> h.value.counts[k] == 0)
            && (min.Num? && max.Num? ==>
                  && h.value.buckets[0].lower == min.x
                  && h.value.buckets[9].upper == max.x
                  && forall k :: 0 <= k < 9 ==> h.value.buckets[k].upper == h.value.buckets[k + 1].lower)
  {
    var h := HistogramFor(db, min, max).value;
    if min.Num? && max.Num? {
      var size := (max.x - min.x) / 10.0;
      assert h.buckets[9] == BucketOf(min, max, 9);
      assert size * 10.0 == max.x - min.x;
    }
  }

  // ---- the text builder ------------------------------------------------------

  /** `distinctCount <= 20` */
  predicate LikelyCategorical(distinct: nat) {
    distinct <= 20
  }

  /** `generateTextStats`: the count, distinct and top-value queries are
      compulsory, and so is the category query when there are at most 20
      distinct values; the length fields are unset when their query fails. */
  function TextBuilder(db: ColumnDb): (a: Answer<ColumnStats>)
    ensures db.counts.Fails? ==> a == Fails(db.counts.message)
    ensures db.counts.Answer? && db.distinct.Fails? ==> a == Fails(db.distinct.message)
    ensures db.counts.Answer? && db.distinct.Answer? && db.top.Fails? ==> a == Fails(db.top.message)
    ensures a.Answer? <==>
              && db.counts.Answer? && db.distinct.Answer? && db.top.Answer?
              && (LikelyCategorical(db.distinct.value) ==> db.categories.Answer?)
    ensures a.Answer? ==>
              && a.value.TextStats?
              && a.value.base.count == db.counts.value.count
              && (a.value.minLength.Some? <==> db.lengths.Answer?)
              && (a.value.categories.Some? <==> LikelyCategorical(db.distinct.value))
              && |a.value.topValues| <= 5
    ensures a.Answer? ==>
              && a.value.base == Base(db.counts.value, db.distinct.value, false)
              && a.value.topValues == Shares(Take(db.top.value, 5), db.counts.value.count)
              && (a.value.categories.Some? ==>
                    a.value.categories.value == Shares(db.categories.value, db.counts.value.count))
  {
    var c :- db.counts;
    var distinct :- db.distinct;
    // the length query is inside `try`: on failure the three fields stay unset
    var lengths :=
      match db.lengths
      case Answer(rows) =>
        var row := FirstRow(rows);
        (Some(Cell(row, "min_length")), Some(Cell(row, "max_length")), Some(Cell(row, "avg_length")))
      case Fails(_) => (None, None, None);
    var top :- db.top;
    var categories :-
      if LikelyCategorical(distinct) then
        var groups :- db.categories;
        Answer(Some(Shares(groups, c.count)))
      else Answer(None);
    Answer(TextStats(Base(c, distinct, false), lengths.0, lengths.1, lengths.2,
                     Shares(Take(top, 5), c.count), categories))
  }

  // ---- the date builder ------------------------------------------------------

  /** `generateDateStats`: the count, range and distinct queries are
      compulsory; the year distribution is kept when its query answers, and
      the month distribution, at most twelve months, only when both do. */
  function DateBuilder(db: ColumnDb): (a: Answer<ColumnStats>)
    ensures db.counts.Fails? ==> a == Fails(db.counts.message)
    ensures db.counts.Answer? && db.range.Fails? ==> a == Fails(db.range.message)
    ensures db.counts.Answer? && db.range.Answer? && db.distinct.Fails? ==> a == Fails(db.distinct.message)
    ensures a.Answer? <==> db.counts.Answer? && db.range.Answer? && db.distinct.Answer?
    ensures a.Answer? ==>
              && a.value.DateStats?
              && a.value.base.count == db.counts.value.count
              && (a.value.yearDistribution.Some? <==> db.years.Answer?)
              && (a.value.monthDistribution.Some? <==> db.years.Answer? && db.months.Answer?)
              && (a.value.monthDistribution.Some? ==> |a.value.monthDistribution.value| <= 12)
    ensures a.Answer? ==>
              var range := FirstRow(db.range.value);
              && a.value.base == Base(db.counts.value, db.distinct.value, false)
              && a.value.minDate == Cell(range, "min_date") && a.value.maxDate == Cell(range, "max_date")
              && (a.value.yearDistribution.Some? ==>
                    a.value.yearDistribution.value == Shares(db.years.value, db.counts.value.count))
              && (a.value.monthDistribution.Some? ==>
                    a.value.monthDistribution.value == Shares(Take(db.months.value, 12), db.counts.value.count))
  {
    var c :- db.counts;
    var rangeRows :- db.range;
    var range := FirstRow(rangeRows);
    var distinct :- db.distinct;
    // both distributions are inside one `try`: the years are kept when only
    // the month query fails
    var years := match db.years case Answer(g) => Some(Shares(g, c.count)) case Fails(_) => None;
    var months :=
      if db.years.Answer? && db.months.Answer? then Some(Shares(Take(db.months.value, 12), c.count))
      else None;
    Answer(DateStats(Base(c, distinct, false), Cell(range, "min_date"), Cell(range, "max_date"),
                     years, months))
  }

  // ---- the generic builder ---------------------------------------------------

  /** `generateGenericStats`: counts, distinct count and at most five top
      values, each query compulsory. */
  function GenericBuilder(db: ColumnDb): (a: Answer<ColumnStats>)
    ensures db.counts.Fails? ==> a == Fails(db.counts.message)
    ensures db.counts.Answer? && db.distinct.Fails? ==> a == Fails(db.distinct.message)
    ensures db.counts.Answer? && db.distinct.Answer? && db.top.Fails? ==> a == Fails(db.top.message)
    ensures a.Answer? <==> db.counts.Answer? && db.distinct.Answer? && db.top.Answer?
    ensures a.Answer? ==>
              && a.value.GenericStats?
              && a.value.base.count == db.counts.value.count
              && |a.value.topValues| <= 5
    ensures a.Answer? ==>
              && a.value.base == Base(db.counts.value, db.distinct.value, false)
              && a.value.topValues == Shares(Take(db.top.value, 5), db.counts.value.count)
  {
    var c :- db.counts;
    var distinct :- db.distinct;
    var top :- db.top;
    Answer(GenericStats(Base(c, distinct, false), Shares(Take(top, 5), c.count)))
  }

  // ---- dispatch ----------------------------------------------------------------

  /** The builder `generateColumnStatistics` runs for a first value's class. */
  datatype Builder = Numeric | Text | Date | Generic

  function BuilderFor(t: Tag): Builder {
    match t
    case IntegerTag => Numeric
    case FloatTag => Numeric
    case StringTag => Text
    case DateTag => Date
    case DateTimeTag => Date
    case BooleanTag => Generic
    case NullTag => Generic
  }

  function Run(b: Builder, db: ColumnDb, column: string): Answer<ColumnStats> {
    match b
    case Numeric => NumericBuilder(db, column)
    case Text => TextBuilder(db)
    case Date => DateBuilder(db)
    case Generic => GenericBuilder(db)
  }

  /** `generateColumnStatistics(tableName, columnName)`: no first row gives
      'No data available'; otherwise the first value's class chooses the
      builder, and any error that escapes becomes `{ error: message }`. */
  function GenerateColumnStatistics(rt: JsRuntime, db: ColumnDb, column: string): (r: ColumnStats)
    ensures r == NoData <==> db.firstRow.Answer? && |db.firstRow.value| == 0
    ensures db.firstRow.Fails? ==> r == Failed(db.firstRow.message)
    ensures db.counts.Fails? && db.firstRow.Answer? && |db.firstRow.value| > 0 ==>
              r == Failed(db.counts.message)
  {
    match db.firstRow
    case Fails(m) => Failed(m)
    case Answer(rows) =>
      if |rows| == 0 then NoData
      else
        var tag := GetValueType(rt, Cell(rows[0], column));
        match Run(BuilderFor(tag), db, column)
        case Answer(s) => s
        case Fails(m) => Failed(m)
  }

  /** Which builder answers for which first value: numbers get the numeric
      statistics, strings the text statistics, dates and datetimes the date
      statistics, and booleans and nulls the generic ones. */
  lemma DispatchByFirstValue(rt: JsRuntime, db: ColumnDb, column: string)
    requires db.firstRow.Answer? && |db.firstRow.value| > 0
    ensures var r := GenerateColumnStatistics(rt, db, column);
            var tag := GetValueType(rt, Cell(db.firstRow.value[0], column));
            && (r.NumericStats? ==> tag == IntegerTag || tag == FloatTag)
            && (r.TextStats? ==> tag == StringTag)
            && (r.DateStats? ==> tag == DateTag || tag == DateTimeTag)
            && (r.GenericStats? ==> tag == BooleanTag || tag == NullTag)
            && (r.Failed? || r.NumericStats? || r.TextStats? || r.DateStats? || r.GenericStats?)
  {
  }

  /** A builder whose compulsory queries all succeed produces its statistics:
      the queries inside `try` never make the call fail. */
  lemma BuildersTolerateOptionalQueries(rt: JsRuntime, db: ColumnDb, column: string)
    requires db.firstRow.Answer? && |db.firstRow.value| > 0
    requires db.counts.Answer? && db.range.Answer? && db.distinct.Answer? && db.top.Answer?
    requires db.categories.Answer?
    ensures !GenerateColumnStatistics(rt, db, column).Failed?
  {
  }

  /** The counts of every builder's result: count plus nulls is the row
      count, and the null percentage is the nulls' share of all rows, a
      percentage. */
  lemma StatisticsCounts(rt: JsRuntime, db: ColumnDb, column: string)
    requires db.counts.Answer?
    ensures var r := GenerateColumnStatistics(rt, db, column);
            (r.NumericStats? || r.TextStats? || r.DateStats? || r.GenericStats?) ==>
              && r.base.count == db.counts.value.count
              && r.base.count + r.base.nulls == db.counts.value.total
              && r.base.nullPercent.Pct? && 0 <= r.base.nullPercent.n <= 100
              && r.base.nullPercent == JsPercent(r.base.nulls, db.counts.value.total)
  {
    if db.firstRow.Answer? && |db.firstRow.value| > 0 {
      RunBase(BuilderFor(GetValueType(rt, Cell(db.firstRow.value[0], column))), db, column);
    }
  }

  /** Every builder that answers fills in the base fields from the counts. */
  lemma RunBase(b: Builder, db: ColumnDb, column: string)
    requires db.counts.Answer?
    ensures var a := Run(b, db, column);
            a.Answer? ==>
              && (a.value.NumericStats? || a.value.TextStats? || a.value.DateStats? || a.value.GenericStats?)
              && a.value.base.count == db.counts.value.count
              && a.value.base.count + a.value.base.nulls == db.counts.value.total
              && a.value.base.nullPercent.Pct? && 0 <= a.value.base.nullPercent.n <= 100
              && a.value.base.nullPercent == JsPercent(a.value.base.nulls, db.counts.value.total)
  {
    match b
    case Numeric =>
    case Text =>
    case Date =>
    case Generic =>
  }

  /** Text statistics list the categories exactly when there are at most 20
      distinct values, and at most five top values. */
  lemma TextCategories(db: ColumnDb)
    requires TextBuilder(db).Answer?
    ensures var s := TextBuilder(db).value;
            && (s.categories.Some? <==> LikelyCategorical(s.base.distinctCount))
            && |s.topValues| <= 5
  {
  }

  /** Date statistics: at most twelve months, and months only with years. */
  lemma DateDistributions(db: ColumnDb)
    requires DateBuilder(db).Answer?
    ensures var s := DateBuilder(db).value;
            && (s.monthDistribution.Some? ==> |s.monthDistribution.value| <= 12)
            && (s.monthDistribution.Some? ==> s.yearDistribution.Some?)
  {
  }
}

=== FILE: data_explorer.dfy ===
/** The data explorer panel of the browser client
    (src/client/js/data-explorer.js): the queries it sends when a table or a
    column is opened, the chart suggestions it derives from column
    statistics, the rows of the column table, the type tally, and applying a
    recommendation, which registers the visualization and sends either the
    recommendation's own query, escaped, or one built from its columns. */
module DataExplorer {
  import opened Wrappers
  import opened Js
  import opened Text
  import opened Identifiers
  import opened TypeDetector
  import opened ColumnStatistics
  import Recommender
  import MainView
  import VizRegistry

  // ---- query text -------------------------------------------------------------

  /** A query template: pairs of fixed text and a name written between
      double quotes after it, then a fixed tail. */
  datatype Template = Template(parts: seq<(string, string)>, tail: string)

  function Quoted(n: string): string {
    "\"" + n + "\""
  }

  function RenderParts(parts: seq<(string, string)>): string {
    if |parts| == 0 then "" else parts[0].0 + Quoted(parts[0].1) + RenderParts(parts[1..])
  }

  function Render(tp: Template): string {
    RenderParts(tp.parts) + tp.tail
  }

  /** The fixed text holds no double quote and every name is a sanitised
      identifier. */
  predicate SafeTemplate(tp: Template) {
    && '"' !in tp.tail
    && forall k :: 0 <= k < |tp.parts| ==> '"' !in tp.parts[k].0 && IsIdentifier(tp.parts[k].1)
  }

  lemma {:induction false} QuotesInParts(parts: seq<(string, string)>)
    requires forall k :: 0 <= k < |parts| ==> '"' !in parts[k].0 && IsIdentifier(parts[k].1)
    ensures Occurrences(RenderParts(parts), '"') == 2 * |parts|
  {
    if |parts| > 0 {
      var lit := parts[0].0;
      var n := parts[0].1;
      QuotesInParts(parts[1..]);
      IdentifierHasNoQuotes(n);
      OccurrencesZero(n, '"');
      OccurrencesZero(lit, '"');
      OccurrencesAppend("\"", n, '"');
      OccurrencesAppend("\"" + n, "\"", '"');
      OccurrencesAppend(lit, Quoted(n), '"');
      OccurrencesAppend(lit + Quoted(n), RenderParts(parts[1..]), '"');
    }
  }

  /** In a query built from a safe template, every double quote opens or
      closes one of the names: no name can end its quoting early. */
  lemma QuotesDelimitNames(tp: Template)
    requires SafeTemplate(tp)
    ensures Occurrences(Render(tp), '"') == 2 * |tp.parts|
  {
    QuotesInParts(tp.parts);
    OccurrencesZero(tp.tail, '"');
    OccurrencesAppend(RenderParts(tp.parts), tp.tail, '"');
  }

  /** The query shown when a table is opened. */
  function TableCountQuery(table: string): (tp: Template)
    ensures SafeTemplate(tp) && |tp.parts| == 1
  {
    Template([("SELECT COUNT(*) as count FROM ", Sanitize(table))], "")
  }

  /** The query shown when a column is opened: its first 200 values. */
  function ColumnDataQuery(table: string, column: string): (tp: Template)
    ensures SafeTemplate(tp) && |tp.parts| == 2
  {
    Template([("SELECT ", Sanitize(column)), (" FROM ", Sanitize(table))], " LIMIT 200")
  }

  /** The table and column names typed into the explorer cannot break out of
      their quotes in the queries it sends on opening them. */
  lemma OpeningQueriesQuoteNames(table: string, column: string)
    ensures Occurrences(Render(TableCountQuery(table)), '"') == 2
    ensures Occurrences(Render(ColumnDataQuery(table, column)), '"') == 4
  {
    QuotesDelimitNames(TableCountQuery(table));
    QuotesDelimitNames(ColumnDataQuery(table, column));
  }

  // ---- recommendations ---------------------------------------------------------

  /** A recommendation as the explorer reads it. An absent field is "" (both
      are falsy). `first` is read as `xColumn`, `labelColumn` or `column` and
      `second` as `yColumn` or `valueColumn`, depending on the type: the
      fields the recommender fills for that type. */
  datatype Recommendation = Recommendation(kind: string, title: string, query: string,
                                           first: string, second: string)

  function KindName(k: Recommender.Kind): string {
    match k
    case Bar => "bar"
    case Pie => "pie"
    case Histogram => "histogram"
    case Line => "line"
    case Scatter => "scatter"
  }

  /** A suggestion of the server's recommender, as the client receives it. */
  function FromSuggestion(s: Recommender.Suggestion): Recommendation {
    Recommendation(KindName(s.kind), s.title, s.query.GetOr(""), s.first.GetOr(""), s.second.GetOr(""))
  }

  /** `field ? field.replace(/[^a-zA-Z0-9_]/g, '') : fallback` */
  function ColumnOr(field: string, fallback: string): (r: string)
    requires IsIdentifier(fallback)
    ensures IsIdentifier(r)
    ensures field == "" ==> r == fallback
    ensures field != "" ==> r == Sanitize(field)
  {
    if field != "" then Sanitize(field) else fallback
  }

  /** A line break of the query templates: a space, a newline and the
      template's indentation. */
  const Break: string := " \n                    "

  /** The fixed texts of the chart queries hold no double quote. */
  lemma ClausesQuoteFree(limit: string)
    requires '"' !in limit
    ensures '"' !in "SELECT " && '"' !in ", " && '"' !in " IS NOT NULL AND "
    ensures '"' !in Break + "FROM " && '"' !in Break + "WHERE "
    ensures '"' !in Break + "GROUP BY " && '"' !in Break + "ORDER BY "
    ensures '"' !in " DESC" + Break + "LIMIT " + limit && '"' !in Break + "LIMIT 100"
    ensures '"' !in " IS NOT NULL" + Break + "LIMIT 1000" && '"' !in " IS NOT NULL" + Break + "LIMIT 500"
  {
  }

  /** The bar and pie queries: two columns grouped by the first, ordered by
      the second, descending. */
  function GroupedQuery(a: string, b: string, t: string, limit: string): (tp: Template)
    requires IsIdentifier(a) && IsIdentifier(b) && IsIdentifier(t) && '"' !in limit
    ensures SafeTemplate(tp) && |tp.parts| == 5 && tp.parts[2].1 == t
  {
    ClausesQuoteFree(limit);
    Template([("SELECT ", a), (", ", b), (Break + "FROM ", t), (Break + "GROUP BY ", a),
              (Break + "ORDER BY ", b)], " DESC" + Break + "LIMIT " + limit)
  }

  function LineQuery(time: string, metric: string, t: string): (tp: Template)
    requires IsIdentifier(time) && IsIdentifier(metric) && IsIdentifier(t)
    ensures SafeTemplate(tp) && |tp.parts| == 4 && tp.parts[2].1 == t
  {
    ClausesQuoteFree("");
    Template([("SELECT ", time), (", ", metric), (Break + "FROM ", t), (Break + "ORDER BY ", time)],
             Break + "LIMIT 100")
  }

  function HistogramQuery(c: string, t: string): (tp: Template)
    requires IsIdentifier(c) && IsIdentifier(t)
    ensures SafeTemplate(tp) && |tp.parts| == 3 && tp.parts[1].1 == t
  {
    ClausesQuoteFree("");
    Template([("SELECT ", c), (Break + "FROM ", t), (Break + "WHERE ", c)],
             " IS NOT NULL" + Break + "LIMIT 1000")
  }

  function ScatterQuery(x: string, y: string, t: string): (tp: Template)
    requires IsIdentifier(x) && IsIdentifier(y) && IsIdentifier(t)
    ensures SafeTemplate(tp) && |tp.parts| == 5 && tp.parts[2].1 == t
  {
    ClausesQuoteFree("");
    Template([("SELECT ", x), (", ", y), (Break + "FROM ", t), (Break + "WHERE ", x),
              (" IS NOT NULL AND ", y)], " IS NOT NULL" + Break + "LIMIT 500")
  }

  /** The default column names are identifiers. */
  lemma DefaultsAreIdentifiers()
    ensures IsIdentifier("id") && IsIdentifier("count") && IsIdentifier("name")
    ensures IsIdentifier("date") && IsIdentifier("value") && IsIdentifier("x") && IsIdentifier("y")
  {
  }

  /** The query built from a recommendation's columns, per type, with the
      type's defaults for absent columns; an unknown type reads the first 100
      rows. The table is always the sanitised current table. */
  function ChartQuery(currentTable: string, r: Recommendation): (tp: Template)
    ensures SafeTemplate(tp)
    ensures |tp.parts| >= 1
    ensures exists k :: 0 <= k < |tp.parts| && tp.parts[k].1 == Sanitize(currentTable)
  {
    var t := Sanitize(currentTable);
    DefaultsAreIdentifiers();
    var tp :=
      if r.kind == "bar" then GroupedQuery(ColumnOr(r.first, "id"), ColumnOr(r.second, "count"), t, "20")
      else if r.kind == "pie" then GroupedQuery(ColumnOr(r.first, "name"), ColumnOr(r.second, "count"), t, "10")
      else if r.kind == "line" then LineQuery(ColumnOr(r.first, "date"), ColumnOr(r.second, "value"), t)
      else if r.kind == "histogram" then HistogramQuery(ColumnOr(r.first, "value"), t)
      else if r.kind == "scatter" then ScatterQuery(ColumnOr(r.first, "x"), ColumnOr(r.second, "y"), t)
      else Template([("SELECT * FROM ", t)], " LIMIT 100");
    assert tp.parts[if r.kind == "histogram" then 1 else if tp.parts[0].0 == "SELECT * FROM " then 0 else 2].1 == t;
    tp
  }

  /** The names of a built query are the sanitised current table and the
      sanitised columns, or the type's defaults; none of them can close its
      quotes early. A histogram without a column reads `value`. */
  lemma ChartQueryQuotesNames(currentTable: string, r: Recommendation)
    ensures var tp := ChartQuery(currentTable, r);
            Occurrences(Render(tp), '"') == 2 * |tp.parts|
    ensures r.kind == "histogram" && r.first == "" ==> ChartQuery(currentTable, r).parts[0].1 == "value"
    ensures r.kind == "bar" ==> |ChartQuery(currentTable, r).parts| == 5
  {
    QuotesDelimitNames(ChartQuery(currentTable, r));
  }

  /** `query.trim().replace(/`/g, '"').replace(/'/g, "''")` */
  function SafeQuery(q: string): (r: string)
    ensures '`' !in r
  {
    var unticked := Untick(Trim(q));
    ReplaceAllKeepsOut(unticked, '\'', "''", '`');
    ReplaceAll(unticked, '\'', "''")
  }

  /** `.replace(/`/g, '"')` */
  function Untick(s: string): (r: string)
    ensures '`' !in r
  {
    ReplaceAll(s, '`', "\"")
  }

  /** The escaping loses nothing beyond the trim: collapsing the doubled
      single quotes gives the trimmed query with backticks turned into double
      quotes. */
  lemma SafeQueryReadsBack(q: string)
    ensures Undouble(SafeQuery(q), '\'') == Untick(Trim(q))
  {
    UndoubleDoubled(Untick(Trim(q)), '\'');
  }

  /** A trimmed query with neither backticks nor single quotes is sent as it
      is. */
  lemma SafeQueryKeepsPlain(q: string)
    requires |q| > 0 ==> !IsJsWhitespace(q[0]) && !IsJsWhitespace(q[|q| - 1])
    requires '`' !in q && '\'' !in q
    ensures SafeQuery(q) == q
  {
    TrimOfTrimmed(q);
  }

  /** `mapRecommendationTypeToTab(recType)` */
  function TabFor(kind: string): (r: string)
    ensures r in {"bar", "pie", "line", "histogram", "scatter", "table"}
    ensures r == kind <==> kind in {"bar", "pie", "line", "histogram", "scatter", "table"}
  {
    if kind in {"bar", "pie", "line", "histogram", "scatter"} then kind else "table"
  }

  /** Mapping a tab name again gives the same tab. */
  lemma TabForIdempotent(kind: string)
    ensures TabFor(TabFor(kind)) == TabFor(kind)
  {
  }

  /** The explorer's state for this purpose: the open table ("" for none),
      the keys of the visualizations on screen, and whether the page has a
      visualization container and a query handler. */
  datatype Explorer = Explorer(currentTable: string, shown: set<string>,
                               hasContainer: bool, hasQueryHandler: bool)

  /** What applying a recommendation does: the new state, the query handed
      to the query handler, and the tab it switches to. */
  datatype Applied = Applied(explorer: Explorer, query: Option<string>, tab: Option<string>)

  /** `applyVisualizationRecommendation(recommendation)` */
  function ApplyRecommendation(e: Explorer, rec: Option<Recommendation>): (r: Applied)
    ensures rec.None? || e.currentTable == "" ==> r == Applied(e, None, None)
    ensures r.explorer.currentTable == e.currentTable
    ensures r.explorer.hasContainer == e.hasContainer && r.explorer.hasQueryHandler == e.hasQueryHandler
    ensures r.query.Some? <==> rec.Some? && e.currentTable != "" && e.hasQueryHandler
    ensures r.query.Some? && rec.value.query != "" ==> '`' !in r.query.value
    ensures r.query.Some? && rec.value.query == "" ==>
              Occurrences(r.query.value, '"') == 2 * |ChartQuery(e.currentTable, rec.value).parts|
    ensures rec.Some? && e.currentTable != "" ==> r.tab == Some(TabFor(rec.value.kind))
    ensures rec.Some? && e.currentTable != "" && e.hasContainer ==>
              r.explorer.shown == VizRegistry.Create(e.shown, VizKey(rec.value)).0
    ensures !e.hasContainer ==> r.explorer.shown == e.shown
  {
    match rec
    case None => Applied(e, None, None)
    case Some(recommendation) =>
      if e.currentTable == "" then Applied(e, None, None)
      else
        var shown := if e.hasContainer then VizRegistry.Create(e.shown, VizKey(recommendation)).0 else e.shown;
        ChartQueryQuotesNames(e.currentTable, recommendation);
        var query :=
          if !e.hasQueryHandler then None
          else if recommendation.query != "" then Some(SafeQuery(recommendation.query))
          else Some(Render(ChartQuery(e.currentTable, recommendation)));
        Applied(e.(shown := shown), query, Some(TabFor(recommendation.kind)))
  }

  /** The registry key of a recommendation. */
  function VizKey(r: Recommendation): string {
    VizRegistry.VizKey(r.kind, r.title, r.query)
  }

  /** Applying the same recommendation twice registers it once: the second
      time the set of visualizations does not change. */
  lemma ApplyTwiceRegistersOnce(e: Explorer, rec: Recommendation)
    requires e.currentTable != "" && e.hasContainer
    ensures var once := ApplyRecommendation(e, Some(rec)).explorer;
            ApplyRecommendation(once, Some(rec)).explorer == once
  {
  }

  /** The count suggestions of the recommender carry their own query, which
      is sent escaped; the column suggestions carry none, and the explorer
      builds a query over their sanitised columns. */
  lemma SuggestionQueries(e: Explorer, s: Recommender.Suggestion)
    requires e.currentTable != "" && e.hasQueryHandler
    ensures var q := ApplyRecommendation(e, Some(FromSuggestion(s))).query.value;
            && (s.query.Some? && s.query.value != "" ==> q == SafeQuery(s.query.value))
            && (s.query.None? ==> q == Render(ChartQuery(e.currentTable, FromSuggestion(s))))
  {
  }

  // ---- column statistics panel ---------------------------------------------------

  /** A chart offered under a column's statistics. */
  datatype ColumnSuggestion = ColumnSuggestion(kind: string, title: string, query: string)

  /** `stats.min !== undefined && stats.max !== undefined`: fields that are
      `undefined` do not survive the JSON response. */
  predicate HasNumericRange(s: ColumnStats) {
    s.NumericStats? && s.min != Undefined && s.max != Undefined
  }

  /** `stats.isLikelyCategorical && stats.categories` */
  predicate HasCategories(s: ColumnStats) {
    s.TextStats? && LikelyCategorical(s.base.distinctCount) && s.categories.Some?
  }

  /** `stats.minDate !== undefined && stats.maxDate !== undefined` */
  predicate HasDateRange(s: ColumnStats) {
    s.DateStats? && s.minDate != Undefined && s.maxDate != Undefined
  }

  /** The suggestions of `showColumnStats`, in the order they are offered.
      Their queries quote the column and table names as given. */
  function ColumnSuggestions(table: string, column: string, s: ColumnStats): (r: seq<ColumnSuggestion>)
    ensures |r| <= 1
    ensures |r| == 1 <==> HasNumericRange(s) || HasCategories(s) || HasDateRange(s)
    ensures |r| == 1 ==> && (r[0].kind == "histogram" <==> HasNumericRange(s))
                         && (r[0].kind == "bar" <==> HasCategories(s))
                         && (r[0].kind == "line" <==> HasDateRange(s))
  {
    var c := "\"" + column + "\"";
    var t := "\"" + table + "\"";
    (if HasNumericRange(s) then
       [ColumnSuggestion("histogram", "Distribution of " + column,
                         "SELECT " + c + " FROM " + t + " WHERE " + c + " IS NOT NULL LIMIT 1000")]
     else [])
    + (if HasCategories(s) then
         [ColumnSuggestion("bar", "Frequency of " + column + " values",
                           "SELECT " + c + ", COUNT(*) as count FROM " + t + " GROUP BY " + c
                           + " ORDER BY count DESC LIMIT 20")]
       else [])
    + (if HasDateRange(s) then
         [ColumnSuggestion("line", column + " over time",
                           "SELECT " + c + ", COUNT(*) as count FROM " + t + " GROUP BY " + c
                           + " ORDER BY " + c + " LIMIT 100")]
       else [])
  }

  /** The chart offered for a column follows the class of its first value:
      a histogram only for numbers, a bar chart only for strings, a line
      chart only for dates and datetimes, and nothing for booleans, nulls,
      an empty column or an error. */
  lemma ColumnSuggestionFollowsFirstValue(rt: JsRuntime, db: ColumnDb, table: string, column: string)
    ensures var s := GenerateColumnStatistics(rt, db, column);
            var r := ColumnSuggestions(table, column, s);
            |r| == 1 ==>
              && db.firstRow.Answer? && |db.firstRow.value| > 0
              && var tag := GetValueType(rt, Cell(db.firstRow.value[0], column));
                 && (r[0].kind == "histogram" ==> tag == IntegerTag || tag == FloatTag)
                 && (r[0].kind == "bar" ==> tag == StringTag)
                 && (r[0].kind == "line" ==> tag == DateTag || tag == DateTimeTag)
  {
    if db.firstRow.Answer? && |db.firstRow.value| > 0 {
      DispatchByFirstValue(rt, db, column);
    }
  }

  // ---- the column table ------------------------------------------------------------

  /** `formatExampleValue(value, type)`: strings longer than 20 keep 18
      characters. */
  function FormatExampleValue(rt: JsRuntime, v: Value, t: DataType): (r: MainView.Shown)
    ensures v.Str? && r.Text? ==> |r.s| <= 21
    ensures v.Str? && r.AsIs? ==> |v.s| <= 20
  {
    MainView.ShowExample(rt, v, IsNumericType(t), 20, 18)
  }

  /** The two profile tables show an example the same way unless it is a
      string longer than 15 characters, which only the main view shortens. */
  lemma ExampleFormatsAgree(rt: JsRuntime, v: Value, t: DataType)
    requires !(v.Str? && |v.s| > 15)
    ensures FormatExampleValue(rt, v, t) == MainView.ShowExample(rt, v, IsNumericType(t), 15, 12)
  {
  }

  /** `column.stats.totalCount || 1`: the row count the column table divides by. */
  function ShownTotal(s: DetectedStats): nat {
    if s.DetectedStats? && s.totalCount != 0 then s.totalCount else 1
  }

  /** `completePercent` and `uniquePercent` of `renderColumnRow`, from the
      stats of a profile column; `{}` stats read as no nulls, one row and no
      unique values. Completeness is the rounded share of present values in
      the shown total, and uniqueness the `|| 0` share of unique values among
      the present ones. */
  function RowPercents(s: DetectedStats): (r: (int, Percent))
    ensures s.DetectedStats? ==> r.0 == RoundedPercent(ShownTotal(s) - s.nullCount, ShownTotal(s))
    ensures s.DetectedStats? && s.nullCount <= ShownTotal(s) ==>
              r.1 == JsPercent(s.uniqueCount, ShownTotal(s) - s.nullCount)
    ensures s.DetectedStats? && s.nullCount <= s.totalCount ==> 0 <= r.0 <= 100
    ensures (s.NoStats? || s.nullCount == 0) ==> r.0 == 100
    ensures s.DetectedStats? && s.uniqueCount + s.nullCount <= s.totalCount ==>
              r.1.Pct? && 0 <= r.1.n <= 100
    ensures s.NoStats? ==> r.1 == Pct(0)
  {
    var nulls: int := if s.DetectedStats? then s.nullCount else 0;
    var total: int := if s.DetectedStats? && s.totalCount != 0 then s.totalCount else 1;
    var unique: int := if s.DetectedStats? then s.uniqueCount else 0;
    var complete := RoundedPercent(total - nulls, total);
    RoundedPercentOfWhole(total);
    assert nulls <= total ==> 0 <= complete <= 100 by {
      if nulls <= total {
        RoundedPercentBounds(total - nulls, total);
      }
    }
    var rest := total - nulls;
    var uniquePercent :=
      if rest > 0 then
        assert unique <= rest ==> 0 <= RoundedPercent(unique, rest) <= 100 by {
          if unique <= rest {
            RoundedPercentBounds(unique, rest);
          }
        }
        Pct(RoundedPercent(unique, rest))
      else if rest == 0 then (if unique == 0 then Pct(0) else PosInfinity)
      else Pct(RoundedPercent(-unique, -rest));
    (complete, uniquePercent)
  }

  /** Every column of a profile shows as 100% complete, an all-null column
      included: the type detector counts only the values that are not null,
      so its null count is always 0. */
  lemma DetectedColumnsLookComplete(rt: JsRuntime, values: seq<Value>)
    ensures var r := RowPercents(DetectDataType(rt, values).stats);
            && r.0 == 100
            && r.1.Pct? && 0 <= r.1.n <= 100
  {
  }

  // ---- the type tally ----------------------------------------------------------------

  /** How many columns have type `t`. */
  function CountType(types: seq<DataType>, t: DataType): nat {
    if |types| == 0 then 0 else (if types[0] == t then 1 else 0) + CountType(types[1..], t)
  }

  lemma {:induction false} CountTypeSnoc(types: seq<DataType>, x: DataType, t: DataType)
    ensures CountType(types + [x], t) == CountType(types, t) + (if x == t then 1 else 0)
  {
    if |types| > 0 {
      assert (types + [x])[1..] == types[1..] + [x];
      CountTypeSnoc(types[1..], x, t);
    } else {
      assert (types + [x])[1..] == [];
    }
  }

  lemma CountTypePresent(types: seq<DataType>, t: DataType)
    ensures CountType(types, t) > 0 <==> t in types
  {
    if |types| > 0 {
      CountTypePresent(types[1..], t);
      assert types == [types[0]] + types[1..];
    }
  }

  /** `typeCounts[type] = (typeCounts[type] || 0) + 1` over the columns: a
      type is a key exactly when some column has it, and then maps to the
      number of such columns. */
  function TypeCounts(types: seq<DataType>): (m: map<DataType, nat>)
    ensures forall t :: t in m <==> t in types
    ensures forall t :: t in m ==> m[t] == CountType(types, t)
  {
    if |types| == 0 then map[]
    else
      var init := types[..|types| - 1];
      var x := types[|types| - 1];
      var m := TypeCounts(init);
      assert types == init + [x];
      forall t
        ensures CountType(types, t) == CountType(init, t) + (if x == t then 1 else 0)
      {
        CountTypeSnoc(init, x, t);
      }
      CountTypePresent(init, x);
      m[x := (if x in m then m[x] else 0) + 1]
  }

  /** Summed over the seven types, the tally counts every column once. */
  function TallyTotal(types: seq<DataType>): nat {
    CountType(types, UnknownType) + CountType(types, IntegerType) + CountType(types, FloatType)
    + CountType(types, BooleanType) + CountType(types, DateType) + CountType(types, DateTimeType)
    + CountType(types, StringType)
  }

  lemma {:induction false} TallyCountsEveryColumn(types: seq<DataType>)
    ensures TallyTotal(types) == |types|
  {
    if |types| > 0 {
      TallyCountsEveryColumn(types[1..]);
    }
  }
}

=== FILE: date_patterns.dfy ===
/** The two regular expressions the value classifier tests strings against,
    written out as character predicates (src/data-profiler.js:247-248):

      date      /^\d{4}-\d{2}-\d{2}$/
      datetime  /^\d{4}-\d{2}-\d{2}[T ]\d{2}:\d{2}(:\d{2})?(\.\d+)?(Z|[+-]\d{2}:?\d{2})?$/

    Without the `u` flag `\d` is the ASCII class [0-9], and `$` without the
    `m` flag anchors at the very end of the input. */
module DatePatterns {

  predicate IsDigit(c: char) {
    '0' <= c <= '9'
  }

  /** `\d{4}-\d{2}-\d{2}` at the start of `s`. */
  predicate HasDatePrefix(s: string) {
    && |s| >= 10
    && IsDigit(s[0]) && IsDigit(s[1]) && IsDigit(s[2]) && IsDigit(s[3])
    && s[4] == '-'
    && IsDigit(s[5]) && IsDigit(s[6])
    && s[7] == '-'
    && IsDigit(s[8]) && IsDigit(s[9])
  }

  /** The whole of `s` is `\d{4}-\d{2}-\d{2}`. */
  predicate MatchesDate(s: string) {
    |s| == 10 && HasDatePrefix(s)
  }

  /** Length of the run of digits that starts `s`. */
  function DigitRun(s: string): (k: nat)
    ensures k <= |s|
    ensures forall j :: 0 <= j < k ==> IsDigit(s[j])
    ensures k < |s| ==> !IsDigit(s[k])
  {
    if |s| == 0 || !IsDigit(s[0]) then 0 else 1 + DigitRun(s[1..])
  }

  /** `(Z|[+-]\d{2}:?\d{2})?$` */
  predicate ZoneTail(t: string) {
    || |t| == 0
    || t == "Z"
    || (|t| == 5 && (t[0] == '+' || t[0] == '-')
        && IsDigit(t[1]) && IsDigit(t[2]) && IsDigit(t[3]) && IsDigit(t[4]))
    || (|t| == 6 && (t[0] == '+' || t[0] == '-')
        && IsDigit(t[1]) && IsDigit(t[2]) && t[3] == ':' && IsDigit(t[4]) && IsDigit(t[5]))
  }

  /** `(\.\d+)?(Z|[+-]\d{2}:?\d{2})?$`. The digit run is taken whole: the zone
      never starts with a digit, so no shorter run can lead to a match. */
  predicate FractionTail(t: string) {
    if |t| > 0 && t[0] == '.' then
      var k := DigitRun(t[1..]);
      k >= 1 && ZoneTail(t[1 + k..])
    else ZoneTail(t)
  }

  /** `(:\d{2})?(\.\d+)?(Z|[+-]\d{2}:?\d{2})?$`. A leading `:` can only open
      the seconds group: the later groups start with `.`, `Z`, `+` or `-`. */
  predicate SecondsTail(t: string) {
    if |t| > 0 && t[0] == ':' then
      |t| >= 3 && IsDigit(t[1]) && IsDigit(t[2]) && FractionTail(t[3..])
    else FractionTail(t)
  }

  /** The whole of `s` matches the datetime expression. */
  predicate MatchesDateTime(s: string) {
    && |s| >= 16
    && HasDatePrefix(s)
    && (s[10] == 'T' || s[10] == ' ')
    && IsDigit(s[11]) && IsDigit(s[12])
    && s[13] == ':'
    && IsDigit(s[14]) && IsDigit(s[15])
    && SecondsTail(s[16..])
  }

  /** No string matches both expressions: a date is ten characters long, a
      datetime at least sixteen. */
  lemma DateAndDateTimeExclusive(s: string)
    ensures !(MatchesDate(s) && MatchesDateTime(s))
  {
  }

  /** Every datetime starts with a complete date. */
  lemma DateTimeStartsWithDate(s: string)
    requires MatchesDateTime(s)
    ensures MatchesDate(s[..10])
  {
  }
}

=== FILE: histogram_bins.dfy ===
/** The binning of the histogram chart (src/client/js/visualizations/
    histogram-chart.js:16-53): the numeric values of one column are counted
    into equal-width bins between their minimum and maximum, the maximum
    going into the last bin. Drawing is not modelled. */
module HistogramBins {
  import opened Wrappers
  import opened Js

  /** `options.bins || 10`, an absent option being 0. */
  function BinCount(bins: nat): (n: nat)
    ensures n > 0
    ensures bins > 0 ==> n == bins
  {
    if bins == 0 then 10 else bins
  }

  /** A cell that is neither null nor undefined and that `Number` reads as `x`. */
  predicate Reads(rt: JsRuntime, v: Value, x: real) {
    !IsNullish(v) && ToNumber(rt, v) == Some(x)
  }

  /** The cells of `column` that are neither null nor undefined and that
      `Number` reads, as numbers, in row order. */
  function NumericValues(rt: JsRuntime, data: seq<Record>, column: string): (r: seq<real>)
    ensures |r| <= |data|
    ensures forall x :: x in r <==> exists k :: 0 <= k < |data| && Reads(rt, Cell(data[k], column), x)
    decreases |data|
  {
    if |data| == 0 then []
    else
      var v := Cell(data[0], column);
      var head := if !IsNullish(v) && ToNumber(rt, v).Some? then [ToNumber(rt, v).value] else [];
      var rest := NumericValues(rt, data[1..], column);
      assert forall k :: 1 <= k < |data| ==> data[k] == data[1..][k - 1];
      head + rest
  }

  function MinOf(xs: seq<real>): (m: real)
    requires |xs| > 0
    ensures m in xs
    ensures forall k :: 0 <= k < |xs| ==> m <= xs[k]
  {
    if |xs| == 1 then xs[0]
    else
      var m := MinOf(xs[1..]);
      assert forall k :: 1 <= k < |xs| ==> xs[k] == xs[1..][k - 1];
      if xs[0] <= m then xs[0] else m
  }

  function MaxOf(xs: seq<real>): (m: real)
    requires |xs| > 0
    ensures m in xs
    ensures forall k :: 0 <= k < |xs| ==> xs[k] <= m
  {
    if |xs| == 1 then xs[0]
    else
      var m := MaxOf(xs[1..]);
      assert forall k :: 1 <= k < |xs| ==> xs[k] == xs[1..][k - 1];
      if xs[0] >= m then xs[0] else m
  }

  /** The bin of a value: the last bin for the maximum, otherwise
      `Math.floor((value - min) / binWidth)` when it falls in `0 .. n - 1`.
      A zero width gives an infinite or NaN index, which is not counted. */
  function BinIndex(v: real, min: real, max: real, n: nat): (r: Option<nat>)
    requires n > 0
    ensures r.Some? ==> r.value < n
    ensures v == max ==> r == Some(n - 1)
    ensures v != max && min == max ==> r.None?
    ensures v != max && min != max ==>
              var q := (v - min) / ((max - min) / n as real);
              && (r.Some? <==> 0.0 <= q < n as real)
              && (r.Some? ==> r.value as real <= q < r.value as real + 1.0)
  {
    if v == max then Some(n - 1)
    else
      var width := (max - min) / n as real;
      if width == 0.0 then None
      else
        var i := ((v - min) / width).Floor;
        if 0 <= i < n then Some(i) else None
  }

  /** Every value between the minimum and the maximum lands in a bin. */
  lemma BinIndexInRange(v: real, min: real, max: real, n: nat)
    requires n > 0 && min <= v <= max
    ensures BinIndex(v, min, max, n).Some?
  {
    if v != max {
      var width := (max - min) / n as real;
      assert width > 0.0;
      var q := (v - min) / width;
      assert q * width == v - min;
      assert v - min < n as real * width;
      assert q < n as real;
      assert q >= 0.0;
    }
  }

  /** The bin counts, counting the values in order. */
  function BinCounts(values: seq<real>, min: real, max: real, n: nat): (r: seq<nat>)
    requires n > 0
    ensures |r| == n
  {
    if |values| == 0 then seq(n, _ => 0)
    else
      var prev := BinCounts(values[..|values| - 1], min, max, n);
      match BinIndex(values[|values| - 1], min, max, n)
      case Some(i) => prev[i := prev[i] + 1]
      case None => prev
  }

  /** How many of the values fall in bin `b`: an independent definition of
      one count. */
  function CountIn(values: seq<real>, min: real, max: real, n: nat, b: nat): nat
    requires n > 0
  {
    if |values| == 0 then 0
    else (if BinIndex(values[0], min, max, n) == Some(b) then 1 else 0) + CountIn(values[1..], min, max, n, b)
  }

  lemma {:induction false} CountInSnoc(values: seq<real>, v: real, min: real, max: real, n: nat, b: nat)
    requires n > 0
    ensures CountIn(values + [v], min, max, n, b)
            == CountIn(values, min, max, n, b) + (if BinIndex(v, min, max, n) == Some(b) then 1 else 0)
  {
    if |values| > 0 {
      assert (values + [v])[1..] == values[1..] + [v];
      CountInSnoc(values[1..], v, min, max, n, b);
    } else {
      assert (values + [v])[1..] == [];
    }
  }

  /** Bin `b` holds exactly the values whose index is `b`. */
  lemma {:induction false} BinCountsAreCounts(values: seq<real>, min: real, max: real, n: nat, b: nat)
    requires n > 0 && b < n
    ensures BinCounts(values, min, max, n)[b] == CountIn(values, min, max, n, b)
  {
    if |values| > 0 {
      var init := values[..|values| - 1];
      var v := values[|values| - 1];
      BinCountsAreCounts(init, min, max, n, b);
      assert values == init + [v];
      CountInSnoc(init, v, min, max, n, b);
    }
  }

  function Sum(s: seq<nat>): nat {
    if |s| == 0 then 0 else s[0] + Sum(s[1..])
  }

  lemma {:induction false} SumIncrement(s: seq<nat>, i: nat)
    requires i < |s|
    ensures Sum(s[i := s[i] + 1]) == Sum(s) + 1
  {
    if i == 0 {
      assert s[i := s[i] + 1][1..] == s[1..];
    } else {
      assert s[i := s[i] + 1][1..] == s[1..][i - 1 := s[i] + 1];
      SumIncrement(s[1..], i - 1);
    }
  }

  lemma {:induction false} SumZeros(n: nat)
    ensures Sum(seq(n, _ => 0)) == 0
  {
    if n > 0 {
      assert seq(n, _ => 0)[1..] == seq(n - 1, _ => 0);
      SumZeros(n - 1);
    }
  }

  /** When all values lie between the minimum and the maximum, the bins hold
      every value exactly once. */
  lemma {:induction false} BinsHoldEveryValue(values: seq<real>, min: real, max: real, n: nat)
    requires n > 0
    requires forall k :: 0 <= k < |values| ==> min <= values[k] <= max
    ensures Sum(BinCounts(values, min, max, n)) == |values|
  {
    if |values| == 0 {
      SumZeros(n);
    } else {
      var init := values[..|values| - 1];
      var v := values[|values| - 1];
      BinsHoldEveryValue(init, min, max, n);
      BinIndexInRange(v, min, max, n);
      var i := BinIndex(v, min, max, n).value;
      SumIncrement(BinCounts(init, min, max, n), i);
    }
  }

  /** `bins.forEach(...)` as a loop over the values. */
  method CountBins(values: seq<real>, min: real, max: real, n: nat) returns (bins: seq<nat>)
    requires n > 0
    ensures bins == BinCounts(values, min, max, n)
    ensures forall b :: 0 <= b < n ==> bins[b] == CountIn(values, min, max, n, b)
  {
    bins := seq(n, _ => 0);
    var i := 0;
    while i < |values|
      invariant 0 <= i <= |values|
      invariant bins == BinCounts(values[..i], min, max, n)
    {
      assert values[..i + 1][..i] == values[..i];
      var b := BinIndex(values[i], min, max, n);
      if b.Some? {
        bins := bins[b.value := bins[b.value] + 1];
      }
      i := i + 1;
    }
    assert values[..|values|] == values;
    forall b | 0 <= b < n
      ensures bins[b] == CountIn(values, min, max, n, b)
    {
      BinCountsAreCounts(values, min, max, n, b);
    }
  }

  /** The `i`-th bin boundary, `min + i * binWidth`. */
  function Boundary(min: real, width: real, i: nat): real {
    min + i as real * width
  }

  lemma BoundaryStep(min: real, width: real, i: nat)
    ensures Boundary(min, width, i + 1) == Boundary(min, width, i) + width
  {
    assert (i + 1) as real * width == i as real * width + width;
  }

  /** `n` bins of width `d / n` span `d`. */
  lemma WidthsAddUp(d: real, n: nat)
    requires n > 0
    ensures n as real * (d / n as real) == d
  {
  }

  /** The bin labels `start - end`, before `toFixed(2)`: bin `i` runs from
      boundary `i` to boundary `i + 1`. */
  function BinBounds(min: real, max: real, n: nat): (r: seq<(real, real)>)
    requires n > 0
    ensures |r| == n
    ensures r[0].0 == min && r[n - 1].1 == max
    ensures forall i :: 0 <= i < n - 1 ==> r[i].1 == r[i + 1].0
    ensures forall i :: 0 <= i < n ==> r[i].0 <= r[i].1 || max < min
  {
    var width := (max - min) / n as real;
    var r := seq(n, i requires 0 <= i < n => (Boundary(min, width, i), Boundary(min, width, i + 1)));
    assert r[n - 1].1 == Boundary(min, width, n);
    WidthsAddUp(max - min, n);
    assert max >= min ==> width >= 0.0;
    forall i | 0 <= i < n
      ensures r[i].0 <= r[i].1 || max < min
    {
      BoundaryStep(min, width, i);
    }
    r
  }

  /** What the chart shows. */
  datatype Chart =
    | NoData            // 'No data to display'
    | NoNumericData     // 'No numeric data to display'
    | Bars(counts: seq<nat>, bounds: seq<(real, real)>)

  /** `HistogramChart.render(data, options)` up to the drawing; `column` and
      `bins` are the options, "" and 0 when absent. Without a column option
      the chart reads the first key of the first row. */
  function Render(rt: JsRuntime, data: seq<Record>, column: string, bins: nat): (r: Chart)
    ensures r == NoData <==> |data| == 0
    ensures |data| > 0 && column != "" ==> (r == NoNumericData <==> NumericValues(rt, data, column) == [])
    ensures |data| > 0 && column == "" && |data[0].keys| == 0 ==> r == NoNumericData
    ensures |data| > 0 && column == "" && |data[0].keys| > 0 ==>
              (r == NoNumericData <==> NumericValues(rt, data, data[0].keys[0]) == [])
    ensures r.Bars? ==> |r.counts| == BinCount(bins) && |r.bounds| == BinCount(bins)
  {
    if |data| == 0 then NoData
    else
      var col: Option<string> :=
        if column != "" then Some(column)
        else if |data[0].keys| > 0 then Some(data[0].keys[0])
        else None;
      var values := if col.Some? then NumericValues(rt, data, col.value) else [];
      if |values| == 0 then NoNumericData
      else
        var n := BinCount(bins);
        var min := MinOf(values);
        var max := MaxOf(values);
        Bars(BinCounts(values, min, max, n), BinBounds(min, max, n))
  }

  /** A drawn histogram counts every numeric value of the column once, and
      its bins tile the range of the values from the minimum to the maximum. */
  lemma RenderCountsEveryValue(rt: JsRuntime, data: seq<Record>, column: string, bins: nat)
    requires column != ""
    ensures var r := Render(rt, data, column, bins);
            var values := NumericValues(rt, data, column);
            r.Bars? ==> && Sum(r.counts) == |values|
                        && r.bounds[0].0 == MinOf(values)
                        && r.bounds[|r.bounds| - 1].1 == MaxOf(values)
                        && forall i :: 0 <= i < |r.bounds| ==> r.bounds[i].0 <= r.bounds[i].1
  {
    var values := NumericValues(rt, data, column);
    if |data| > 0 && |values| > 0 {
      var min := MinOf(values);
      var max := MaxOf(values);
      assert min <= max by {
        assert max in values;
      }
      BinsHoldEveryValue(values, min, max, BinCount(bins));
    }
  }
}

=== FILE: identifiers.dfy ===
/** Identifier sanitisation: `name.replace(/[^a-zA-Z0-9_]/g, '')`, applied by
    the HTTP routes to table and column names and by the browser client before
    it splices a name into SQL text. */
module Identifiers {

  /** The characters the character class `[a-zA-Z0-9_]` accepts. */
  predicate IsIdentChar(c: char) {
    ('a' <= c <= 'z') || ('A' <= c <= 'Z') || ('0' <= c <= '9') || c == '_'
  }

  predicate IsIdentifier(s: string) {
    forall k :: 0 <= k < |s| ==> IsIdentChar(s[k])
  }

  /** Number of identifier characters in `s`. */
  function IdentCount(s: string): nat
  {
    if |s| == 0 then 0
    else (if IsIdentChar(s[0]) then 1 else 0) + IdentCount(s[1..])
  }

  /** Deletes every character outside `[a-zA-Z0-9_]`, keeping the rest in order. */
  function Sanitize(s: string): (r: string)
    ensures IsIdentifier(r)
    ensures |r| == IdentCount(s)
  {
    if |s| == 0 then ""
    else (if IsIdentChar(s[0]) then [s[0]] else []) + Sanitize(s[1..])
  }

  /** Sanitising distributes over concatenation, so the kept characters stay
      in their input order. */
  lemma {:induction false} SanitizeAppend(a: string, b: string)
    ensures Sanitize(a + b) == Sanitize(a) + Sanitize(b)
  {
    if |a| == 0 {
      assert a + b == b;
    } else {
      assert (a + b)[1..] == a[1..] + b;
      SanitizeAppend(a[1..], b);
    }
  }

  /** A name is left unchanged exactly when it is already an identifier. */
  lemma {:induction false} SanitizeFixedIff(s: string)
    ensures Sanitize(s) == s <==> IsIdentifier(s)
  {
    if |s| > 0 {
      SanitizeFixedIff(s[1..]);
      if IsIdentifier(s) {
        assert IsIdentifier(s[1..]) by {
          forall k | 0 <= k < |s[1..]| ensures IsIdentChar(s[1..][k]) {
            assert s[1..][k] == s[k + 1];
          }
        }
      }
    }
  }

  /** Sanitising twice is sanitising once. */
  lemma SanitizeIdempotent(s: string)
    ensures Sanitize(Sanitize(s)) == Sanitize(s)
  {
    SanitizeFixedIff(Sanitize(s));
  }

  /** A sanitised name is empty exactly when the input holds no identifier
      character. */
  lemma {:induction false} SanitizeEmptyIff(s: string)
    ensures Sanitize(s) == "" <==> (forall k :: 0 <= k < |s| ==> !IsIdentChar(s[k]))
  {
    if |s| > 0 {
      SanitizeEmptyIff(s[1..]);
      if forall k :: 0 <= k < |s| ==> !IsIdentChar(s[k]) {
        assert forall k :: 0 <= k < |s[1..]| ==> s[1..][k] == s[k + 1];
      } else {
        var k :| 0 <= k < |s| && IsIdentChar(s[k]);
        if k > 0 {
          assert s[1..][k - 1] == s[k];
        }
      }
    }
  }

  /** An identifier holds no double quote, so it cannot close a double-quoted
      SQL identifier, nor a single quote, so it cannot close a string literal. */
  lemma IdentifierHasNoQuotes(s: string)
    requires IsIdentifier(s)
    ensures '"' !in s && '\'' !in s
  {
  }
}

=== FILE: js.dfy ===
/** The JavaScript values that flow through the profiler, the parts of the
    JavaScript runtime the model keeps abstract, and the rounding of
    percentages the source performs with `Math.round`. */
module Js {
  import opened Wrappers

  /** A cell of a query result or an element of an examples array. Numbers
      are exact reals: the infinities a REAL column or `Number('Infinity')`
      can produce, and the rounding of double arithmetic, are not modelled. */
  datatype Value = Null | Undefined | Bool(b: bool) | Num(x: real) | Str(s: string)

  /** `v === null || v === undefined` */
  predicate IsNullish(v: Value) {
    v.Null? || v.Undefined?
  }

  /** JavaScript truthiness. */
  predicate Truthy(v: Value) {
    match v
    case Null => false
    case Undefined => false
    case Bool(b) => b
    case Num(x) => x != 0.0
    case Str(s) => |s| > 0
  }

  /** The runtime behaviour the model does not define:
      - `numberOf(s)` is `Number(s)` on a string, `None` when it is NaN;
      - `dateParses(s)` is `!isNaN(Date.parse(s))`;
      - `numberText(x)` is `String(x)`. */
  datatype JsRuntime = JsRuntime(
    numberOf: string -> Option<real>,
    dateParses: string -> bool,
    numberText: real -> string)

  /** `Number(v)`, with `None` for NaN. */
  function ToNumber(rt: JsRuntime, v: Value): Option<real> {
    match v
    case Null => Some(0.0)
    case Undefined => None
    case Bool(b) => Some(if b then 1.0 else 0.0)
    case Num(x) => Some(x)
    case Str(s) => rt.numberOf(s)
  }

  /** `Number.isInteger(x)` on a finite number. */
  predicate IsIntegral(x: real) {
    x.Floor as real == x
  }

  /** `String(v)`. */
  function StringOf(rt: JsRuntime, v: Value): string {
    match v
    case Null => "null"
    case Undefined => "undefined"
    case Bool(b) => if b then "true" else "false"
    case Num(x) => rt.numberText(x)
    case Str(s) => s
  }

  /** A result row: its keys in `Object.keys` order and its cells. */
  datatype Row = Row(keys: seq<string>, cells: map<string, Value>)

  /** A plain object: `Object.keys` never repeats a key, and lists exactly
      the keys the object holds. */
  predicate WellFormed(r: Row) {
    && (forall i, j :: 0 <= i < j < |r.keys| ==> r.keys[i] != r.keys[j])
    && r.cells.Keys == (set k | k in r.keys)
  }

  type Record = r: Row | WellFormed(r) witness Row([], map[])

  /** `row[key]`: a missing key reads as `undefined`. */
  function Cell(row: Row, key: string): Value {
    if key in row.cells then row.cells[key] else Undefined
  }

  /** `Math.round(100 * part / whole)` for a positive `whole`: the integer
      nearest to the percentage, halves rounded up. */
  function RoundedPercent(part: int, whole: int): (r: int)
    requires whole > 0
    ensures 2 * whole * r - whole <= 200 * part < 2 * whole * r + whole
  {
    (200 * part + whole) / (2 * whole)
  }

  lemma MulMonotone(a: int, b: int, c: int)
    requires a > 0 && b <= c
    ensures a * b <= a * c
  {
  }

  /** A share of a whole, rounded, is a percentage. */
  lemma RoundedPercentBounds(part: int, whole: int)
    requires 0 <= part <= whole && whole > 0
    ensures 0 <= RoundedPercent(part, whole) <= 100
  {
    var r := RoundedPercent(part, whole);
    var w2 := 2 * whole;
    assert w2 * r - whole <= 200 * part < w2 * r + whole;
    if r < 0 {
      MulMonotone(w2, r, -1);
      assert false;
    }
    if r > 100 {
      MulMonotone(w2, 101, r);
      assert false;
    }
  }

  /** The whole of something is a hundred per cent. */
  lemma RoundedPercentOfWhole(whole: int)
    requires whole > 0
    ensures RoundedPercent(whole, whole) == 100
  {
    var r := RoundedPercent(whole, whole);
    var w2 := 2 * whole;
    assert w2 * r - whole <= 200 * whole < w2 * r + whole;
    if r < 100 {
      MulMonotone(w2, r, 99);
      assert false;
    }
    if r > 100 {
      MulMonotone(w2, 101, r);
      assert false;
    }
  }

  /** The two results `Math.round(x) || 0` can have once `x` is a share of
      counts: an integer, or +Infinity (a positive part over a zero whole). */
  datatype Percent = Pct(n: int) | PosInfinity

  /** What `Math.round((part / whole) * 100) || 0` means on counts, without
      computing it: over a positive whole, the integer nearest to the exact
      percentage, halves rounding up; 0/0 is NaN, which `|| 0` turns into 0;
      a positive part over nothing is +Infinity. */
  predicate IsShareOf(p: Percent, part: nat, whole: nat) {
    if whole == 0 then p == (if part == 0 then Pct(0) else PosInfinity)
    else p.Pct? && 2 * whole * p.n - whole <= 200 * part < 2 * whole * p.n + whole
  }

  /** The description pins the percentage down: two results that both meet
      it are equal. */
  lemma IsShareOfUnique(p: Percent, q: Percent, part: nat, whole: nat)
    requires IsShareOf(p, part, whole) && IsShareOf(q, part, whole)
    ensures p == q
  {
    if whole > 0 {
      var w2 := 2 * whole;
      if p.n < q.n {
        MulMonotone(w2, p.n + 1, q.n);
        assert false;
      } else if q.n < p.n {
        MulMonotone(w2, q.n + 1, p.n);
        assert false;
      }
    }
  }

  /** `Math.round((part / whole) * 100) || 0` on counts: 0/0 is NaN and
      `NaN || 0` is 0. */
  function JsPercent(part: nat, whole: nat): (p: Percent)
    ensures whole > 0 && part <= whole ==> p.Pct? && 0 <= p.n <= 100
    ensures whole == 0 ==> (p == Pct(0) <==> part == 0)
  {
    if whole == 0 then (if part == 0 then Pct(0) else PosInfinity)
    else
      var r := RoundedPercent(part, whole);
      assert part <= whole ==> 0 <= r <= 100 by {
        if part <= whole {
          RoundedPercentBounds(part, whole);
        }
      }
      Pct(r)
  }

  /** `JsPercent` computes exactly the percentage `IsShareOf` describes,
      and by `IsShareOfUnique` nothing else does. */
  lemma JsPercentIsShare(part: nat, whole: nat)
    ensures IsShareOf(JsPercent(part, whole), part, whole)
  {
  }
}

=== FILE: main_view.dfy ===
/** Helpers of the browser client's main view (src/client/js/main.js): the
    CSV export of a query result, the example cells of the profile table and
    the size estimate shown with a table's profile. */
module MainView {
  import opened Wrappers
  import opened Js
  import opened Text
  import opened TypeDetector

  // ---- CSV export ------------------------------------------------------------

  /** The text of a cell: empty for null and undefined, `String(value)`
      otherwise. */
  function FieldText(rt: JsRuntime, v: Value): string {
    if IsNullish(v) then "" else StringOf(rt, v)
  }

  /** The export quotes a field that holds a comma or a double quote, and no
      other. */
  predicate NeedsQuotes(s: string) {
    ',' in s || '"' in s
  }

  /** One exported field: wrapped in double quotes, with its double quotes
      doubled, exactly when it needs quotes. */
  function EscapeField(s: string): (r: string)
    ensures NeedsQuotes(s) <==> |r| >= 2 && r[0] == '"' && r[|r| - 1] == '"'
    ensures !NeedsQuotes(s) ==> r == s
  {
    if NeedsQuotes(s) then "\"" + ReplaceAll(s, '"', "\"\"") + "\"" else s
  }

  /** Apart from double quotes, an exported field holds no character its
      text does not hold. */
  lemma EscapeKeepsOut(s: string, d: char)
    requires d != '"' && d !in s
    ensures d !in EscapeField(s)
  {
    if NeedsQuotes(s) {
      ReplaceAllKeepsOut(s, '"', "\"\"", d);
    }
  }

  /** Reads one field back: a quoted field loses its quotes and has its
      doubled quotes collapsed; any other field is taken as it is. */
  function UnescapeField(r: string): string {
    if |r| >= 2 && r[0] == '"' && r[|r| - 1] == '"' then Undouble(r[1..|r| - 1], '"') else r
  }

  /** Escaping a field loses nothing. */
  lemma FieldRoundTrip(s: string)
    ensures UnescapeField(EscapeField(s)) == s
  {
    if NeedsQuotes(s) {
      var inner := ReplaceAll(s, '"', "\"\"");
      assert EscapeField(s)[1..|EscapeField(s)| - 1] == inner;
      UndoubleDoubled(s, '"');
    }
  }

  function EscapeAll(fs: seq<string>): (r: seq<string>)
    ensures |r| == |fs|
    ensures forall k :: 0 <= k < |fs| ==> r[k] == EscapeField(fs[k])
  {
    seq(|fs|, k requires 0 <= k < |fs| => EscapeField(fs[k]))
  }

  /** The cell texts of one row, in column order; a column the row lacks is
      empty. */
  function RowTexts(rt: JsRuntime, row: Record, columns: seq<string>): (r: seq<string>)
    ensures |r| == |columns|
    ensures forall k :: 0 <= k < |columns| ==> r[k] == FieldText(rt, Cell(row, columns[k]))
  {
    seq(|columns|, k requires 0 <= k < |columns| => FieldText(rt, Cell(row, columns[k])))
  }

  function RowLine(rt: JsRuntime, row: Record, columns: seq<string>): string {
    Join(EscapeAll(RowTexts(rt, row, columns)), ",")
  }

  /** The lines of the export: a header of the first row's keys, joined by
      commas without escaping, then one line per row over those keys. */
  function CsvLines(rt: JsRuntime, data: seq<Record>): (r: seq<string>)
    requires |data| > 0
    ensures |r| == |data| + 1
  {
    var columns := data[0].keys;
    [Join(columns, ",")] + RowLines(rt, data, columns)
  }

  /** One line per row, over the given columns. */
  function RowLines(rt: JsRuntime, rows: seq<Record>, columns: seq<string>): (r: seq<string>)
    ensures |r| == |rows|
  {
    if |rows| == 0 then [] else [RowLine(rt, rows[0], columns)] + RowLines(rt, rows[1..], columns)
  }

  lemma {:induction false} RowLinesAt(rt: JsRuntime, rows: seq<Record>, columns: seq<string>, i: nat)
    requires i < |rows|
    ensures RowLines(rt, rows, columns)[i] == RowLine(rt, rows[i], columns)
  {
    if i > 0 {
      RowLinesAt(rt, rows[1..], columns, i - 1);
    }
  }

  /** `exportToCSV(data)`: nothing for an empty result; otherwise the lines
      joined by `\n`. */
  function ExportCsv(rt: JsRuntime, data: seq<Record>): (r: Option<string>)
    ensures r.None? <==> |data| == 0
  {
    if |data| == 0 then None else Some(Join(CsvLines(rt, data), "\n"))
  }

  // ---- reading the export back ---------------------------------------------------

  /** The contents of a quoted field after its opening quote, and the text
      after its closing quote; `""` inside stands for one quote. */
  function ScanQuoted(t: string): (r: (string, string))
    ensures |r.1| <= |t|
    decreases |t|
  {
    if |t| == 0 then ("", "")
    else if t[0] == '"' then
      if |t| >= 2 && t[1] == '"' then
        var p := ScanQuoted(t[2..]);
        (['"'] + p.0, p.1)
      else ("", t[1..])
    else
      var p := ScanQuoted(t[1..]);
      ([t[0]] + p.0, p.1)
  }

  /** The fields of one CSV line in the usual reading: fields are separated by
      commas, and a field that starts with a double quote runs to its closing
      quote. */
  function ParseRecord(s: string): (r: seq<string>)
    ensures |r| > 0
    decreases |s|
  {
    if |s| > 0 && s[0] == '"' then
      var p := ScanQuoted(s[1..]);
      if |p.1| > 0 && p.1[0] == ',' then [p.0] + ParseRecord(p.1[1..]) else [p.0]
    else
      var i := IndexOf(s, ',');
      if i == |s| then [s] else [s[..i]] + ParseRecord(s[i + 1..])
  }

  /** The lines of a CSV text, each read as a record. */
  function ParseCsv(text: string): (r: seq<seq<string>>)
    ensures |r| == |Split(text, '\n')|
  {
    var lines := Split(text, '\n');
    seq(|lines|, i requires 0 <= i < |lines| => ParseRecord(lines[i]))
  }

  /** A closing quote ends the scan. */
  lemma ScanClose(rest: string)
    requires |rest| == 0 || rest[0] != '"'
    ensures ScanQuoted(['"'] + rest) == ("", rest)
  {
    assert (['"'] + rest)[1..] == rest;
  }

  /** What escaping makes of one character of a field: a quote is doubled. */
  function Doubled(x: char): string {
    if x == '"' then ['"', '"'] else [x]
  }

  /** One escaped character is read back as that character, and the scan
      goes on after it. */
  lemma ScanStep(x: char, t: string, g: string, rest: string)
    requires ScanQuoted(t) == (g, rest)
    ensures ScanQuoted(Doubled(x) + t) == ([x] + g, rest)
  {
    if x == '"' {
      assert (['"', '"'] + t)[2..] == t;
    } else {
      assert ([x] + t)[1..] == t;
    }
  }

  lemma ConsAssoc(a: string, b: string, c: string)
    ensures (a + b) + c == a + (b + c)
  {
  }

  /** A quoted field's contents are read back up to its closing quote. */
  lemma {:induction false} ScanDoubled(f: string, rest: string)
    requires |rest| == 0 || rest[0] != '"'
    ensures ScanQuoted(ReplaceAll(f, '"', "\"\"") + (['"'] + rest)) == (f, rest)
  {
    if |f| == 0 {
      assert ReplaceAll(f, '"', "\"\"") + (['"'] + rest) == ['"'] + rest;
      ScanClose(rest);
    } else {
      var g := f[1..];
      var r := ReplaceAll(g, '"', "\"\"");
      var q := ['"'] + rest;
      assert f == [f[0]] + g;
      ScanDoubled(g, rest);
      ScanStep(f[0], r + q, g, rest);
      assert ReplaceAll(f, '"', "\"\"") == Doubled(f[0]) + r;
      ConsAssoc(Doubled(f[0]), r, q);
    }
  }

  /** The last field of a record reads back as itself. */
  lemma LastField(f: string)
    ensures ParseRecord(EscapeField(f)) == [f]
  {
    var s := EscapeField(f);
    if NeedsQuotes(f) {
      var inner := ReplaceAll(f, '"', "\"\"");
      assert s[1..] == inner + (['"'] + "");
      ScanDoubled(f, "");
    } else {
      assert IndexOf(s, ',') == |s| by {
        assert s == f;
      }
    }
  }

  /** A field followed by a comma reads back as itself, and reading goes on
      after the comma. */
  lemma FieldThenRest(f: string, rest: string)
    ensures ParseRecord(EscapeField(f) + "," + rest) == [f] + ParseRecord(rest)
  {
    if NeedsQuotes(f) {
      QuotedThenRest(f, rest);
    } else {
      PlainThenRest(f, rest);
    }
  }

  /** A record that starts with a quote reads a quoted field first. */
  lemma ParseQuoted(body: string)
    ensures var p := ScanQuoted(body);
            ParseRecord(['"'] + body) ==
              if |p.1| > 0 && p.1[0] == ',' then [p.0] + ParseRecord(p.1[1..]) else [p.0]
  {
    assert (['"'] + body)[1..] == body;
  }

  lemma QuotedThenRest(f: string, rest: string)
    requires NeedsQuotes(f)
    ensures ParseRecord(EscapeField(f) + "," + rest) == [f] + ParseRecord(rest)
  {
    var tail := "," + rest;
    var body := ReplaceAll(f, '"', "\"\"") + (['"'] + tail);
    assert EscapeField(f) + "," + rest == ['"'] + body;
    ParseQuoted(body);
    ScanDoubled(f, tail);
    assert tail[1..] == rest;
  }

  lemma PlainThenRest(f: string, rest: string)
    requires !NeedsQuotes(f)
    ensures ParseRecord(EscapeField(f) + "," + rest) == [f] + ParseRecord(rest)
  {
    var s := f + [','] + rest;
    assert EscapeField(f) + "," + rest == s;
    IndexOfAfter(f, ',', rest);
    assert s[..|f|] == f;
    assert s[|f| + 1..] == rest;
    assert |s| > 0 ==> s[0] != '"' by {
      if |f| > 0 {
        assert s[0] == f[0];
      }
    }
  }

  /** One exported record reads back as its fields. */
  lemma {:induction false} RecordRoundTrip(fs: seq<string>)
    requires |fs| > 0
    ensures ParseRecord(Join(EscapeAll(fs), ",")) == fs
  {
    if |fs| == 1 {
      LastField(fs[0]);
    } else {
      var rest := Join(EscapeAll(fs[1..]), ",");
      assert EscapeAll(fs)[1..] == EscapeAll(fs[1..]);
      FieldThenRest(fs[0], rest);
      RecordRoundTrip(fs[1..]);
      assert fs == [fs[0]] + fs[1..];
    }
  }

  /** An exported record has no line break unless a field text has one. */
  lemma EscapedHasNoBreak(fs: seq<string>)
    requires forall k :: 0 <= k < |fs| ==> '\n' !in fs[k]
    ensures '\n' !in Join(EscapeAll(fs), ",")
  {
    var es := EscapeAll(fs);
    forall k | 0 <= k < |fs|
      ensures '\n' !in es[k]
    {
      EscapeKeepsOut(fs[k], '\n');
    }
    JoinExcludes(es, ",", '\n');
  }

  /** No cell text of the row, over the given columns, holds a line break. */
  predicate CellsHaveNoBreak(rt: JsRuntime, row: Record, columns: seq<string>) {
    forall k :: 0 <= k < |columns| ==> '\n' !in FieldText(rt, Cell(row, columns[k]))
  }

  lemma RowLineHasNoBreak(rt: JsRuntime, row: Record, columns: seq<string>)
    requires CellsHaveNoBreak(rt, row, columns)
    ensures '\n' !in RowLine(rt, row, columns)
  {
    var fs := RowTexts(rt, row, columns);
    assert forall k :: 0 <= k < |fs| ==> '\n' !in fs[k];
    EscapedHasNoBreak(fs);
  }

  /** Reading the export back gives the header and every row's cell texts,
      provided no key needs quotes and no key or cell text holds a line
      break: the header is written unescaped, and a field is quoted for
      commas and quotes but not for line breaks. */
  lemma CsvRoundTrip(rt: JsRuntime, data: seq<Record>)
    requires |data| > 0 && |data[0].keys| > 0
    requires forall k :: 0 <= k < |data[0].keys| ==>
               !NeedsQuotes(data[0].keys[k]) && '\n' !in data[0].keys[k]
    requires forall i :: 0 <= i < |data| ==> CellsHaveNoBreak(rt, data[i], data[0].keys)
    ensures var r := ParseCsv(ExportCsv(rt, data).value);
            && |r| == |data| + 1
            && r[0] == data[0].keys
            && forall i :: 0 <= i < |data| ==> r[i + 1] == RowTexts(rt, data[i], data[0].keys)
  {
    var columns := data[0].keys;
    var lines := CsvLines(rt, data);
    LinesHaveNoBreak(rt, data);
    SplitJoin(lines, '\n');
    var r := ParseCsv(ExportCsv(rt, data).value);
    assert r[0] == ParseRecord(lines[0]);
    assert EscapeAll(columns) == columns;
    RecordRoundTrip(columns);
    forall i | 0 <= i < |data|
      ensures r[i + 1] == RowTexts(rt, data[i], columns)
    {
      assert r[i + 1] == ParseRecord(lines[i + 1]);
      CsvLineAt(rt, data, i);
      RecordRoundTrip(RowTexts(rt, data[i], columns));
    }
  }

  lemma CsvLineAt(rt: JsRuntime, data: seq<Record>, i: nat)
    requires i < |data|
    ensures CsvLines(rt, data)[i + 1] == RowLine(rt, data[i], data[0].keys)
  {
    RowLinesAt(rt, data, data[0].keys, i);
  }

  lemma HeaderHasNoBreak(rt: JsRuntime, data: seq<Record>)
    requires |data| > 0
    requires forall k :: 0 <= k < |data[0].keys| ==> '\n' !in data[0].keys[k]
    ensures '\n' !in CsvLines(rt, data)[0]
  {
    assert CsvLines(rt, data)[0] == Join(data[0].keys, ",");
    JoinExcludes(data[0].keys, ",", '\n');
  }

  lemma RowHasNoBreak(rt: JsRuntime, data: seq<Record>, j: nat)
    requires j < |data|
    requires CellsHaveNoBreak(rt, data[j], data[0].keys)
    ensures '\n' !in CsvLines(rt, data)[j + 1]
  {
    CsvLineAt(rt, data, j);
    RowLineHasNoBreak(rt, data[j], data[0].keys);
  }

  lemma LinesHaveNoBreak(rt: JsRuntime, data: seq<Record>)
    requires |data| > 0
    requires forall k :: 0 <= k < |data[0].keys| ==> '\n' !in data[0].keys[k]
    requires forall i :: 0 <= i < |data| ==> CellsHaveNoBreak(rt, data[i], data[0].keys)
    ensures forall i :: 0 <= i < |CsvLines(rt, data)| ==> '\n' !in CsvLines(rt, data)[i]
  {
    forall i | 0 <= i < |CsvLines(rt, data)|
      ensures '\n' !in CsvLines(rt, data)[i]
    {
      if i == 0 {
        HeaderHasNoBreak(rt, data);
      } else {
        RowHasNoBreak(rt, data, i - 1);
      }
    }
  }

  /** A cell text with a line break is written unquoted, so its record reads
      back as two: a one-column row whose value holds one line break (and no
      comma or quote) exports to three lines. */
  lemma NewlineSplitsRecord(rt: JsRuntime, row: Record, column: string, a: string, b: string)
    requires row.keys == [column] && Cell(row, column) == Str(a + "\n" + b)
    requires '\n' !in column && '\n' !in a && '\n' !in b
    requires !NeedsQuotes(a + "\n" + b)
    ensures |ParseCsv(ExportCsv(rt, [row]).value)| == 3
  {
    var v := a + "\n" + b;
    assert RowTexts(rt, row, [column]) == [v];
    assert EscapeAll([v]) == [v];
    assert CsvLines(rt, [row]) == [column, v];
    var text := ExportCsv(rt, [row]).value;
    assert text == column + ['\n'] + (a + ['\n'] + b);
    SplitStep(column, '\n', a + ['\n'] + b);
    SplitStep(a, '\n', b);
    SplitJoin([b], '\n');
  }

  // ---- examples in the profile table ---------------------------------------------

  /** What an example cell shows: a text, a number in the locale's format
      (`toLocaleString`, not modelled), or the value itself. */
  datatype Shown = Text(s: string) | LocaleNumber(x: real) | AsIs(v: Value)

  /** The example formatting the two profile tables share: null is 'NULL',
      the empty string '(empty)', a string longer than `longer` keeps its
      first `keep` characters and gets '...', and a value `Number` can read
      is shown as a number when the column is numeric. */
  function ShowExample(rt: JsRuntime, v: Value, numeric: bool, longer: nat, keep: nat): (r: Shown)
    requires keep <= longer
    ensures r == Text("NULL") <==> v == Null
    ensures r == Text("(empty)") <==> v == Str("")
    ensures v.Str? && |v.s| > longer ==> r.Text? && |r.s| == keep + 3 && r.s[..keep] == v.s[..keep]
    ensures r.LocaleNumber? <==> && v != Null && (v.Str? ==> 0 < |v.s| <= longer)
                                 && numeric && ToNumber(rt, v).Some?
    ensures r.LocaleNumber? ==> Some(r.x) == ToNumber(rt, v)
    ensures r.AsIs? ==> r.v == v
  {
    if v == Null then Text("NULL")
    else if v == Str("") then Text("(empty)")
    else if v.Str? && |v.s| > longer then
      var s := v.s[..keep] + "...";
      assert s[..keep] == v.s[..keep];
      assert s != "NULL" && s != "(empty)" by {
        assert s[|s| - 1] == '.';
      }
      Text(s)
    else if numeric && ToNumber(rt, v).Some? then LocaleNumber(ToNumber(rt, v).value)
    else AsIs(v)
  }

  /** `formatExamples(examples, type)` of the profile table: 'No examples'
      for none, otherwise the first three, at most 15 characters kept whole
      and 12 kept of a longer string. */
  function FormatExamples(rt: JsRuntime, examples: seq<Value>, t: DataType): (r: Option<seq<Shown>>)
    ensures r.None? <==> |examples| == 0
    ensures r.Some? ==> |r.value| == if |examples| < 3 then |examples| else 3
    ensures r.Some? ==> forall k :: 0 <= k < |r.value| ==>
              r.value[k] == ShowExample(rt, examples[k], IsNumericType(t), 15, 12)
  {
    if |examples| == 0 then None
    else
      var shown := if |examples| < 3 then examples else examples[..3];
      Some(seq(|shown|, k requires 0 <= k < |shown| => ShowExample(rt, shown[k], IsNumericType(t), 15, 12)))
  }

  /** No string example takes more than 15 characters in the profile table,
      and a shown string is always a prefix of the example or a prefix
      followed by '...'. */
  lemma ExampleTextBounded(rt: JsRuntime, examples: seq<Value>, t: DataType, k: nat)
    requires k < |examples| && k < 3 && examples[k].Str?
    ensures var r := FormatExamples(rt, examples, t).value[k];
            var s := examples[k].s;
            && (r.Text? ==> |r.s| <= 15 && (s == "" || r.s == s[..12] + "..."))
            && (r.AsIs? ==> |s| <= 15)
  {
  }

  // ---- size estimate --------------------------------------------------------------

  datatype SizeUnit = Bytes | KB | MB | GB

  function UnitBytes(u: SizeUnit): nat {
    match u
    case Bytes => 1
    case KB => 1024
    case MB => 1024 * 1024
    case GB => 1024 * 1024 * 1024
  }

  /** 'Unknown', or an amount of a unit. */
  datatype SizeEstimate = Unknown | Size(amount: nat, unit: SizeUnit)

  /** `Math.round(a / b)` on non-negative integers: ties round up. */
  function RoundDiv(a: nat, b: nat): (r: nat)
    requires b > 0
    ensures 2 * b * r <= 2 * a + b < 2 * b * r + 2 * b
  {
    (2 * a + b) / (2 * b)
  }

  /** `estimateTableSize(rows, cols)`: 20 bytes a cell, shown in the largest
      unit of 1024 that fits, rounded to a whole number; 'Unknown' when
      either count is 0. The amount is at most half a unit away from the
      estimate, and below 1024 (or exactly 1024 from rounding) except in GB. */
  function EstimateTableSize(rows: nat, cols: nat): (r: SizeEstimate)
    ensures r == Unknown <==> rows == 0 || cols == 0
    ensures r.Size? ==> var bytes := rows * cols * 20;
              && UnitBytes(r.unit) <= bytes
              && (r.unit != GB ==> bytes < 1024 * UnitBytes(r.unit) && r.amount <= 1024)
              && 2 * UnitBytes(r.unit) * r.amount <= 2 * bytes + UnitBytes(r.unit)
              && 2 * bytes + UnitBytes(r.unit) < 2 * UnitBytes(r.unit) * (r.amount + 1)
              && r.amount >= 1
  {
    if rows == 0 || cols == 0 then Unknown
    else
      var bytes := rows * cols * 20;
      assert bytes >= 20 by {
        MulMonotone(rows, 1, cols);
      }
      if bytes < 1024 then Size(bytes, Bytes)
      else if bytes < 1024 * 1024 then Size(RoundDiv(bytes, 1024), KB)
      else if bytes < 1024 * 1024 * 1024 then Size(RoundDiv(bytes, 1024 * 1024), MB)
      else Size(RoundDiv(bytes, 1024 * 1024 * 1024), GB)
  }

  function UnitName(u: SizeUnit): string {
    match u
    case Bytes => "B"
    case KB => "KB"
    case MB => "MB"
    case GB => "GB"
  }

  /** The text shown: 'Unknown' or the amount, a space and the unit. */
  function SizeText(e: SizeEstimate): (r: string)
    ensures r == "Unknown" <==> e.Unknown?
    ensures e.Size? ==>
              var d := Decimal(e.amount);
              && |r| > |d| && r[..|d|] == d && r[|d|] == ' ' && r[|d| + 1..] == UnitName(e.unit)
  {
    match e
    case Unknown => "Unknown"
    case Size(n, u) =>
      var r := Decimal(n) + " " + UnitName(u);
      assert r[0] == Decimal(n)[0];
      r
  }

  /** The size text reads back: the digits before the first space are the
      amount, and what follows the space is the unit. */
  lemma SizeTextReadsBack(e: SizeEstimate)
    requires e.Size?
    ensures var r := SizeText(e);
            var d := |Decimal(e.amount)|;
            && (forall k :: 0 <= k < d ==> '0' <= r[k] <= '9')
            && r[d] == ' '
            && DecimalValue(r[..d]) == e.amount
            && r[d + 1..] == UnitName(e.unit)
  {
    DecimalRoundTrip(e.amount);
  }
}

=== FILE: query_console.dfy ===
/** The SQL console of the browser client (src/client/js/query.js:83-184):
    the query history with its cursor, driven by `executeQuery` and
    `navigateHistory`, and the two query-text builders. The editor element
    is `None` when the page has no query input. */
module QueryConsole {
  import opened Wrappers
  import opened Text

  /** `history`, `historyIndex` and the editor's text. */
  datatype Console = Console(history: seq<string>, index: int, editor: Option<string>)

  /** The history keeps at most this many queries. */
  const HistoryLimit: nat := 50

  /** The constructor's state: no history, the cursor at -1. */
  function Initial(editor: Option<string>): Console {
    Console([], -1, editor)
  }

  /** Non-empty, and neither starting nor ending with whitespace: what `trim`
      leaves of a non-blank string. */
  predicate Trimmed(s: string) {
    |s| > 0 && !IsJsWhitespace(s[0]) && !IsJsWhitespace(s[|s| - 1])
  }

  /** The history is bounded, holds trimmed non-empty queries with no two
      neighbours equal, and the cursor is -1 before the first query and
      within `0 .. |history|` afterwards. */
  ghost predicate Inv(c: Console) {
    && HistoryOk(c.history)
    && (if |c.history| == 0 then c.index == -1 else 0 <= c.index <= |c.history|)
  }

  ghost predicate HistoryOk(h: seq<string>) {
    && |h| <= HistoryLimit
    && (forall i :: 0 <= i < |h| ==> Trimmed(h[i]))
    && (forall i :: 0 <= i < |h| - 1 ==> h[i] != h[i + 1])
  }

  /** Remembering a trimmed query that differs from the last entry keeps the
      history well formed. */
  lemma RememberOk(h: seq<string>, q: string)
    requires HistoryOk(h) && Trimmed(q)
    requires |h| == 0 || h[|h| - 1] != q
    ensures HistoryOk(Remember(h, q))
  {
    var pushed := h + [q];
    assert forall i :: 0 <= i < |pushed| - 1 ==> pushed[i] != pushed[i + 1];
    assert forall i :: 0 <= i < |pushed| ==> Trimmed(pushed[i]);
  }

  /** `history.push(query)`, then `history.shift()` past the limit. */
  function Remember(h: seq<string>, q: string): (r: seq<string>)
    ensures |r| == if |h| < HistoryLimit then |h| + 1 else |h|
    ensures |r| > 0 && r[|r| - 1] == q
    ensures |h| < HistoryLimit ==> r == h + [q]
    ensures |h| >= HistoryLimit ==> r == h[1..] + [q]
  {
    var pushed := h + [q];
    if |pushed| > HistoryLimit then pushed[1..] else pushed
  }

  /** `executeQuery()`: the new state and the query sent to the server. A
      blank editor sends nothing; a query equal to the last one is sent but
      not remembered again. */
  function Execute(c: Console): (r: (Console, Option<string>))
    ensures r.1.Some? <==> c.editor.Some? && !AllWhitespace(c.editor.value)
    ensures r.1.Some? ==> r.1.value == Trim(c.editor.value)
    ensures r.1.None? ==> r.0 == c
    ensures r.0.editor == c.editor
  {
    match c.editor
    case None => (c, None)
    case Some(text) =>
      var q := Trim(text);
      TrimEmptyIff(text);
      if q == "" then (c, None)
      else if |c.history| == 0 || c.history[|c.history| - 1] != q then
        var h := Remember(c.history, q);
        (Console(h, |h|, c.editor), Some(q))
      else (c, Some(q))
  }

  /** A query equal to the last one leaves history and cursor alone. */
  lemma ExecuteRepeat(c: Console)
    requires c.editor.Some? && |c.history| > 0
    requires c.history[|c.history| - 1] == Trim(c.editor.value)
    ensures Execute(c).0 == c
  {
  }

  /** A new query is remembered and the cursor moves past the end. */
  lemma ExecuteAppends(c: Console)
    requires c.editor.Some? && !AllWhitespace(c.editor.value)
    requires |c.history| == 0 || c.history[|c.history| - 1] != Trim(c.editor.value)
    ensures var r := Execute(c).0;
            && r.history == Remember(c.history, Trim(c.editor.value))
            && r.index == |r.history|
  {
    TrimEmptyIff(c.editor.value);
  }

  lemma ExecutePreservesInv(c: Console)
    requires Inv(c)
    ensures Inv(Execute(c).0)
  {
    if c.editor.Some? && !AllWhitespace(c.editor.value) {
      var q := Trim(c.editor.value);
      TrimEmptyIff(c.editor.value);
      assert Trimmed(q);
      if |c.history| == 0 || c.history[|c.history| - 1] != q {
        ExecuteAppends(c);
        RememberOk(c.history, q);
      }
    }
  }

  /** `navigateHistory(direction)`: moves the cursor when the history is not
      empty and the new position lies within `0 .. |history|`, and shows the
      entry there, or an empty editor past the end. */
  function Navigate(c: Console, direction: int): (r: Console)
    ensures r.history == c.history
    ensures r == c || r.index == c.index + direction
    ensures r != c ==> 0 <= r.index <= |c.history|
    ensures r.editor.Some? <==> c.editor.Some?
  {
    if |c.history| == 0 || c.editor.None? then c
    else
      var i := c.index + direction;
      if i < 0 || i > |c.history| then c
      else Console(c.history, i, Some(if i == |c.history| then "" else c.history[i]))
  }

  /** After a move, the editor shows the entry under the cursor, or nothing
      when the cursor is past the last entry. */
  lemma NavigateShowsEntry(c: Console, direction: int)
    requires c.editor.Some? && |c.history| > 0
    requires 0 <= c.index + direction <= |c.history|
    ensures var r := Navigate(c, direction);
            && r.index == c.index + direction
            && (r.index == |r.history| ==> r.editor == Some(""))
            && (r.index < |r.history| ==> r.editor == Some(r.history[r.index]))
  {
  }

  /** A move outside the history, or any move with no history, changes nothing. */
  lemma NavigateOutOfRange(c: Console, direction: int)
    requires |c.history| == 0 || c.index + direction < 0 || c.index + direction > |c.history|
    ensures Navigate(c, direction) == c
  {
  }

  lemma NavigatePreservesInv(c: Console, direction: int)
    requires Inv(c)
    ensures Inv(Navigate(c, direction))
  {
  }

  /** Stepping back and then forward returns to the same cursor position. */
  lemma NavigateBackAndForth(c: Console)
    requires Inv(c) && c.editor.Some? && |c.history| > 0 && c.index > 0
    ensures Navigate(Navigate(c, -1), 1).index == c.index
  {
  }

  // ---- query builders ------------------------------------------------------

  /** The column list of a select: the columns joined by commas, or `*` when
      there are none. */
  function SelectColumns(columns: Option<seq<string>>): string {
    if columns.Some? && |columns.value| > 0 then Join(columns.value, ", ") else "*"
  }

  /** The text after `LIMIT`: the limit in decimal, 100 by default. */
  function LimitText(limit: Option<nat>): string {
    Decimal(limit.GetOr(100))
  }

  /** Where the pieces of a four-part concatenation sit. */
  lemma Pieces(a: string, b: string, m: string, d: string)
    ensures var r := a + b + m + d;
            && r[..|a|] == a
            && r[|a|..|a| + |b|] == b
            && r[|r| - |d|..] == d
  {
    var r := a + b + m + d;
    assert r == (a + b) + (m + d);
    assert (a + b)[..|a|] == a;
    assert r[|r| - |d|..] == d;
  }

  /** `generateSelectQuery(tableName, columns, limit = 100)`: `columns` is
      `None` when it is not an array, `limit` when it is not given. */
  function GenerateSelectQuery(table: string, columns: Option<seq<string>>, limit: Option<nat>): (r: string)
    ensures r == "" <==> table == ""
    ensures table != "" ==>
              && |r| > 8 + |SelectColumns(columns)| + |LimitText(limit)|
              && r[..7] == "SELECT "
              && r[7..7 + |SelectColumns(columns)|] == SelectColumns(columns)
              && r[|r| - 1 - |LimitText(limit)|..] == LimitText(limit) + ";"
  {
    if table == "" then ""
    else
      var m := " FROM " + table + " LIMIT ";
      var r := "SELECT " + SelectColumns(columns) + m + (LimitText(limit) + ";");
      Pieces("SELECT ", SelectColumns(columns), m, LimitText(limit) + ";");
      r
  }

  /** The number after `LIMIT` reads back as the limit, 100 when none is given. */
  lemma SelectLimitReadsBack(table: string, columns: Option<seq<string>>, limit: Option<nat>)
    requires table != ""
    ensures var r := GenerateSelectQuery(table, columns, limit);
            var lim := LimitText(limit);
            && |r| > |lim|
            && r[|r| - 1 - |lim|..|r| - 1] == lim
            && DecimalValue(lim) == (if limit.Some? then limit.value else 100)
  {
    DigitsBeforeSemicolon(GenerateSelectQuery(table, columns, limit), LimitText(limit));
    DecimalRoundTrip(limit.GetOr(100));
  }

  lemma DigitsBeforeSemicolon(r: string, lim: string)
    requires |r| > |lim| && r[|r| - 1 - |lim|..] == lim + ";"
    ensures r[|r| - 1 - |lim|..|r| - 1] == lim
  {
    assert r[|r| - 1 - |lim|..|r| - 1] == r[|r| - 1 - |lim|..][..|lim|];
  }

  /** The aggregate of a group-by query: the function over the aggregate
      column as `value`, or over `*` as `count` when there is no column. */
  function Aggregate(aggregateColumn: string, aggregateFunc: Option<string>): string {
    var f := aggregateFunc.GetOr("COUNT");
    if aggregateColumn != "" then f + "(" + aggregateColumn + ") as value" else f + "(*) as count"
  }

  /** `generateGroupByQuery(table, groupBy, aggregateColumn = null,
      aggregateFunc = 'COUNT')`. An empty aggregate column counts as absent,
      like `null`, and `aggregateFunc` is `None` when it is not given. */
  function GenerateGroupByQuery(table: string, groupBy: string, aggregateColumn: string,
                                aggregateFunc: Option<string>): (r: string)
    ensures r == "" <==> table == "" || groupBy == ""
    ensures r != "" ==>
              var p := "SELECT " + groupBy + ", ";
              var g := Aggregate(aggregateColumn, aggregateFunc);
              && |r| >= |p| + |g| + 27
              && r[..|p|] == p
              && r[|p|..|p| + |g|] == g
              && r[|r| - 27..] == " ORDER BY 2 DESC LIMIT 100;"
  {
    if table == "" || groupBy == "" then ""
    else
      var p := "SELECT " + groupBy + ", ";
      var g := Aggregate(aggregateColumn, aggregateFunc);
      var m := " FROM " + table + " GROUP BY " + groupBy;
      Pieces(p, g, m, " ORDER BY 2 DESC LIMIT 100;");
      p + g + m + " ORDER BY 2 DESC LIMIT 100;"
  }

  lemma DefaultAggregate()
    ensures Aggregate("", None) == "COUNT(*) as count"
  {
    assert "COUNT" + "(*) as count" == "COUNT(*) as count";
  }

  /** Without an aggregate column the query counts rows, `COUNT(*) as count`
      by default. */
  lemma GroupByCountsByDefault(table: string, groupBy: string)
    requires table != "" && groupBy != ""
    ensures var r := GenerateGroupByQuery(table, groupBy, "", None);
            var p := "SELECT " + groupBy + ", ";
            r[|p|..|p| + 17] == "COUNT(*) as count"
  {
    DefaultAggregate();
  }
}

=== FILE: recommender.dfy ===
/** The visualization recommender `suggestVisualizations(tableProfile)`
    (src/data-profiler.js:772-905): a pure function from a table profile to a
    flat list of chart suggestions, built in five blocks (bars, pies,
    histograms, lines, scatters) with nothing deduplicated. */
module Recommender {
  import opened Wrappers
  import opened TypeDetector
  import TableProfiler

  /** The parts of a profile column the recommender reads. `distinctCount`
      is `stats.distinctCount`, a field the column statistics carry but the
      type detector never sets; `potentialCategory` is
      `stats.potentialCategory === true`. */
  datatype VizColumn = VizColumn(name: string, detectedType: DataType, potentialCategory: bool,
                                 distinctCount: Option<int>)

  datatype VizProfile = VizProfile(tableName: string, columns: seq<VizColumn>)

  datatype Kind = Bar | Pie | Histogram | Line | Scatter

  datatype Priority = High | Medium | Low

  /** One suggestion. `first` is the `xColumn`, `labelColumn` or `column`
      field and `second` the `yColumn` or `valueColumn` field; the count
      variants carry a `query` instead. */
  datatype Suggestion = Suggestion(kind: Kind, title: string, description: string,
                                   first: Option<string>, second: Option<string>,
                                   query: Option<string>, priority: Priority)

  predicate IsNumericColumn(c: VizColumn) {
    c.detectedType == IntegerType || c.detectedType == FloatType
  }

  /** `potentialCategory === true`, or a string column with a truthy
      `distinctCount` below 20. */
  predicate IsCategorical(c: VizColumn)
    ensures c.detectedType != StringType ==> (IsCategorical(c) <==> c.potentialCategory)
    ensures c.potentialCategory ==> IsCategorical(c)
    ensures IsCategorical(c) && !c.potentialCategory ==>
              c.detectedType == StringType && c.distinctCount.Some? && c.distinctCount.value < 20
  {
    || c.potentialCategory
    || (c.detectedType == StringType && c.distinctCount.Some?
        && c.distinctCount.value != 0 && c.distinctCount.value < 20)
  }

  /** A truthy `distinctCount` of at most 10. */
  predicate IsPieCategory(c: VizColumn)
    ensures IsPieCategory(c) ==> c.distinctCount.Some? && c.distinctCount.value <= 10
    ensures c.detectedType == StringType && IsPieCategory(c) ==> IsCategorical(c)
  {
    c.distinctCount.Some? && c.distinctCount.value != 0 && c.distinctCount.value <= 10
  }

  predicate IsDateColumn(c: VizColumn) {
    c.detectedType == DateType || c.detectedType == DateTimeType
  }

  /** `cols.filter(p)` */
  function Filter(cols: seq<VizColumn>, p: VizColumn -> bool): (r: seq<VizColumn>)
    ensures |r| <= |cols|
    ensures forall k :: 0 <= k < |r| ==> p(r[k]) && r[k] in cols
    ensures forall c :: c in cols && p(c) ==> c in r
  {
    if |cols| == 0 then []
    else (if p(cols[0]) then [cols[0]] else []) + Filter(cols[1..], p)
  }

  /** Suggestions per category column: one per numeric column, or the single
      count variant when there is none. */
  function Width(num: seq<VizColumn>): nat {
    if |num| == 0 then 1 else |num|
  }

  /** The suggestions of several columns, one block after another. */
  function Flatten(blocks: seq<seq<Suggestion>>): seq<Suggestion> {
    if |blocks| == 0 then [] else blocks[0] + Flatten(blocks[1..])
  }

  lemma {:induction false} FlattenLength(blocks: seq<seq<Suggestion>>, w: nat)
    requires forall j :: 0 <= j < |blocks| ==> |blocks[j]| == w
    ensures |Flatten(blocks)| == |blocks| * w
  {
    if |blocks| > 0 {
      FlattenLength(blocks[1..], w);
    }
  }

  lemma {:induction false} FlattenKind(blocks: seq<seq<Suggestion>>, k: Kind)
    requires forall j :: 0 <= j < |blocks| ==> AllKind(blocks[j], k)
    ensures AllKind(Flatten(blocks), k)
  {
    if |blocks| > 0 {
      FlattenKind(blocks[1..], k);
    }
  }

  /** With blocks of width `w`, position `i * w + k` is slot `k` of block `i`. */
  lemma {:induction false} FlattenAt(blocks: seq<seq<Suggestion>>, w: nat, i: nat, k: nat)
    requires forall j :: 0 <= j < |blocks| ==> |blocks[j]| == w
    requires i < |blocks| && k < w
    ensures i * w + k < |Flatten(blocks)|
    ensures Flatten(blocks)[i * w + k] == blocks[i][k]
  {
    FlattenLength(blocks, w);
    if i > 0 {
      FlattenAt(blocks[1..], w, i - 1, k);
      assert i * w + k == w + ((i - 1) * w + k);
    }
  }

  predicate AllKind(s: seq<Suggestion>, k: Kind) {
    forall i :: 0 <= i < |s| ==> s[i].kind == k
  }

  // ---- bars ----------------------------------------------------------------

  function BarOf(cat: VizColumn, num: VizColumn): Suggestion {
    Suggestion(Bar, cat.name + " by " + num.name,
               "Bar chart showing " + num.name + " values grouped by " + cat.name,
               Some(cat.name), Some(num.name), None, High)
  }

  function CountBarOf(cat: VizColumn, table: string): Suggestion {
    Suggestion(Bar, "Count by " + cat.name,
               "Bar chart showing count of records by " + cat.name, None, None,
               Some("SELECT " + cat.name + ", COUNT(*) as count FROM " + table
                    + " GROUP BY " + cat.name + " ORDER BY count DESC"),
               High)
  }

  function BarsAgainst(cat: VizColumn, num: seq<VizColumn>): (r: seq<Suggestion>)
    ensures |r| == |num| && AllKind(r, Bar)
    ensures forall k :: 0 <= k < |num| ==> r[k] == BarOf(cat, num[k])
  {
    if |num| == 0 then [] else [BarOf(cat, num[0])] + BarsAgainst(cat, num[1..])
  }

  /** The bars of one category: one per numeric column, or the count bar. */
  function BarBlock(cat: VizColumn, num: seq<VizColumn>, table: string): (r: seq<Suggestion>)
    ensures |r| == Width(num) && AllKind(r, Bar)
    ensures forall k :: 0 <= k < Width(num) ==>
              r[k] == if |num| == 0 then CountBarOf(cat, table) else BarOf(cat, num[k])
  {
    BarsAgainst(cat, num) + (if |num| == 0 then [CountBarOf(cat, table)] else [])
  }

  function Bars(cats: seq<VizColumn>, num: seq<VizColumn>, table: string): (r: seq<Suggestion>)
    ensures |r| == |cats| * Width(num) && AllKind(r, Bar)
  {
    var blocks := seq(|cats|, j requires 0 <= j < |cats| => BarBlock(cats[j], num, table));
    FlattenLength(blocks, Width(num));
    FlattenKind(blocks, Bar);
    Flatten(blocks)
  }

  /** The bars of category `i` fill positions `i * Width(num)` onwards: one
      bar per numeric column, in column order, or the count bar when there
      is no numeric column. */
  lemma BarsAt(cats: seq<VizColumn>, num: seq<VizColumn>, table: string, i: nat, k: nat)
    requires i < |cats| && k < Width(num)
    ensures i * Width(num) + k < |Bars(cats, num, table)|
    ensures Bars(cats, num, table)[i * Width(num) + k] ==
              if |num| == 0 then CountBarOf(cats[i], table) else BarOf(cats[i], num[k])
  {
    var blocks := seq(|cats|, j requires 0 <= j < |cats| => BarBlock(cats[j], num, table));
    FlattenAt(blocks, Width(num), i, k);
  }

  // ---- pies ----------------------------------------------------------------

  function PieOf(cat: VizColumn, num: VizColumn): Suggestion {
    Suggestion(Pie, "Distribution of " + num.name + " by " + cat.name,
               "Pie chart showing distribution of " + num.name + " across " + cat.name + " categories",
               Some(cat.name), Some(num.name), None, Medium)
  }

  function CountPieOf(cat: VizColumn, table: string): Suggestion {
    Suggestion(Pie, "Distribution by " + cat.name,
               "Pie chart showing distribution of records by " + cat.name, None, None,
               Some("SELECT " + cat.name + ", COUNT(*) as count FROM " + table + " GROUP BY " + cat.name),
               Medium)
  }

  function PiesAgainst(cat: VizColumn, num: seq<VizColumn>): (r: seq<Suggestion>)
    ensures |r| == |num| && AllKind(r, Pie)
    ensures forall k :: 0 <= k < |num| ==> r[k] == PieOf(cat, num[k])
  {
    if |num| == 0 then [] else [PieOf(cat, num[0])] + PiesAgainst(cat, num[1..])
  }

  /** The pies of one category: one per numeric column, or the count pie. */
  function PieBlock(cat: VizColumn, num: seq<VizColumn>, table: string): (r: seq<Suggestion>)
    ensures |r| == Width(num) && AllKind(r, Pie)
    ensures forall k :: 0 <= k < Width(num) ==>
              r[k] == if |num| == 0 then CountPieOf(cat, table) else PieOf(cat, num[k])
  {
    PiesAgainst(cat, num) + (if |num| == 0 then [CountPieOf(cat, table)] else [])
  }

  function Pies(cats: seq<VizColumn>, num: seq<VizColumn>, table: string): (r: seq<Suggestion>)
    ensures |r| == |cats| * Width(num) && AllKind(r, Pie)
  {
    var blocks := seq(|cats|, j requires 0 <= j < |cats| => PieBlock(cats[j], num, table));
    FlattenLength(blocks, Width(num));
    FlattenKind(blocks, Pie);
    Flatten(blocks)
  }

  /** The pies of category `i` fill positions `i * Width(num)` onwards: one
      pie per numeric column, or the count pie without numeric columns. */
  lemma PiesAt(cats: seq<VizColumn>, num: seq<VizColumn>, table: string, i: nat, k: nat)
    requires i < |cats| && k < Width(num)
    ensures i * Width(num) + k < |Pies(cats, num, table)|
    ensures Pies(cats, num, table)[i * Width(num) + k] ==
              if |num| == 0 then CountPieOf(cats[i], table) else PieOf(cats[i], num[k])
  {
    var blocks := seq(|cats|, j requires 0 <= j < |cats| => PieBlock(cats[j], num, table));
    FlattenAt(blocks, Width(num), i, k);
  }

  // ---- histograms ----------------------------------------------------------

  function HistogramOf(num: VizColumn): Suggestion {
    Suggestion(Histogram, "Distribution of " + num.name,
               "Histogram showing the distribution of " + num.name + " values",
               Some(num.name), None, None, Medium)
  }

  function Histograms(num: seq<VizColumn>): (r: seq<Suggestion>)
    ensures |r| == |num| && AllKind(r, Histogram)
  {
    if |num| == 0 then [] else [HistogramOf(num[0])] + Histograms(num[1..])
  }

  /** One medium-priority histogram per numeric column, in column order. */
  lemma {:induction false} HistogramsPerColumn(num: seq<VizColumn>)
    ensures forall k :: 0 <= k < |num| ==>
              && Histograms(num)[k].first == Some(num[k].name)
              && Histograms(num)[k].priority == Medium
  {
    if |num| > 0 {
      HistogramsPerColumn(num[1..]);
      assert forall k :: 1 <= k < |num| ==> Histograms(num)[k] == Histograms(num[1..])[k - 1];
    }
  }

  // ---- lines ---------------------------------------------------------------

  function LineOf(date: VizColumn, num: VizColumn): Suggestion {
    Suggestion(Line, num.name + " over time",
               "Line chart showing " + num.name + " values over time",
               Some(date.name), Some(num.name), None, High)
  }

  function CountLineOf(date: VizColumn, table: string): Suggestion {
    Suggestion(Line, "Count over time", "Line chart showing record count over time", None, None,
               Some("SELECT " + date.name + ", COUNT(*) as count FROM " + table + " GROUP BY " + date.name),
               High)
  }

  function LinesAgainst(date: VizColumn, num: seq<VizColumn>): (r: seq<Suggestion>)
    ensures |r| == |num| && AllKind(r, Line)
    ensures forall k :: 0 <= k < |num| ==> r[k] == LineOf(date, num[k])
  {
    if |num| == 0 then [] else [LineOf(date, num[0])] + LinesAgainst(date, num[1..])
  }

  /** The lines of one date column: one per numeric column, or the count line. */
  function LineBlock(date: VizColumn, num: seq<VizColumn>, table: string): (r: seq<Suggestion>)
    ensures |r| == Width(num) && AllKind(r, Line)
    ensures forall k :: 0 <= k < Width(num) ==>
              r[k] == if |num| == 0 then CountLineOf(date, table) else LineOf(date, num[k])
  {
    LinesAgainst(date, num) + (if |num| == 0 then [CountLineOf(date, table)] else [])
  }

  function Lines(dates: seq<VizColumn>, num: seq<VizColumn>, table: string): (r: seq<Suggestion>)
    ensures |r| == |dates| * Width(num) && AllKind(r, Line)
  {
    var blocks := seq(|dates|, j requires 0 <= j < |dates| => LineBlock(dates[j], num, table));
    FlattenLength(blocks, Width(num));
    FlattenKind(blocks, Line);
    Flatten(blocks)
  }

  /** The lines of date column `i` fill positions `i * Width(num)` onwards:
      one line per numeric column, or the count line without numeric
      columns. */
  lemma LinesAt(dates: seq<VizColumn>, num: seq<VizColumn>, table: string, i: nat, k: nat)
    requires i < |dates| && k < Width(num)
    ensures i * Width(num) + k < |Lines(dates, num, table)|
    ensures Lines(dates, num, table)[i * Width(num) + k] ==
              if |num| == 0 then CountLineOf(dates[i], table) else LineOf(dates[i], num[k])
  {
    var blocks := seq(|dates|, j requires 0 <= j < |dates| => LineBlock(dates[j], num, table));
    FlattenAt(blocks, Width(num), i, k);
  }

  // ---- scatters ------------------------------------------------------------

  function ScatterOf(a: VizColumn, b: VizColumn): Suggestion {
    Suggestion(Scatter, "Relationship between " + a.name + " and " + b.name,
               "Scatter plot showing relationship between " + a.name + " and " + b.name,
               Some(a.name), Some(b.name), None, Low)
  }

  function PairsWith<T>(a: T, rest: seq<T>): (r: seq<(T, T)>)
    ensures |r| == |rest|
    ensures forall k :: 0 <= k < |rest| ==> r[k] == (a, rest[k])
  {
    seq(|rest|, k requires 0 <= k < |rest| => (a, rest[k]))
  }

  /** The pairs the nested loop `for i, for j > i` visits, in its order. */
  function Pairs<T>(xs: seq<T>): seq<(T, T)> {
    if |xs| == 0 then [] else PairsWith(xs[0], xs[1..]) + Pairs(xs[1..])
  }

  /** The loop visits one pair per unordered pair of positions. */
  lemma {:induction false} PairsCount<T>(xs: seq<T>)
    ensures 2 * |Pairs(xs)| == |xs| * (|xs| - 1)
  {
    if |xs| > 0 {
      PairsCount(xs[1..]);
      assert |xs| * (|xs| - 1) == 2 * (|xs| - 1) + (|xs| - 1) * (|xs| - 2);
    }
  }

  /** The loop visits every pair `i < j`. */
  lemma {:induction false} PairsCover<T>(xs: seq<T>, i: nat, j: nat)
    requires i < j < |xs|
    ensures (xs[i], xs[j]) in Pairs(xs)
  {
    var head := PairsWith(xs[0], xs[1..]);
    assert Pairs(xs) == head + Pairs(xs[1..]);
    if i == 0 {
      assert head[j - 1] == (xs[0], xs[j]);
    } else {
      PairsCover(xs[1..], i - 1, j - 1);
      assert xs[1..][i - 1] == xs[i] && xs[1..][j - 1] == xs[j];
    }
  }

  /** The loop visits only pairs `i < j`. */
  lemma {:induction false} PairsArePairs<T>(xs: seq<T>, p: (T, T))
    requires p in Pairs(xs)
    ensures exists i, j :: 0 <= i < j < |xs| && p == (xs[i], xs[j])
  {
    var head := PairsWith(xs[0], xs[1..]);
    assert Pairs(xs) == head + Pairs(xs[1..]);
    if p in head {
      var k :| 0 <= k < |head| && head[k] == p;
      assert p == (xs[0], xs[k + 1]);
    } else {
      PairsArePairs(xs[1..], p);
      var i, j :| 0 <= i < j < |xs[1..]| && p == (xs[1..][i], xs[1..][j]);
      assert p == (xs[i + 1], xs[j + 1]);
    }
  }

  /** One scatter plot per pair of numeric columns, in loop order. */
  function Scatters(num: seq<VizColumn>): (r: seq<Suggestion>)
    ensures AllKind(r, Scatter)
    ensures |r| == |Pairs(num)|
    ensures forall k :: 0 <= k < |r| ==> r[k] == ScatterOf(Pairs(num)[k].0, Pairs(num)[k].1)
  {
    var ps := Pairs(num);
    seq(|ps|, k requires 0 <= k < |ps| => ScatterOf(ps[k].0, ps[k].1))
  }

  lemma ScattersCount(num: seq<VizColumn>)
    ensures 2 * |Scatters(num)| == |num| * (|num| - 1)
  {
    PairsCount(num);
  }

  /** Every pair `i < j` of numeric columns gets its scatter plot. */
  lemma ScattersCoverPairs(num: seq<VizColumn>, i: nat, j: nat)
    requires i < j < |num|
    ensures ScatterOf(num[i], num[j]) in Scatters(num)
  {
    var ps := Pairs(num);
    PairsCover(num, i, j);
    var k :| 0 <= k < |ps| && ps[k] == (num[i], num[j]);
    assert Scatters(num)[k] == ScatterOf(num[i], num[j]);
  }

  /** Every scatter plot is about a pair `i < j` of numeric columns. */
  lemma ScattersArePairs(num: seq<VizColumn>, s: Suggestion)
    requires s in Scatters(num)
    ensures exists i, j :: 0 <= i < j < |num| && s == ScatterOf(num[i], num[j])
  {
    var ps := Pairs(num);
    var k :| 0 <= k < |ps| && Scatters(num)[k] == s;
    PairsArePairs(num, ps[k]);
    var i, j :| 0 <= i < j < |num| && ps[k] == (num[i], num[j]);
    assert s == ScatterOf(num[i], num[j]);
  }

  // ---- the whole list -------------------------------------------------------

  function NumericColumns(p: VizProfile): seq<VizColumn> {
    Filter(p.columns, IsNumericColumn)
  }

  function CategoricalColumns(p: VizProfile): seq<VizColumn> {
    Filter(p.columns, IsCategorical)
  }

  function PieColumns(p: VizProfile): seq<VizColumn> {
    Filter(CategoricalColumns(p), IsPieCategory)
  }

  function DateColumns(p: VizProfile): seq<VizColumn> {
    Filter(p.columns, IsDateColumn)
  }

  /** `suggestVisualizations(tableProfile)`; a missing profile or one
      without columns gives `[]`. */
  function SuggestVisualizations(profile: Option<VizProfile>): (r: seq<Suggestion>)
    ensures profile.None? ==> r == []
  {
    match profile
    case None => []
    case Some(p) =>
      var num := NumericColumns(p);
      Bars(CategoricalColumns(p), num, p.tableName)
        + Pies(PieColumns(p), num, p.tableName)
        + Histograms(num)
        + Lines(DateColumns(p), num, p.tableName)
        + Scatters(num)
  }

  function KindRank(k: Kind): nat {
    match k
    case Bar => 0
    case Pie => 1
    case Histogram => 2
    case Line => 3
    case Scatter => 4
  }

  /** Number of suggestions of one kind. */
  function CountKind(s: seq<Suggestion>, k: Kind): nat {
    if |s| == 0 then 0 else (if s[0].kind == k then 1 else 0) + CountKind(s[1..], k)
  }

  lemma {:induction false} CountKindAppend(a: seq<Suggestion>, b: seq<Suggestion>, k: Kind)
    ensures CountKind(a + b, k) == CountKind(a, k) + CountKind(b, k)
  {
    if |a| == 0 {
      assert a + b == b;
    } else {
      assert (a + b)[1..] == a[1..] + b;
      CountKindAppend(a[1..], b, k);
    }
  }

  lemma {:induction false} CountKindUniform(s: seq<Suggestion>, k: Kind, k': Kind)
    requires AllKind(s, k)
    ensures CountKind(s, k') == if k == k' then |s| else 0
  {
    if |s| > 0 {
      CountKindUniform(s[1..], k, k');
    }
  }

  /** The blocks of the list, each counted on its own. */
  lemma CountBlocks(b: seq<Suggestion>, q: seq<Suggestion>, h: seq<Suggestion>,
                    l: seq<Suggestion>, s: seq<Suggestion>, k: Kind)
    requires AllKind(b, Bar) && AllKind(q, Pie) && AllKind(h, Histogram)
    requires AllKind(l, Line) && AllKind(s, Scatter)
    ensures CountKind(b + q + h + l + s, k) ==
              match k
              case Bar => |b|
              case Pie => |q|
              case Histogram => |h|
              case Line => |l|
              case Scatter => |s|
  {
    CountKindAppend(b, q, k);
    CountKindAppend(b + q, h, k);
    CountKindAppend(b + q + h, l, k);
    CountKindAppend(b + q + h + l, s, k);
    CountKindUniform(b, Bar, k);
    CountKindUniform(q, Pie, k);
    CountKindUniform(h, Histogram, k);
    CountKindUniform(l, Line, k);
    CountKindUniform(s, Scatter, k);
  }

  predicate Ranked(s: seq<Suggestion>) {
    forall i, j :: 0 <= i < j < |s| ==> KindRank(s[i].kind) <= KindRank(s[j].kind)
  }

  predicate RankAtMost(s: seq<Suggestion>, n: nat) {
    forall i :: 0 <= i < |s| ==> KindRank(s[i].kind) <= n
  }

  /** Appending a block of one kind keeps a list ranked when nothing before
      it has a higher rank. */
  lemma AppendBlock(x: seq<Suggestion>, n: nat, y: seq<Suggestion>, k: Kind)
    requires Ranked(x) && RankAtMost(x, n) && n <= KindRank(k) && AllKind(y, k)
    ensures Ranked(x + y) && RankAtMost(x + y, KindRank(k))
  {
    forall i, j | 0 <= i < j < |x + y|
      ensures KindRank((x + y)[i].kind) <= KindRank((x + y)[j].kind)
    {
      if j >= |x| {
        assert (x + y)[j] == y[j - |x|];
        if i >= |x| {
          assert (x + y)[i] == y[i - |x|];
        }
      }
    }
  }

  /** The suggestions come in five blocks: every bar precedes every pie,
      every pie every histogram, every histogram every line, and every line
      every scatter plot. */
  lemma SuggestionsOrdered(profile: Option<VizProfile>)
    ensures Ranked(SuggestVisualizations(profile))
  {
    if profile.Some? {
      var p := profile.value;
      var num := NumericColumns(p);
      BlocksRanked(Bars(CategoricalColumns(p), num, p.tableName), Pies(PieColumns(p), num, p.tableName),
                   Histograms(num), Lines(DateColumns(p), num, p.tableName), Scatters(num));
    }
  }

  lemma BlocksRanked(b: seq<Suggestion>, q: seq<Suggestion>, h: seq<Suggestion>,
                     l: seq<Suggestion>, s: seq<Suggestion>)
    requires AllKind(b, Bar) && AllKind(q, Pie) && AllKind(h, Histogram)
    requires AllKind(l, Line) && AllKind(s, Scatter)
    ensures Ranked(b + q + h + l + s)
  {
    var x1 := b;
    assert Ranked(x1) && RankAtMost(x1, 0) by {
      AppendBlock([], 0, b, Bar);
      assert [] + b == b;
    }
    var x2 := x1 + q;
    assert Ranked(x2) && RankAtMost(x2, 1) by {
      AppendBlock(x1, 0, q, Pie);
    }
    var x3 := x2 + h;
    assert Ranked(x3) && RankAtMost(x3, 2) by {
      AppendBlock(x2, 1, h, Histogram);
    }
    var x4 := x3 + l;
    assert Ranked(x4) && RankAtMost(x4, 3) by {
      AppendBlock(x3, 2, l, Line);
    }
    AppendBlock(x4, 3, s, Scatter);
  }

  /** How many suggestions of each kind: |cat|·|num| bars (|cat| when there is
      no numeric column), likewise pies over the pie categories and lines over
      the date columns, one histogram per numeric column and one scatter plot
      per pair of numeric columns. */
  lemma SuggestionCounts(p: VizProfile)
    ensures var r := SuggestVisualizations(Some(p));
            var num := NumericColumns(p);
            && CountKind(r, Bar) == |CategoricalColumns(p)| * Width(num)
            && CountKind(r, Pie) == |PieColumns(p)| * Width(num)
            && CountKind(r, Histogram) == |num|
            && CountKind(r, Line) == |DateColumns(p)| * Width(num)
            && 2 * CountKind(r, Scatter) == |num| * (|num| - 1)
  {
    var num := NumericColumns(p);
    var b := Bars(CategoricalColumns(p), num, p.tableName);
    var q := Pies(PieColumns(p), num, p.tableName);
    var h := Histograms(num);
    var l := Lines(DateColumns(p), num, p.tableName);
    var s := Scatters(num);
    ScattersCount(num);
    CountBlocks(b, q, h, l, s, Bar);
    CountBlocks(b, q, h, l, s, Pie);
    CountBlocks(b, q, h, l, s, Histogram);
    CountBlocks(b, q, h, l, s, Line);
    CountBlocks(b, q, h, l, s, Scatter);
  }

  // ---- profiles the detector generates ---------------------------------------

  /** What the recommender sees of a column of `generateTableProfile`:
      its stats are the detector's, which never carry `distinctCount`. */
  function ViewOf(c: TableProfiler.ColumnProfile): VizColumn {
    VizColumn(c.name, c.detectedType,
              c.stats.DetectedStats? && c.stats.potentialCategory, None)
  }

  function ViewsOf(cs: seq<TableProfiler.ColumnProfile>): (r: seq<VizColumn>)
    ensures |r| == |cs|
    ensures forall k :: 0 <= k < |cs| ==> r[k] == ViewOf(cs[k])
    ensures forall c :: c in r ==> c.distinctCount.None?
  {
    if |cs| == 0 then [] else [ViewOf(cs[0])] + ViewsOf(cs[1..])
  }

  function ProfileView(p: TableProfiler.TableProfile): VizProfile {
    VizProfile(p.tableName, ViewsOf(p.columns))
  }

  lemma {:induction false} FilterEmpty(cols: seq<VizColumn>, p: VizColumn -> bool)
    requires forall k :: 0 <= k < |cols| ==> !p(cols[k])
    ensures Filter(cols, p) == []
  {
    if |cols| > 0 {
      FilterEmpty(cols[1..], p);
    }
  }

  /** A profile built by the detector gets no pie chart, and its categorical
      columns are exactly those the detector flagged `potentialCategory`:
      without `distinctCount` the string rule can never fire. */
  lemma GeneratedProfileHasNoPies(tp: TableProfiler.TableProfile)
    ensures var p := ProfileView(tp);
            && PieColumns(p) == []
            && CountKind(SuggestVisualizations(Some(p)), Pie) == 0
            && forall c :: c in p.columns ==> (IsCategorical(c) <==> c.potentialCategory)
  {
    var p := ProfileView(tp);
    var cats := CategoricalColumns(p);
    assert forall k :: 0 <= k < |cats| ==> cats[k] in p.columns;
    FilterEmpty(cats, IsPieCategory);
    var num := NumericColumns(p);
    CountBlocks(Bars(cats, num, p.tableName), Pies(PieColumns(p), num, p.tableName),
                Histograms(num), Lines(DateColumns(p), num, p.tableName), Scatters(num), Pie);
  }
}

=== FILE: schema_analyzer.dfy ===
/** Schema discovery (src/schema-analyzer.js): `getTables` normalises the
    table-list query result, `getTableStructure` maps `PRAGMA table_info`
    rows into column records with a fallback to the keys of a sample row,
    and `getSchema` isolates a failing table from the others. */
module SchemaAnalyzer {
  import opened Wrappers
  import opened Js

  /** An element of a query result array: an object, or a primitive
      (`Scalar(Null)` is `null`). */
  datatype Item = Object(rec: Record) | Scalar(v: Value)

  /** A query result: an array, a non-array object (its `Object.values`), or
      anything else (`undefined`, a primitive). */
  datatype Shape = ArrayOf(items: seq<Item>) | ObjectOf(values: seq<Item>) | Other

  /** The message of the `TypeError` raised by reading a property of `null`
      or `undefined`. */
  const NullPropertyRead: string := "Cannot read properties of null"

  /** `item.name`: `undefined` on a primitive, an error on null. */
  function NameOf(item: Item): Answer<Value> {
    match item
    case Object(r) => Answer(Cell(r, "name"))
    case Scalar(v) => if IsNullish(v) then Fails(NullPropertyRead) else Answer(Undefined)
  }

  /** `items.map(t => t.name)`, which stops at the first null element. */
  function NamesOf(items: seq<Item>): (r: Answer<seq<Item>>)
    ensures r.Answer? <==> forall k :: 0 <= k < |items| ==> NameOf(items[k]).Answer?
    ensures r.Answer? ==> |r.value| == |items|
                          && forall k :: 0 <= k < |items| ==> r.value[k] == Scalar(NameOf(items[k]).value)
  {
    if |items| == 0 then Answer([])
    else
      var n :- NameOf(items[0]);
      var rest :- NamesOf(items[1..]);
      Answer([Scalar(n)] + rest)
  }

  /** `typeof x === 'object' && x !== null && 'name' in x` */
  predicate IsNamedObject(item: Item) {
    item.Object? && "name" in item.rec.keys
  }

  /** `getTables()` given the result of the `sqlite_master` query. A failed
      query, or a null element after a named first object, is rethrown. */
  function GetTables(result: Answer<Shape>): (r: Answer<seq<Item>>)
    ensures result.Fails? ==> r == Fails(result.message)
    ensures (&& result.Answer? && result.value.ArrayOf? && |result.value.items| > 0
             && result.value.items[0].Scalar? && result.value.items[0].v.Str?)
            ==> r == Answer(result.value.items)
    ensures (&& result.Answer? && result.value.ArrayOf? && |result.value.items| > 0
             && IsNamedObject(result.value.items[0]))
            ==> r == NamesOf(result.value.items)
  {
    var shape :- result;
    match shape
    case ArrayOf(items) =>
      if |items| == 0 then Answer([])
      else if IsNamedObject(items[0]) then NamesOf(items)
      else if items[0].Scalar? && items[0].v.Str? then Answer(items)
      else Answer([])
    case _ => Answer([])
  }

  /** The table list is empty for an empty array, for an array whose first
      element is neither a named object nor a string, and for a result that
      is not an array. */
  lemma GetTablesEmptyCases(result: Answer<Shape>)
    requires result.Answer?
    requires || !result.value.ArrayOf?
             || |result.value.items| == 0
             || (!IsNamedObject(result.value.items[0])
                 && !(result.value.items[0].Scalar? && result.value.items[0].v.Str?))
    ensures GetTables(result) == Answer([])
  {
  }

  /** A list of named objects gives their names, in order. */
  lemma GetTablesNames(rows: seq<Record>)
    requires |rows| > 0 && "name" in rows[0].keys
    ensures var r := GetTables(Answer(ArrayOf(seq(|rows|, k requires 0 <= k < |rows| => Object(rows[k])))));
            && r.Answer? && |r.value| == |rows|
            && forall k :: 0 <= k < |rows| ==> r.value[k] == Scalar(Cell(rows[k], "name"))
  {
  }

  // ---- getTableStructure -------------------------------------------------------

  /** The column record `getTableStructure` produces. */
  datatype SchemaColumn = SchemaColumn(name: Value, sqlType: Value, notNull: bool,
                                       defaultValue: Value, primaryKey: bool)

  /** `x || fallback` */
  function Or(x: Value, fallback: Value): Value {
    if Truthy(x) then x else fallback
  }

  /** The mapping of one `PRAGMA table_info` row; a null row throws. */
  function MapRow(item: Item): (c: Answer<SchemaColumn>)
    ensures c.Fails? <==> item.Scalar? && IsNullish(item.v)
    ensures c.Answer? ==>
              && (c.value.notNull <==> item.Object? && Cell(item.rec, "notnull") == Num(1.0))
              && (c.value.primaryKey <==> item.Object? && Cell(item.rec, "pk") == Num(1.0))
              && (Truthy(c.value.name) || c.value.name == Str(""))
              && (Truthy(c.value.sqlType) || c.value.sqlType == Str(""))
              && (Truthy(c.value.defaultValue) || c.value.defaultValue == Null)
    ensures item.Object? && Truthy(Cell(item.rec, "name")) ==> c.value.name == Cell(item.rec, "name")
    ensures item.Object? && Truthy(Cell(item.rec, "type")) ==> c.value.sqlType == Cell(item.rec, "type")
    ensures item.Object? && Truthy(Cell(item.rec, "dflt_value")) ==> c.value.defaultValue == Cell(item.rec, "dflt_value")
  {
    match item
    case Object(r) =>
      Answer(SchemaColumn(Or(Cell(r, "name"), Str("")), Or(Cell(r, "type"), Str("")),
                          Cell(r, "notnull") == Num(1.0), Or(Cell(r, "dflt_value"), Null),
                          Cell(r, "pk") == Num(1.0)))
    case Scalar(v) =>
      if IsNullish(v) then Fails(NullPropertyRead)
      else Answer(SchemaColumn(Str(""), Str(""), false, Null, false))
  }

  function MapRows(items: seq<Item>): (r: Answer<seq<SchemaColumn>>)
    ensures r.Answer? <==> forall k :: 0 <= k < |items| ==> MapRow(items[k]).Answer?
    ensures r.Answer? ==> |r.value| == |items|
                          && forall k :: 0 <= k < |items| ==> r.value[k] == MapRow(items[k]).value
  {
    if |items| == 0 then Answer([])
    else
      var c :- MapRow(items[0]);
      var rest :- MapRows(items[1..]);
      Answer([c] + rest)
  }

  /** The record the fallback gives a column known only by name. */
  function UnknownColumn(name: string): SchemaColumn {
    SchemaColumn(Str(name), Str("unknown"), false, Null, false)
  }

  function UnknownColumns(names: seq<string>): (r: seq<SchemaColumn>)
    ensures |r| == |names|
    ensures forall k :: 0 <= k < |names| ==> r[k] == UnknownColumn(names[k])
  {
    if |names| == 0 then [] else [UnknownColumn(names[0])] + UnknownColumns(names[1..])
  }

  /** The fallback: one record per key of the first row of
      `SELECT * FROM t LIMIT 1`, or nothing. */
  function Fallback(sample: Answer<seq<Record>>): (r: seq<SchemaColumn>)
    ensures sample.Fails? || |sample.value| == 0 ==> r == []
    ensures sample.Answer? && |sample.value| > 0 ==>
              && |r| == |sample.value[0].keys|
              && forall k :: 0 <= k < |r| ==> r[k].name == Str(sample.value[0].keys[k])
    ensures forall k :: 0 <= k < |r| ==>
              r[k].sqlType == Str("unknown") && !r[k].notNull && !r[k].primaryKey && r[k].defaultValue == Null
  {
    match sample
    case Answer(rows) => if |rows| > 0 then UnknownColumns(rows[0].keys) else []
    case Fails(_) => []
  }

  /** What `dbConnector.getDatabase()` gives. */
  datatype Handle = NoDatabase | Database | HandleThrows

  /** `getTableStructure(tableName)`: never throws. Without a database it
      gives `[]`; otherwise the PRAGMA rows are mapped, and when the PRAGMA
      or the mapping throws, the fallback decides. */
  function GetTableStructure(handle: Handle, pragma: Answer<Shape>, sample: Answer<seq<Record>>): (r: seq<SchemaColumn>)
    ensures handle != Database ==> r == []
    ensures handle == Database && pragma.Answer? && pragma.value.Other? ==> r == []
    ensures handle == Database && pragma.Fails? ==> r == Fallback(sample)
  {
    match handle
    case NoDatabase => []
    case HandleThrows => []
    case Database =>
      var mapped :=
        match pragma
        case Fails(m) => Fails(m)
        case Answer(ArrayOf(items)) => MapRows(items)
        case Answer(ObjectOf(values)) => MapRows(values)
        case Answer(Other) => Answer([]);
      match mapped
      case Answer(cols) => cols
      case Fails(_) => Fallback(sample)
  }

  /** PRAGMA rows map one to one: `notNull` exactly when `notnull` is 1,
      `primaryKey` exactly when `pk` is 1, empty name and type when missing,
      and a falsy default becomes null. An object result maps the same way. */
  lemma PragmaRowMapping(rows: seq<Record>, asObject: bool, sample: Answer<seq<Record>>)
    ensures var items := seq(|rows|, k requires 0 <= k < |rows| => Object(rows[k]));
            var r := GetTableStructure(Database, Answer(if asObject then ObjectOf(items) else ArrayOf(items)), sample);
            && |r| == |rows|
            && forall k :: 0 <= k < |rows| ==>
                 && (r[k].notNull <==> Cell(rows[k], "notnull") == Num(1.0))
                 && (r[k].primaryKey <==> Cell(rows[k], "pk") == Num(1.0))
                 && (!Truthy(Cell(rows[k], "name")) ==> r[k].name == Str(""))
                 && (!Truthy(Cell(rows[k], "type")) ==> r[k].sqlType == Str(""))
                 && (!Truthy(Cell(rows[k], "dflt_value")) ==> r[k].defaultValue == Null)
                 && (Truthy(Cell(rows[k], "name")) ==> r[k].name == Cell(rows[k], "name"))
                 && (Truthy(Cell(rows[k], "type")) ==> r[k].sqlType == Cell(rows[k], "type"))
                 && (Truthy(Cell(rows[k], "dflt_value")) ==> r[k].defaultValue == Cell(rows[k], "dflt_value"))
  {
    var items := seq(|rows|, k requires 0 <= k < |rows| => Object(rows[k]));
    assert forall k :: 0 <= k < |items| ==> MapRow(items[k]).Answer?;
  }

  /** When the PRAGMA fails, the columns are the keys of the sampled row, in
      order, typed 'unknown', nullable and not primary keys. */
  lemma FallbackColumns(message: string, rows: seq<Record>)
    requires |rows| > 0
    ensures var r := GetTableStructure(Database, Fails(message), Answer(rows));
            && |r| == |rows[0].keys|
            && forall k :: 0 <= k < |r| ==>
                 r[k].name == Str(rows[0].keys[k]) && r[k].sqlType == Str("unknown")
                 && !r[k].notNull && !r[k].primaryKey && r[k].defaultValue == Null
  {
  }

  /** A null PRAGMA row makes the mapping throw, which hands over to the
      fallback. */
  lemma NullRowFallsBack(items: seq<Item>, k: nat, sample: Answer<seq<Record>>)
    requires k < |items| && items[k] == Scalar(Null)
    ensures GetTableStructure(Database, Answer(ArrayOf(items)), sample) == Fallback(sample)
  {
  }

  // ---- getSchema -------------------------------------------------------------

  /** `getSchema()`: one entry per table, in list order; a table whose
      structure lookup throws gets `[]`. A failing table list is rethrown. */
  function GetSchema(tables: Answer<seq<Item>>, structure: Item -> Answer<seq<SchemaColumn>>)
    : (r: Answer<seq<(Item, seq<SchemaColumn>)>>)
    ensures tables.Fails? <==> r.Fails?
    ensures r.Answer? ==> |r.value| == |tables.value|
                          && forall k :: 0 <= k < |r.value| ==> r.value[k].0 == tables.value[k]
  {
    var ts :- tables;
    Answer(seq(|ts|, k requires 0 <= k < |ts| =>
      (ts[k], match structure(ts[k]) case Answer(cols) => cols case Fails(_) => [])))
  }

  /** A table whose lookup throws does not disturb the others: two lookups
      that agree on a table give it the same entry, whatever they do on the
      rest, and a throwing lookup gives `[]`. */
  lemma SchemaIsolation(ts: seq<Item>, s1: Item -> Answer<seq<SchemaColumn>>,
                        s2: Item -> Answer<seq<SchemaColumn>>, k: nat)
    requires k < |ts| && s1(ts[k]) == s2(ts[k])
    ensures GetSchema(Answer(ts), s1).value[k] == GetSchema(Answer(ts), s2).value[k]
    ensures s1(ts[k]).Fails? ==> GetSchema(Answer(ts), s1).value[k].1 == []
  {
  }
}

=== FILE: server_routes.dfy ===
/** Request validation of the three profiling routes of the HTTP server
    (src/server.js:41-159): the names in the path are sanitised, an empty
    name is a 400, a table missing from `sqlite_master` a 404, and for the
    stats route a column missing from `PRAGMA table_info` a 404; an error
    from a query is a 500. The profiler itself is called only on `Proceed`. */
module ServerRoutes {
  import opened Wrappers
  import opened Js
  import opened Identifiers

  datatype Request =
    | ProfileRequest(table: string)         // GET /api/profile/:tableName
    | VisualizationsRequest(table: string)  // GET /api/visualizations/:tableName
    | StatsRequest(table: string, column: string)  // GET /api/stats/:tableName/:columnName

  /** The status and body of the handler's answer, or the names it hands to
      the profiler. */
  datatype Response =
    | BadRequest(error: string)
    | NotFound(error: string)
    | ServerError(error: string)
    | Proceed(table: string, column: Option<string>)

  /** `tableList.includes(tableName)`, the list being `tables.map(t => t.name)`. */
  predicate Listed(tables: seq<Record>, table: string) {
    exists k :: 0 <= k < |tables| && Cell(tables[k], "name") == Str(table)
  }

  /** `columnArray.some(col => col.name === columnName)` */
  predicate HasColumn(columns: seq<Record>, column: string) {
    exists k :: 0 <= k < |columns| && Cell(columns[k], "name") == Str(column)
  }

  /** The table check shared by the routes, after the name checks. */
  function CheckTable(table: string, tables: Answer<seq<Record>>): Answer<bool> {
    match tables
    case Fails(m) => Fails(m)
    case Answer(list) => Answer(Listed(list, table))
  }

  /** The handler's decision, given the results of the table-list query and,
      for the stats route, of the `PRAGMA table_info` query. */
  function Handle(req: Request, tables: Answer<seq<Record>>, columns: Answer<seq<Record>>): (r: Response)
    ensures r.Proceed? ==> IsIdentifier(r.table) && r.table != "" && r.table == Sanitize(req.table)
    ensures r.Proceed? ==> (r.column.Some? <==> req.StatsRequest?)
    ensures r.Proceed? && r.column.Some? ==>
              IsIdentifier(r.column.value) && r.column.value != "" && r.column.value == Sanitize(req.column)
  {
    var table := Sanitize(req.table);
    if table == "" then BadRequest("Invalid table name")
    else if req.StatsRequest? && Sanitize(req.column) == "" then BadRequest("Invalid column name")
    else
      match CheckTable(table, tables)
      case Fails(m) => ServerError(m)
      case Answer(found) =>
        if !found then NotFound("Table '" + table + "' not found")
        else if !req.StatsRequest? then Proceed(table, None)
        else
          var column := Sanitize(req.column);
          match columns
          case Fails(m) => ServerError(m)
          case Answer(cs) =>
            if !HasColumn(cs, column) then
              NotFound("Column '" + column + "' not found in table '" + table + "'")
            else Proceed(table, Some(column))
  }

  /** A table name with no identifier character is refused with a 400 before
      any query runs: the answer does not depend on the query results. */
  lemma EmptyTableNameIsBadRequest(req: Request, t1: Answer<seq<Record>>, c1: Answer<seq<Record>>,
                                   t2: Answer<seq<Record>>, c2: Answer<seq<Record>>)
    requires forall k :: 0 <= k < |req.table| ==> !IsIdentChar(req.table[k])
    ensures Handle(req, t1, c1) == Handle(req, t2, c2) == BadRequest("Invalid table name")
  {
    SanitizeEmptyIff(req.table);
  }

  /** The stats route checks the column name only once the table name is
      usable, and also before any query. */
  lemma EmptyColumnNameIsBadRequest(table: string, column: string, t: Answer<seq<Record>>, c: Answer<seq<Record>>)
    requires Sanitize(table) != ""
    requires forall k :: 0 <= k < |column| ==> !IsIdentChar(column[k])
    ensures Handle(StatsRequest(table, column), t, c) == BadRequest("Invalid column name")
  {
    SanitizeEmptyIff(column);
  }

  /** An unknown table is a 404, whatever the column. */
  lemma UnknownTableIsNotFound(req: Request, tables: seq<Record>, c: Answer<seq<Record>>)
    requires Sanitize(req.table) != ""
    requires req.StatsRequest? ==> Sanitize(req.column) != ""
    requires !Listed(tables, Sanitize(req.table))
    ensures Handle(req, Answer(tables), c) == NotFound("Table '" + Sanitize(req.table) + "' not found")
  {
  }

  /** The profiler is reached exactly when every check passes, and it gets
      the sanitised names. */
  lemma ProceedIff(req: Request, tables: seq<Record>, columns: seq<Record>)
    ensures var r := Handle(req, Answer(tables), Answer(columns));
            var table := Sanitize(req.table);
            r.Proceed? <==>
              && table != ""
              && Listed(tables, table)
              && (req.StatsRequest? ==> Sanitize(req.column) != "" && HasColumn(columns, Sanitize(req.column)))
  {
  }

  /** The column list matters only to the stats route. */
  lemma ColumnsOnlyForStats(req: Request, t: Answer<seq<Record>>, c1: Answer<seq<Record>>, c2: Answer<seq<Record>>)
    requires !req.StatsRequest?
    ensures Handle(req, t, c1) == Handle(req, t, c2)
  {
  }
}

=== FILE: table_profiler.dfy ===
/** Table profile assembly: `analyzeTableDataTypes` runs the type detector on
    every column of a sample, and `generateTableProfile` merges its output
    with the row count and the `PRAGMA table_info` rows
    (src/data-profiler.js:38-86, 705-765). Query results are inputs: a
    canonical array of records, or the message of the error the query threw. */
module TableProfiler {
  import opened Wrappers
  import opened Js
  import opened TypeDetector

  /** The non-nullish cells of one column, in row order: rows that lack the
      key read as `undefined` and are dropped with the nulls. */
  function ColumnValues(rows: seq<Record>, column: string): (r: seq<Value>)
    ensures |r| <= |rows|
    ensures forall k :: 0 <= k < |r| ==> !IsNullish(r[k])
  {
    if |rows| == 0 then []
    else
      var init := ColumnValues(rows[..|rows| - 1], column);
      var v := Cell(rows[|rows| - 1], column);
      if IsNullish(v) then init else init + [v]
  }

  /** A column is empty of values exactly when every row holds null,
      `undefined` or nothing under its name. */
  lemma {:induction false} ColumnValuesEmptyIff(rows: seq<Record>, column: string)
    ensures |ColumnValues(rows, column)| == 0 <==>
              forall k :: 0 <= k < |rows| ==> IsNullish(Cell(rows[k], column))
  {
    if |rows| > 0 {
      var init := rows[..|rows| - 1];
      ColumnValuesEmptyIff(init, column);
      assert forall k :: 0 <= k < |init| ==> init[k] == rows[k];
    }
  }

  /** One entry of the object `analyzeTableDataTypes` returns. */
  datatype ColumnEntry = ColumnEntry(column: string, info: ColumnTypeInfo)

  function EntriesFor(rt: JsRuntime, rows: seq<Record>, keys: seq<string>): (r: seq<ColumnEntry>)
    ensures |r| == |keys|
    ensures forall i :: 0 <= i < |keys| ==> r[i].column == keys[i]
    ensures forall i :: 0 <= i < |keys| ==> r[i].info == DetectDataType(rt, ColumnValues(rows, keys[i]))
  {
    if |keys| == 0 then []
    else [ColumnEntry(keys[0], DetectDataType(rt, ColumnValues(rows, keys[0])))] + EntriesFor(rt, rows, keys[1..])
  }

  /** `analyzeTableDataTypes(tableName)` given the result of its sample query
      `SELECT * FROM t LIMIT 1000`. An empty sample gives `{}`; otherwise the
      columns are the keys of the first sampled row, in that order, each with
      the detector's verdict on its non-null values. A failed query is
      rethrown. */
  function AnalyzeTableDataTypes(rt: JsRuntime, sample: Answer<seq<Record>>): (r: Answer<seq<ColumnEntry>>)
    ensures sample.Fails? ==> r == Fails(sample.message)
    ensures sample.Answer? && |sample.value| == 0 ==> r == Answer([])
    ensures sample.Answer? && |sample.value| > 0 ==>
              && r.Answer?
              && |r.value| == |sample.value[0].keys|
              && (forall i :: 0 <= i < |r.value| ==> r.value[i].column == sample.value[0].keys[i])
  {
    var rows :- sample;
    if |rows| == 0 then Answer([])
    else Answer(EntriesFor(rt, rows, rows[0].keys))
  }

  /** Every column of the analysis is named once. */
  lemma AnalyzedColumnsDistinct(rt: JsRuntime, sample: Answer<seq<Record>>)
    requires AnalyzeTableDataTypes(rt, sample).Answer?
    ensures var cs := AnalyzeTableDataTypes(rt, sample).value;
            forall i, j :: 0 <= i < j < |cs| ==> cs[i].column != cs[j].column
  {
  }

  /** A column whose sample holds only nulls gets the detector's empty verdict. */
  lemma AllNullColumnIsUnknown(rt: JsRuntime, rows: seq<Record>, i: nat)
    requires |rows| > 0 && i < |rows[0].keys|
    requires forall k :: 0 <= k < |rows| ==> IsNullish(Cell(rows[k], rows[0].keys[i]))
    ensures AnalyzeTableDataTypes(rt, Answer(rows)).value[i].info == EmptyInfo
  {
    ColumnValuesEmptyIff(rows, rows[0].keys[i]);
  }

  /** `tableStructure.find(col => col.name === column)` */
  function FindPragma(pragma: seq<Record>, column: string): (r: Option<Record>)
    ensures r.Some? ==> r.value in pragma && Cell(r.value, "name") == Str(column)
    ensures r.None? <==> forall k :: 0 <= k < |pragma| ==> Cell(pragma[k], "name") != Str(column)
  {
    if |pragma| == 0 then None
    else if Cell(pragma[0], "name") == Str(column) then Some(pragma[0])
    else FindPragma(pragma[1..], column)
  }

  /** `find` returns the first row that matches. */
  lemma {:induction false} FindPragmaFirst(pragma: seq<Record>, column: string, i: nat)
    requires i < |pragma| && Cell(pragma[i], "name") == Str(column)
    requires forall j :: 0 <= j < i ==> Cell(pragma[j], "name") != Str(column)
    ensures FindPragma(pragma, column) == Some(pragma[i])
  {
    if i > 0 {
      assert forall j :: 0 <= j < i - 1 ==> pragma[1..][j] == pragma[j + 1];
      FindPragmaFirst(pragma[1..], column, i - 1);
    }
  }

  /** `typeInfo.stats.uniqueCount || 'Unknown'` */
  datatype UniqueCount = Count(n: nat) | UnknownCount

  /** One element of `profile.columns`. `type` and `sqliteType` are the same
      value, so the record keeps it once. */
  datatype ColumnProfile = ColumnProfile(
    name: string,
    sqlType: Value,
    detectedType: DataType,
    confidence: int,
    examples: seq<Value>,
    primaryKey: bool,
    nullable: bool,
    nullCount: nat,
    uniqueCount: UniqueCount,
    stats: DetectedStats)

  datatype TableProfile = TableProfile(tableName: string, rowCount: Value, columnCount: nat,
                                       columns: seq<ColumnProfile>)

  /** `x || fallback` */
  function OrElse(x: Value, fallback: Value): Value {
    if Truthy(x) then x else fallback
  }

  /** The profile entry of one analysed column (src/data-profiler.js:728-757).
      A missing PRAGMA row reads as `{}`. */
  function ColumnProfileOf(pragma: seq<Record>, e: ColumnEntry): (c: ColumnProfile)
    ensures c.name == e.column && c.detectedType == e.info.dataType && c.confidence == e.info.confidence
    ensures c.examples == e.info.examples && c.stats == e.info.stats
    ensures Truthy(c.sqlType)
    ensures c.primaryKey ==> FindPragma(pragma, e.column).Some?
    ensures FindPragma(pragma, e.column).None? ==> c.nullable && c.sqlType == Str("unknown")
    ensures c.uniqueCount.Count? ==> c.uniqueCount.n > 0
  {
    var s := match FindPragma(pragma, e.column) case Some(row) => row case None => Row([], map[]);
    var stats := e.info.stats;
    ColumnProfile(
      e.column,
      OrElse(Cell(s, "type"), Str("unknown")),
      e.info.dataType,
      e.info.confidence,
      e.info.examples,
      Cell(s, "pk") == Num(1.0),
      Cell(s, "notnull") != Num(1.0),
      if stats.DetectedStats? then stats.nullCount else 0,
      if stats.DetectedStats? && stats.uniqueCount != 0 then Count(stats.uniqueCount) else UnknownCount,
      stats)
  }

  function ProfileColumns(pragma: seq<Record>, cs: seq<ColumnEntry>): (r: seq<ColumnProfile>)
    ensures |r| == |cs|
    ensures forall i :: 0 <= i < |cs| ==> r[i] == ColumnProfileOf(pragma, cs[i])
  {
    seq(|cs|, i requires 0 <= i < |cs| => ColumnProfileOf(pragma, cs[i]))
  }

  /** `countData.count || 0`, where `normalizeQueryResult` reads the first
      row of the count query, or the empty array itself when there is none. */
  function RowCountOf(count: seq<Record>): (v: Value)
    ensures Truthy(v) || v == Num(0.0)
    ensures |count| > 0 && Truthy(Cell(count[0], "count")) ==> v == Cell(count[0], "count")
    ensures |count| == 0 ==> v == Num(0.0)
  {
    OrElse(if |count| > 0 then Cell(count[0], "count") else Undefined, Num(0.0))
  }

  /** `generateTableProfile(tableName)` given the results of its three queries,
      in the order it runs them: the row count, the sample for the type
      analysis, and `PRAGMA table_info`. The first failure is rethrown. */
  function GenerateTableProfile(rt: JsRuntime, tableName: string, count: Answer<seq<Record>>,
                                sample: Answer<seq<Record>>, pragma: Answer<seq<Record>>): (r: Answer<TableProfile>)
    ensures count.Fails? ==> r == Fails(count.message)
    ensures count.Answer? && sample.Fails? ==> r == Fails(sample.message)
    ensures count.Answer? && sample.Answer? && pragma.Fails? ==> r == Fails(pragma.message)
    ensures count.Answer? && sample.Answer? && pragma.Answer? <==> r.Answer?
    ensures r.Answer? ==>
              && r.value.tableName == tableName
              && r.value.columnCount == |r.value.columns|
              && (Truthy(r.value.rowCount) || r.value.rowCount == Num(0.0))
  {
    var c :- count;
    var entries :- AnalyzeTableDataTypes(rt, sample);
    var p :- pragma;
    Answer(TableProfile(tableName, RowCountOf(c), |entries|, ProfileColumns(p, entries)))
  }

  /** The columns of a profile are the keys of the first sampled row, in
      their order, not the schema's; an empty sample gives no columns. */
  lemma ProfileColumnOrder(rt: JsRuntime, tableName: string, count: Answer<seq<Record>>,
                           rows: seq<Record>, pragma: Answer<seq<Record>>)
    requires count.Answer? && pragma.Answer?
    ensures var r := GenerateTableProfile(rt, tableName, count, Answer(rows), pragma);
            && r.Answer?
            && (|rows| == 0 ==> r.value.columns == [])
            && (|rows| > 0 ==>
                  && |r.value.columns| == |rows[0].keys|
                  && forall i :: 0 <= i < |rows[0].keys| ==> r.value.columns[i].name == rows[0].keys[i])
  {
  }

  /** Every profiled column is the sampled column at the same position,
      joined with its PRAGMA row: one profile per analysed column, in order. */
  lemma ProfileColumnsFromSample(rt: JsRuntime, tableName: string, count: Answer<seq<Record>>,
                                 sample: Answer<seq<Record>>, pragma: Answer<seq<Record>>)
    requires GenerateTableProfile(rt, tableName, count, sample, pragma).Answer?
    ensures var r := GenerateTableProfile(rt, tableName, count, sample, pragma);
            var cs := AnalyzeTableDataTypes(rt, sample);
            && cs.Answer? && pragma.Answer?
            && |r.value.columns| == |cs.value|
            && forall i :: 0 <= i < |cs.value| ==> r.value.columns[i] == ColumnProfileOf(pragma.value, cs.value[i])
  {
  }

  /** The flags of a column come from the first PRAGMA row with its name:
      `primaryKey` exactly when its `pk` is 1, `nullable` exactly when its
      `notnull` is not 1, and the SQL type when it is non-empty. */
  lemma PragmaFlags(pragma: seq<Record>, e: ColumnEntry, i: nat)
    requires i < |pragma| && Cell(pragma[i], "name") == Str(e.column)
    requires forall j :: 0 <= j < i ==> Cell(pragma[j], "name") != Str(e.column)
    ensures ColumnProfileOf(pragma, e).primaryKey <==> Cell(pragma[i], "pk") == Num(1.0)
    ensures ColumnProfileOf(pragma, e).nullable <==> Cell(pragma[i], "notnull") != Num(1.0)
    ensures Truthy(Cell(pragma[i], "type")) ==> ColumnProfileOf(pragma, e).sqlType == Cell(pragma[i], "type")
  {
    FindPragmaFirst(pragma, e.column, i);
  }

  /** A column the PRAGMA rows do not name is typed 'unknown', is not a
      primary key and is nullable. */
  lemma ColumnWithoutPragma(pragma: seq<Record>, e: ColumnEntry)
    requires forall k :: 0 <= k < |pragma| ==> Cell(pragma[k], "name") != Str(e.column)
    ensures ColumnProfileOf(pragma, e).sqlType == Str("unknown")
    ensures !ColumnProfileOf(pragma, e).primaryKey
    ensures ColumnProfileOf(pragma, e).nullable
  {
  }

  /** What the profile says about each column's counts: the detector only sees
      non-null values, so `nullCount` is always 0, and `uniqueCount` is a count
      exactly when the column has a value, 'Unknown' otherwise. */
  lemma ProfileCounts(rt: JsRuntime, rows: seq<Record>, pragma: seq<Record>, i: nat)
    requires |rows| > 0 && i < |rows[0].keys|
    ensures var e := AnalyzeTableDataTypes(rt, Answer(rows)).value[i];
            var c := ColumnProfileOf(pragma, e);
            && c.nullCount == 0
            && (c.uniqueCount.Count? <==> exists k :: 0 <= k < |rows| && !IsNullish(Cell(rows[k], rows[0].keys[i])))
            && (c.uniqueCount.Count? ==> 1 <= c.uniqueCount.n <= |rows|)
  {
    var column := rows[0].keys[i];
    var vs := ColumnValues(rows, column);
    ColumnValuesEmptyIff(rows, column);
    assert AnalyzeTableDataTypes(rt, Answer(rows)).value[i].info == DetectDataType(rt, vs);
  }
}

=== FILE: text.dfy ===
/** String helpers with JavaScript semantics: `Array.prototype.join`,
    `String.prototype.trim`, `includes` and `replace(/c/g, rep)` on one character,
    and the decimal rendering of a non-negative integer. */
module Text {

  /** `xs.join(sep)`: the empty array joins to the empty string. */
  function Join(xs: seq<string>, sep: string): (r: string)
    ensures |xs| == 0 ==> r == ""
    ensures |xs| == 1 ==> r == xs[0]
    ensures |xs| > 1 ==> r == xs[0] + sep + Join(xs[1..], sep)
  {
    if |xs| == 0 then ""
    else if |xs| == 1 then xs[0]
    else xs[0] + sep + Join(xs[1..], sep)
  }

  /** A character missing from every part and from the separator is missing
      from the joined string. */
  lemma {:induction false} JoinExcludes(xs: seq<string>, sep: string, c: char)
    requires c !in sep
    requires forall k :: 0 <= k < |xs| ==> c !in xs[k]
    ensures c !in Join(xs, sep)
  {
    if |xs| > 1 {
      JoinExcludes(xs[1..], sep, c);
    }
  }

  /** The position of the first `c` in `s`, or `|s|` when there is none. */
  function IndexOf(s: string, c: char): (i: nat)
    ensures i <= |s| && c !in s[..i]
    ensures i < |s| ==> s[i] == c
  {
    if |s| == 0 then 0
    else if s[0] == c then 0
    else
      var i := 1 + IndexOf(s[1..], c);
      assert s[..i] == [s[0]] + s[1..][..i - 1];
      i
  }

  /** The first `c` of `a + [c] + b` is the one after `a` when `a` has none. */
  lemma IndexOfAfter(a: string, c: char, b: string)
    requires c !in a
    ensures IndexOf(a + [c] + b, c) == |a|
  {
    var s := a + [c] + b;
    assert s[|a|] == c;
    assert forall j :: 0 <= j < |a| ==> s[j] == a[j];
  }

  /** `s.split(c)`: the pieces between the occurrences of `c`. */
  function Split(s: string, c: char): (r: seq<string>)
    ensures |r| > 0
    decreases |s|
  {
    var i := IndexOf(s, c);
    if i == |s| then [s] else [s[..i]] + Split(s[i + 1..], c)
  }

  /** The first piece of a split runs up to the first separator. */
  lemma SplitStep(a: string, c: char, b: string)
    requires c !in a
    ensures Split(a + [c] + b, c) == [a] + Split(b, c)
  {
    var s := a + [c] + b;
    IndexOfAfter(a, c, b);
    assert s[..|a|] == a;
    assert s[|a| + 1..] == b;
  }

  /** Splitting on a separator no part contains gives the parts back. */
  lemma {:induction false} SplitJoin(xs: seq<string>, c: char)
    requires |xs| > 0
    requires forall k :: 0 <= k < |xs| ==> c !in xs[k]
    ensures Split(Join(xs, [c]), c) == xs
  {
    var s := Join(xs, [c]);
    if |xs| == 1 {
      assert s == xs[0];
    } else {
      var rest := Join(xs[1..], [c]);
      assert s == xs[0] + ([c] + rest);
      var i := IndexOf(s, c);
      assert i == |xs[0]| by {
        assert s[|xs[0]|] == c;
        assert forall j :: 0 <= j < |xs[0]| ==> s[j] == xs[0][j];
      }
      assert s[..i] == xs[0];
      assert s[i + 1..] == rest;
      SplitJoin(xs[1..], c);
      assert xs == [xs[0]] + xs[1..];
    }
  }

  /** Number of occurrences of `c` in `s`. */
  function Occurrences(s: string, c: char): nat
  {
    if |s| == 0 then 0
    else (if s[0] == c then 1 else 0) + Occurrences(s[1..], c)
  }

  lemma {:induction false} OccurrencesAppend(a: string, b: string, c: char)
    ensures Occurrences(a + b, c) == Occurrences(a, c) + Occurrences(b, c)
  {
    if |a| == 0 {
      assert a + b == b;
    } else {
      assert (a + b)[1..] == a[1..] + b;
      OccurrencesAppend(a[1..], b, c);
    }
  }

  lemma OccurrencesZero(s: string, c: char)
    requires c !in s
    ensures Occurrences(s, c) == 0
  {
    if |s| > 0 {
      OccurrencesZero(s[1..], c);
    }
  }

  /** `s.replace(/c/g, rep)`: every occurrence of the character `c` becomes `rep`. */
  function ReplaceAll(s: string, c: char, rep: string): (r: string)
    ensures c !in rep ==> c !in r
    ensures c !in s ==> r == s
  {
    if |s| == 0 then ""
    else (if s[0] == c then rep else [s[0]]) + ReplaceAll(s[1..], c, rep)
  }

  lemma {:induction false} ReplaceAllAppend(a: string, b: string, c: char, rep: string)
    ensures ReplaceAll(a + b, c, rep) == ReplaceAll(a, c, rep) + ReplaceAll(b, c, rep)
  {
    if |a| == 0 {
      assert a + b == b;
    } else {
      assert (a + b)[1..] == a[1..] + b;
      ReplaceAllAppend(a[1..], b, c, rep);
    }
  }

  /** Replacing `c` neither brings in nor removes a character `d` other than
      `c` that the replacement does not hold. */
  lemma {:induction false} ReplaceAllKeepsOut(s: string, c: char, rep: string, d: char)
    requires d != c && d !in s && d !in rep
    ensures d !in ReplaceAll(s, c, rep)
  {
    if |s| > 0 {
      ReplaceAllKeepsOut(s[1..], c, rep, d);
    }
  }

  /** Reads `c c` back as one `c`, scanning left to right: the inverse of
      doubling every `c`. */
  function Undouble(s: string, c: char): string {
    if |s| == 0 then ""
    else if |s| >= 2 && s[0] == c && s[1] == c then [c] + Undouble(s[2..], c)
    else [s[0]] + Undouble(s[1..], c)
  }

  /** Doubling every `c` and reading the pairs back gives the input. */
  lemma {:induction false} UndoubleDoubled(s: string, c: char)
    ensures Undouble(ReplaceAll(s, c, [c, c]), c) == s
  {
    if |s| > 0 {
      var rest := ReplaceAll(s[1..], c, [c, c]);
      UndoubleDoubled(s[1..], c);
      if s[0] == c {
        assert ReplaceAll(s, c, [c, c]) == [c, c] + rest;
        assert ([c, c] + rest)[2..] == rest;
      } else {
        assert ReplaceAll(s, c, [c, c]) == [s[0]] + rest;
        assert ([s[0]] + rest)[1..] == rest;
      }
      assert s == [s[0]] + s[1..];
    }
  }

  /** The code points `String.prototype.trim` removes: the ECMAScript
      WhiteSpace and LineTerminator productions. */
  predicate IsJsWhitespace(c: char) {
    || c == '\t' || c == '\n' || c == '\U{000B}' || c == '\U{000C}' || c == '\r'
    || c == ' ' || c == '\U{00A0}' || c == '\U{1680}'
    || ('\U{2000}' <= c <= '\U{200A}')
    || c == '\U{2028}' || c == '\U{2029}' || c == '\U{202F}' || c == '\U{205F}'
    || c == '\U{3000}' || c == '\U{FEFF}'
  }

  predicate AllWhitespace(s: string) {
    forall k :: 0 <= k < |s| ==> IsJsWhitespace(s[k])
  }

  /** Drops leading whitespace: the result is a suffix of `s` whose first
      character is not whitespace, and everything dropped was whitespace. */
  function TrimStart(s: string): (r: string)
    ensures |r| <= |s| && r == s[|s| - |r|..]
    ensures |r| > 0 ==> !IsJsWhitespace(r[0])
    ensures AllWhitespace(s[..|s| - |r|])
  {
    if |s| == 0 || !IsJsWhitespace(s[0]) then s
    else
      var r := TrimStart(s[1..]);
      assert s[..|s| - |r|] == [s[0]] + s[1..][..|s[1..]| - |r|];
      r
  }

  /** Drops trailing whitespace: the result is a prefix of `s` whose last
      character is not whitespace, and everything dropped was whitespace. */
  function TrimEnd(s: string): (r: string)
    ensures |r| <= |s| && r == s[..|r|]
    ensures |r| > 0 ==> !IsJsWhitespace(r[|r| - 1])
    ensures AllWhitespace(s[|r|..])
  {
    if |s| == 0 || !IsJsWhitespace(s[|s| - 1]) then s
    else
      var r := TrimEnd(s[..|s| - 1]);
      assert s[|r|..] == s[..|s| - 1][|r|..] + [s[|s| - 1]];
      r
  }

  /** `s.trim()`. */
  function Trim(s: string): (r: string)
    ensures |r| > 0 ==> !IsJsWhitespace(r[0]) && !IsJsWhitespace(r[|r| - 1])
    ensures |r| <= |s|
  {
    TrimEnd(TrimStart(s))
  }

  /** A trimmed string is empty exactly when the input is all whitespace. */
  lemma TrimEmptyIff(s: string)
    ensures Trim(s) == "" <==> AllWhitespace(s)
  {
    var t := TrimStart(s);
    if Trim(s) == "" {
      assert t[0..] == t;
      assert |t| == 0;
      assert s[..|s|] == s;
    }
    if AllWhitespace(s) {
      TrimStartOfWhitespace(s);
    }
  }

  lemma TrimStartOfWhitespace(s: string)
    requires AllWhitespace(s)
    ensures TrimStart(s) == ""
  {
    if |s| > 0 {
      assert AllWhitespace(s[1..]) by {
        forall k | 0 <= k < |s| - 1 ensures IsJsWhitespace(s[1..][k]) {
          assert s[1..][k] == s[k + 1];
        }
      }
      TrimStartOfWhitespace(s[1..]);
    }
  }

  /** A string without surrounding whitespace is its own trim. */
  lemma TrimOfTrimmed(s: string)
    requires |s| > 0 ==> !IsJsWhitespace(s[0]) && !IsJsWhitespace(s[|s| - 1])
    ensures Trim(s) == s
  {
  }

  function DigitChar(d: nat): (c: char)
    requires d < 10
    ensures '0' <= c <= '9'
  {
    ['0', '1', '2', '3', '4', '5', '6', '7', '8', '9'][d]
  }

  function DigitValue(c: char): nat
    requires '0' <= c <= '9'
  {
    c as int - '0' as int
  }

  /** The decimal rendering JavaScript gives a non-negative integer in a
      template literal. */
  function Decimal(n: nat): (r: string)
    ensures |r| > 0
    ensures forall k :: 0 <= k < |r| ==> '0' <= r[k] <= '9'
    ensures r[0] == '0' ==> n == 0
  {
    if n < 10 then [DigitChar(n)] else Decimal(n / 10) + [DigitChar(n % 10)]
  }

  /** Reads a string of decimal digits back as a number. */
  function DecimalValue(s: string): nat
    requires forall k :: 0 <= k < |s| ==> '0' <= s[k] <= '9'
  {
    if |s| == 0 then 0 else 10 * DecimalValue(s[..|s| - 1]) + DigitValue(s[|s| - 1])
  }

  lemma DigitRoundTrip(d: nat)
    requires d < 10
    ensures DigitValue(DigitChar(d)) == d
  {
  }

  /** Rendering a number in decimal and reading it back gives the number. */
  lemma {:induction false} DecimalRoundTrip(n: nat)
    ensures DecimalValue(Decimal(n)) == n
  {
    DigitRoundTrip(n % 10);
    if n >= 10 {
      var r := Decimal(n);
      assert r[..|r| - 1] == Decimal(n / 10);
      DecimalRoundTrip(n / 10);
    }
  }
}

=== FILE: type_detector.dfy ===
/** The type detector of the profiler: `getValueType` classifies one sample
    value, `detectDataType` tallies the classes of a column's sample and picks
    a dominant type with a confidence, examples and type-conditional stats
    (src/data-profiler.js:94-262). */
module TypeDetector {
  import opened Wrappers
  import opened Js
  import opened DatePatterns

  /** The class `getValueType` gives one value. */
  datatype Tag = NullTag | BooleanTag | IntegerTag | FloatTag | DateTag | DateTimeTag | StringTag

  /** `Number(v)` for the values the numeric rule looks at: a native number, or
      a string `Number` parses. Booleans and nullish values never reach it. */
  function NumericValue(rt: JsRuntime, v: Value): Option<real> {
    match v
    case Num(x) => Some(x)
    case Str(s) => rt.numberOf(s)
    case _ => None
  }

  /** `getValueType(value)`: a class whose rule admits the value, and the
      null class exactly for null and undefined. */
  function GetValueType(rt: JsRuntime, v: Value): (tag: Tag)
    ensures Admits(rt, v, tag)
    ensures tag == NullTag <==> IsNullish(v)
  {
    if IsNullish(v) then NullTag
    else if v.Bool? || v == Str("true") || v == Str("false") then BooleanTag
    else if NumericValue(rt, v).Some? then
      (if IsIntegral(NumericValue(rt, v).value) then IntegerTag else FloatTag)
    else if v.Str? && MatchesDate(v.s) && rt.dateParses(v.s) then DateTag
    else if v.Str? && MatchesDateTime(v.s) && rt.dateParses(v.s) then DateTimeTag
    else StringTag
  }

  /** The rule of each class, read on its own. */
  predicate Admits(rt: JsRuntime, v: Value, t: Tag) {
    match t
    case NullTag => IsNullish(v)
    case BooleanTag => v.Bool? || v == Str("true") || v == Str("false")
    case IntegerTag => NumericValue(rt, v).Some? && IsIntegral(NumericValue(rt, v).value)
    case FloatTag => NumericValue(rt, v).Some? && !IsIntegral(NumericValue(rt, v).value)
    case DateTag => v.Str? && MatchesDate(v.s) && rt.dateParses(v.s)
    case DateTimeTag => v.Str? && MatchesDateTime(v.s) && rt.dateParses(v.s)
    case StringTag => true
  }

  /** The order in which the rules are tried. */
  function Rank(t: Tag): nat {
    match t
    case NullTag => 0
    case BooleanTag => 1
    case IntegerTag => 2
    case FloatTag => 2
    case DateTag => 3
    case DateTimeTag => 4
    case StringTag => 5
  }

  /** The classifier is total and gives every value the class of the first
      rule, in the order null, boolean, number, date, datetime, string, that
      admits it. */
  lemma GetValueTypePrecedence(rt: JsRuntime, v: Value)
    ensures Admits(rt, v, GetValueType(rt, v))
    ensures forall t :: Rank(t) < Rank(GetValueType(rt, v)) ==> !Admits(rt, v, t)
  {
  }

  /** The strings "0" and "1" are numbers, not booleans, whenever `Number`
      reads them as 0 and 1. */
  lemma ZeroAndOneAreIntegers(rt: JsRuntime)
    requires rt.numberOf("0") == Some(0.0) && rt.numberOf("1") == Some(1.0)
    ensures GetValueType(rt, Str("0")) == IntegerTag
    ensures GetValueType(rt, Str("1")) == IntegerTag
  {
    assert Str("0") != Str("true") && Str("0") != Str("false");
    assert Str("1") != Str("true") && Str("1") != Str("false");
  }

  /** A `YYYY-MM-DD` string that `Date.parse` accepts and `Number` rejects is a
      date, never a datetime or a string. */
  lemma DateStringsAreDates(rt: JsRuntime, s: string)
    requires MatchesDate(s) && rt.dateParses(s) && rt.numberOf(s) == None
    ensures GetValueType(rt, Str(s)) == DateTag
  {
    assert s != "true" && s != "false" by {
      assert |s| == 10;
    }
  }

  /** The vote counts `typeOccurrences`. */
  datatype Tally = Tally(number: nat, integer: nat, float: nat, boolean: nat,
                         date: nat, datetime: nat, text: nat)

  /** Sum of the granular counts (every class but `number`). */
  function Granular(t: Tally): nat {
    t.integer + t.float + t.boolean + t.date + t.datetime + t.text
  }

  /** `typeOccurrences[tag]++`, plus `typeOccurrences.number++` for a number.
      A null class writes a key nothing reads, so the tally stays the same. */
  function Vote(t: Tally, tag: Tag): Tally {
    match tag
    case NullTag => t
    case BooleanTag => t.(boolean := t.boolean + 1)
    case IntegerTag => t.(integer := t.integer + 1, number := t.number + 1)
    case FloatTag => t.(float := t.float + 1, number := t.number + 1)
    case DateTag => t.(date := t.date + 1)
    case DateTimeTag => t.(datetime := t.datetime + 1)
    case StringTag => t.(text := t.text + 1)
  }

  /** The votes cast by a sample. */
  function TallyOf(rt: JsRuntime, vs: seq<Value>): Tally {
    if |vs| == 0 then Tally(0, 0, 0, 0, 0, 0, 0)
    else Vote(TallyOf(rt, vs[..|vs| - 1]), GetValueType(rt, vs[|vs| - 1]))
  }

  /** `if (examples.length < 5 && !examples.includes(value)) examples.push(value)` */
  function PushExample(examples: seq<Value>, v: Value): seq<Value> {
    if |examples| < 5 && v !in examples then examples + [v] else examples
  }

  function ExamplesOf(vs: seq<Value>): seq<Value> {
    if |vs| == 0 then [] else PushExample(ExamplesOf(vs[..|vs| - 1]), vs[|vs| - 1])
  }

  /** `minValue`, `maxValue` (null until the first number), `sum` and `count`. */
  datatype NumRange = NumRange(low: Option<real>, high: Option<real>, sum: real, count: nat)

  function AddNumber(r: NumRange, x: real): NumRange {
    NumRange(
      if r.low.None? || x < r.low.value then Some(x) else r.low,
      if r.high.None? || x > r.high.value then Some(x) else r.high,
      r.sum + x,
      r.count + 1)
  }

  predicate IsNumberTag(t: Tag) {
    t == IntegerTag || t == FloatTag
  }

  /** The numeric accumulators after a sample: only values classed integer or
      float contribute, with their `Number` value. */
  function NumbersOf(rt: JsRuntime, vs: seq<Value>): NumRange {
    if |vs| == 0 then NumRange(None, None, 0.0, 0)
    else
      var r := NumbersOf(rt, vs[..|vs| - 1]);
      var v := vs[|vs| - 1];
      if IsNumberTag(GetValueType(rt, v)) then AddNumber(r, NumericValue(rt, v).GetOr(0.0)) else r
  }

  /** `minLength` (`None` for the initial `Infinity`) and `maxLength` over the
      string values of a sample. */
  datatype Lengths = Lengths(minLength: Option<nat>, maxLength: nat)

  function AddLength(l: Lengths, k: nat): Lengths {
    Lengths(
      Some(match l.minLength case None => k case Some(j) => if k < j then k else j),
      if k > l.maxLength then k else l.maxLength)
  }

  function LengthsOf(vs: seq<Value>): Lengths {
    if |vs| == 0 then Lengths(None, 0)
    else
      var l := LengthsOf(vs[..|vs| - 1]);
      var v := vs[|vs| - 1];
      if v.Str? then AddLength(l, |v.s|) else l
  }

  /** The loop state of `detectDataType`. */
  datatype Scan = Scan(tally: Tally, seen: set<Value>, examples: seq<Value>,
                       lengths: Lengths, numbers: NumRange)

  const EmptyScan := Scan(Tally(0, 0, 0, 0, 0, 0, 0), {}, [], Lengths(None, 0), NumRange(None, None, 0.0, 0))

  /** One iteration of the loop over the sample values. */
  function Step(rt: JsRuntime, a: Scan, v: Value): Scan {
    var tag := GetValueType(rt, v);
    Scan(
      Vote(a.tally, tag),
      a.seen + {v},
      PushExample(a.examples, v),
      if v.Str? then AddLength(a.lengths, |v.s|) else a.lengths,
      if IsNumberTag(tag) then AddNumber(a.numbers, NumericValue(rt, v).GetOr(0.0)) else a.numbers)
  }

  function Elements(xs: seq<Value>): set<Value> {
    set x | x in xs
  }

  /** The loop state after the whole sample. */
  function ScanAll(rt: JsRuntime, vs: seq<Value>): Scan {
    Scan(TallyOf(rt, vs), Elements(vs), ExamplesOf(vs), LengthsOf(vs), NumbersOf(rt, vs))
  }

  lemma StepExtends(rt: JsRuntime, vs: seq<Value>, v: Value)
    ensures Step(rt, ScanAll(rt, vs), v) == ScanAll(rt, vs + [v])
  {
    var ws := vs + [v];
    assert ws[..|ws| - 1] == vs;
    assert Elements(ws) == Elements(vs) + {v};
  }

  /** The loop of `detectDataType` as written, one value at a time. */
  method ScanValues(rt: JsRuntime, vs: seq<Value>) returns (a: Scan)
    ensures a == ScanAll(rt, vs)
  {
    a := EmptyScan;
    var i := 0;
    assert Elements(vs[..0]) == {};
    while i < |vs|
      invariant 0 <= i <= |vs|
      invariant a == ScanAll(rt, vs[..i])
    {
      StepExtends(rt, vs[..i], vs[i]);
      assert vs[..i] + [vs[i]] == vs[..i + 1];
      a := Step(rt, a, vs[i]);
      i := i + 1;
    }
    assert vs[..|vs|] == vs;
  }

  /** The distinct values of `vs` in first-seen order. */
  function FirstSeen(vs: seq<Value>): seq<Value> {
    if |vs| == 0 then []
    else
      var p := FirstSeen(vs[..|vs| - 1]);
      if vs[|vs| - 1] in p then p else p + [vs[|vs| - 1]]
  }

  predicate Distinct(xs: seq<Value>) {
    forall i, j :: 0 <= i < j < |xs| ==> xs[i] != xs[j]
  }

  function NonNullCount(vs: seq<Value>): nat {
    if |vs| == 0 then 0
    else NonNullCount(vs[..|vs| - 1]) + (if IsNullish(vs[|vs| - 1]) then 0 else 1)
  }

  lemma {:induction false} FirstSeenFacts(vs: seq<Value>)
    ensures Distinct(FirstSeen(vs))
    ensures Elements(FirstSeen(vs)) == Elements(vs)
    ensures |Elements(vs)| == |FirstSeen(vs)| <= |vs|
  {
    if |vs| > 0 {
      var init := vs[..|vs| - 1];
      var v := vs[|vs| - 1];
      FirstSeenFacts(init);
      assert vs == init + [v];
      assert Elements(vs) == Elements(init) + {v};
      var p := FirstSeen(init);
      if v !in p {
        assert Elements(p + [v]) == Elements(p) + {v};
        assert v !in Elements(p);
      }
    }
  }

  /** The counting facts the loop maintains. */
  lemma {:induction false} TallyCounts(rt: JsRuntime, vs: seq<Value>)
    ensures TallyOf(rt, vs).number == TallyOf(rt, vs).integer + TallyOf(rt, vs).float
    ensures Granular(TallyOf(rt, vs)) == NonNullCount(vs)
    ensures NumbersOf(rt, vs).count == TallyOf(rt, vs).number
  {
    if |vs| > 0 {
      var init := vs[..|vs| - 1];
      TallyCounts(rt, init);
      NullTagIff(rt, vs[|vs| - 1]);
      VoteCounts(TallyOf(rt, init), GetValueType(rt, vs[|vs| - 1]));
    }
  }

  lemma NullTagIff(rt: JsRuntime, v: Value)
    ensures GetValueType(rt, v) == NullTag <==> IsNullish(v)
    ensures IsNumberTag(GetValueType(rt, v)) ==> NumericValue(rt, v).Some?
  {
  }

  /** One vote adds one to the granular total, unless it is a null class. */
  lemma VoteCounts(t: Tally, tag: Tag)
    ensures Granular(Vote(t, tag)) == Granular(t) + (if tag == NullTag then 0 else 1)
    ensures Vote(t, tag).number - Vote(t, tag).integer - Vote(t, tag).float == t.number - t.integer - t.float
    ensures Vote(t, tag).number == t.number + (if IsNumberTag(tag) then 1 else 0)
  {
  }

  /** `examples` keeps the first five distinct values, in first-seen order. */
  lemma {:induction false} ExamplesAreFirstSeen(vs: seq<Value>)
    ensures var f := FirstSeen(vs);
            ExamplesOf(vs) == if |f| <= 5 then f else f[..5]
  {
    if |vs| > 0 {
      var init := vs[..|vs| - 1];
      var v := vs[|vs| - 1];
      ExamplesAreFirstSeen(init);
      var p := FirstSeen(init);
      if |p| > 5 {
        if v !in p {
          assert (p + [v])[..5] == p[..5];
        }
      } else if |p| == 5 {
        if v !in p {
          assert (p + [v])[..5] == p;
        }
      }
    }
  }

  /** The accumulators agree with each other: the minimum and maximum exist
      once a number is seen, and they bound the running sum. */
  predicate RangeOk(r: NumRange) {
    && (r.low.Some? <==> r.count > 0)
    && (r.high.Some? <==> r.count > 0)
    && (r.count == 0 ==> r.sum == 0.0)
    && (r.count > 0 ==>
          && r.low.value <= r.high.value
          && r.count as real * r.low.value <= r.sum <= r.count as real * r.high.value)
  }

  lemma AddNumberOk(r: NumRange, x: real)
    requires RangeOk(r)
    ensures RangeOk(AddNumber(r, x))
  {
    if r.count > 0 {
      AddNumberBounds(r.low.value, r.high.value, r.sum, r.count as real, x);
    }
  }

  lemma {:induction false} NumbersRange(rt: JsRuntime, vs: seq<Value>)
    ensures RangeOk(NumbersOf(rt, vs))
  {
    if |vs| > 0 {
      var v := vs[|vs| - 1];
      NumbersRange(rt, vs[..|vs| - 1]);
      AddNumberOk(NumbersOf(rt, vs[..|vs| - 1]), NumericValue(rt, v).GetOr(0.0));
    }
  }

  lemma AddNumberBounds(lo: real, hi: real, sum: real, c: real, x: real)
    requires c >= 0.0 && lo <= hi && c * lo <= sum <= c * hi
    ensures var lo' := if x < lo then x else lo;
            var hi' := if x > hi then x else hi;
            (c + 1.0) * lo' <= sum + x <= (c + 1.0) * hi'
  {
    var lo' := if x < lo then x else lo;
    var hi' := if x > hi then x else hi;
    assert c * lo' <= c * lo;
    assert c * hi <= c * hi';
    assert (c + 1.0) * lo' == c * lo' + lo';
    assert (c + 1.0) * hi' == c * hi' + hi';
  }

  /** The type a column is given. */
  datatype DataType = UnknownType | IntegerType | FloatType | BooleanType
                    | DateType | DateTimeType | StringType

  predicate IsNumericType(d: DataType) {
    d == IntegerType || d == FloatType
  }

  /** `votes / total > 0.8` */
  predicate Majority(votes: nat, total: nat) {
    votes * 5 > total * 4
  }

  /** The decision of src/data-profiler.js:162-189: the dominant type and the
      number of votes its confidence is computed from. */
  function Dominant(t: Tally, n: nat): (r: (DataType, nat))
    ensures r.0 != UnknownType
    ensures r.1 == VotesFor(t, r.0)
    ensures Majority(t.boolean, n) ==> r.0 == BooleanType
  {
    var numeric :=
      if Majority(t.number, n) then
        ((if t.integer * 10 > t.number * 9 then IntegerType else FloatType), t.number)
      else (StringType, t.text);
    var dated :=
      if Majority(t.date, n) then (DateType, t.date)
      else if Majority(t.datetime, n) then (DateTimeType, t.datetime)
      else numeric;
    if Majority(t.boolean, n) then (BooleanType, t.boolean) else dated
  }

  /** The decision read as a table: boolean wins over everything, date and
      then datetime win over numbers, a number majority is integer when more
      than nine in ten numbers are integers, and string is the default. */
  lemma DominantTable(t: Tally, n: nat)
    ensures Dominant(t, n).0 == BooleanType <==> Majority(t.boolean, n)
    ensures Dominant(t, n).0 == DateType <==> !Majority(t.boolean, n) && Majority(t.date, n)
    ensures Dominant(t, n).0 == DateTimeType <==>
              !Majority(t.boolean, n) && !Majority(t.date, n) && Majority(t.datetime, n)
    ensures Dominant(t, n).0 == IntegerType <==>
              && !Majority(t.boolean, n) && !Majority(t.date, n) && !Majority(t.datetime, n)
              && Majority(t.number, n) && t.integer * 10 > t.number * 9
    ensures Dominant(t, n).0 == FloatType <==>
              && !Majority(t.boolean, n) && !Majority(t.date, n) && !Majority(t.datetime, n)
              && Majority(t.number, n) && t.integer * 10 <= t.number * 9
    ensures Dominant(t, n).0 == StringType <==>
              && !Majority(t.boolean, n) && !Majority(t.date, n) && !Majority(t.datetime, n)
              && !Majority(t.number, n)
    ensures Dominant(t, n).0 != UnknownType
  {
  }

  /** The votes of the chosen type: the confidence is that type's share. */
  function VotesFor(t: Tally, d: DataType): nat {
    match d
    case BooleanType => t.boolean
    case DateType => t.date
    case DateTimeType => t.datetime
    case IntegerType => t.number
    case FloatType => t.number
    case StringType => t.text
    case UnknownType => 0
  }

  lemma DominantVotes(t: Tally, n: nat)
    ensures Dominant(t, n).1 == VotesFor(t, Dominant(t, n).0)
  {
  }

  /** Once the granular votes add up to at most the sample size, at most one
      of the four majorities can hold: the override order of the decision
      never has two candidates to choose between. */
  lemma MajoritiesExclusive(t: Tally, n: nat)
    requires t.number == t.integer + t.float
    requires Granular(t) <= n
    ensures Majority(t.boolean, n) ==> !Majority(t.date, n) && !Majority(t.datetime, n) && !Majority(t.number, n)
    ensures Majority(t.date, n) ==> !Majority(t.datetime, n) && !Majority(t.number, n)
    ensures Majority(t.datetime, n) ==> !Majority(t.number, n)
  {
  }

  /** The extra stats `detectDataType` adds for the dominant type. */
  datatype TypeExtra =
    | NoExtra
    | NumericExtra(min: real, max: real, mean: real)
    | LengthExtra(minLength: Option<nat>, maxLength: nat)

  /** `stats`: `NoStats` is the `{}` of an empty sample. */
  datatype DetectedStats =
    | NoStats
    | DetectedStats(uniqueCount: nat, uniqueRatio: real, nullCount: nat, totalCount: nat,
                    extra: TypeExtra, potentialCategory: bool)

  datatype ColumnTypeInfo = ColumnTypeInfo(
    dataType: DataType,
    confidence: int,
    examples: seq<Value>,
    stats: DetectedStats)

  const EmptyInfo := ColumnTypeInfo(UnknownType, 0, [], NoStats)

  /** The stats of a non-empty sample (src/data-profiler.js:192-217): the
      counts, then min/max/mean for a numeric type or the length range for
      string, and the `potentialCategory` flag. */
  function StatsFor(dataType: DataType, n: nat, unique: nat, m: NumRange, l: Lengths): (s: DetectedStats)
    requires n > 0
    requires RangeOk(m)
    requires IsNumericType(dataType) ==> m.count > 0
    ensures s.DetectedStats?
    ensures s.extra.NumericExtra? ==> s.extra.min <= s.extra.mean <= s.extra.max
  {
    var extra :=
      if IsNumericType(dataType) then
        MeanBetween(m.low.value, m.high.value, m.sum, m.count as real);
        NumericExtra(m.low.value, m.high.value, m.sum / m.count as real)
      else if dataType == StringType then LengthExtra(l.minLength, l.maxLength)
      else NoExtra;
    var potential :=
      if IsNumericType(dataType) then unique < 10 && n > 20
      else dataType == StringType && 1 < unique < 20;
    DetectedStats(unique, unique as real / n as real, 0, n, extra, potential)
  }

  /** `detectDataType(values)` */
  function DetectDataType(rt: JsRuntime, values: seq<Value>): (r: ColumnTypeInfo)
    ensures r == EmptyInfo <==> |values| == 0
    ensures |values| > 0 ==>
              var t := TallyOf(rt, values);
              && r.dataType == Dominant(t, |values|).0
              && r.confidence == RoundedPercent(VotesFor(t, r.dataType), |values|)
    ensures |values| > 0 ==>
              && r.stats.DetectedStats?
              && r.stats.totalCount == |values|
              && r.stats.nullCount == 0
              && 1 <= r.stats.uniqueCount <= |values|
              && r.stats.uniqueRatio == r.stats.uniqueCount as real / |values| as real
    ensures 0 <= r.confidence <= 100
    ensures |r.examples| <= 5
    ensures r.stats.DetectedStats? ==>
              && (r.stats.extra.NumericExtra? <==> IsNumericType(r.dataType))
              && (r.stats.extra.LengthExtra? <==> r.dataType == StringType)
              && (r.stats.extra.NumericExtra? ==>
                    r.stats.extra.min <= r.stats.extra.mean <= r.stats.extra.max)
    ensures r.stats.DetectedStats? ==>
              (r.stats.potentialCategory <==>
                 || (IsNumericType(r.dataType) && r.stats.uniqueCount < 10 && r.stats.totalCount > 20)
                 || (r.dataType == StringType && 1 < r.stats.uniqueCount < 20))
  {
    if |values| == 0 then EmptyInfo
    else
      var n := |values|;
      var t := TallyOf(rt, values);
      var choice := Dominant(t, n);
      DetectFacts(rt, values);
      ColumnTypeInfo(choice.0, RoundedPercent(choice.1, n), ExamplesOf(values),
                     StatsFor(choice.0, n, |Elements(values)|, NumbersOf(rt, values), LengthsOf(values)))
  }

  /** What `detectDataType` relies on from the loop: the chosen type's votes
      are at most the sample size, a numeric choice has numbers to average,
      the distinct count is between 1 and the sample size. */
  lemma DetectFacts(rt: JsRuntime, values: seq<Value>)
    requires |values| > 0
    ensures var n := |values|;
            var choice := Dominant(TallyOf(rt, values), n);
            && 0 <= RoundedPercent(choice.1, n) <= 100
            && (IsNumericType(choice.0) ==> NumbersOf(rt, values).count > 0)
            && choice.0 != UnknownType
    ensures RangeOk(NumbersOf(rt, values))
    ensures 1 <= |Elements(values)| <= |values|
    ensures |ExamplesOf(values)| <= 5
  {
    var n := |values|;
    var t := TallyOf(rt, values);
    TallyCounts(rt, values);
    NonNullCountBound(values);
    NumbersRange(rt, values);
    FirstSeenFacts(values);
    ExamplesAreFirstSeen(values);
    assert values[0] in Elements(values);
    DominantVotes(t, n);
    DominantTable(t, n);
    RoundedPercentBounds(Dominant(t, n).1, n);
  }

  lemma MeanBetween(lo: real, hi: real, sum: real, c: real)
    requires c > 0.0 && c * lo <= sum <= c * hi
    ensures lo <= sum / c <= hi
  {
    assert sum / c * c == sum;
  }

  lemma {:induction false} NonNullCountBound(vs: seq<Value>)
    ensures NonNullCount(vs) <= |vs|
  {
    if |vs| > 0 {
      NonNullCountBound(vs[..|vs| - 1]);
    }
  }

  /** The tally invariant of a column's non-null sample: every value casts
      exactly one granular vote, numbers are integers plus floats, and the
      distinct-value count lies between 1 and the sample size. */
  lemma TallyInvariant(rt: JsRuntime, values: seq<Value>)
    requires |values| > 0
    requires forall k :: 0 <= k < |values| ==> !IsNullish(values[k])
    ensures var t := TallyOf(rt, values);
            && Granular(t) == |values|
            && t.number == t.integer + t.float
    ensures 1 <= |Elements(values)| <= |values|
  {
    TallyCounts(rt, values);
    AllPresentCount(values);
    FirstSeenFacts(values);
    assert values[0] in Elements(values);
  }

  lemma {:induction false} AllPresentCount(vs: seq<Value>)
    requires forall k :: 0 <= k < |vs| ==> !IsNullish(vs[k])
    ensures NonNullCount(vs) == |vs|
  {
    if |vs| > 0 {
      AllPresentCount(vs[..|vs| - 1]);
    }
  }

  /** A column whose sample is all boolean literals is `boolean` with full
      confidence, whatever else could be said of it. */
  lemma AllBooleansAreBoolean(rt: JsRuntime, values: seq<Value>)
    requires |values| > 0
    requires forall k :: 0 <= k < |values| ==> GetValueType(rt, values[k]) == BooleanTag
    ensures DetectDataType(rt, values).dataType == BooleanType
    ensures DetectDataType(rt, values).confidence == 100
  {
    AllBooleanVotes(rt, values);
    DominantTable(TallyOf(rt, values), |values|);
    RoundedPercentOfWhole(|values|);
  }

  lemma {:induction false} AllBooleanVotes(rt: JsRuntime, vs: seq<Value>)
    requires forall k :: 0 <= k < |vs| ==> GetValueType(rt, vs[k]) == BooleanTag
    ensures TallyOf(rt, vs).boolean == |vs|
  {
    if |vs| > 0 {
      AllBooleanVotes(rt, vs[..|vs| - 1]);
    }
  }

  /** The examples of a column are its first five distinct sample values. */
  lemma DetectExamples(rt: JsRuntime, values: seq<Value>)
    ensures var f := FirstSeen(values);
            DetectDataType(rt, values).examples == if |f| <= 5 then f else f[..5]
  {
    ExamplesAreFirstSeen(values);
  }
}

=== FILE: viz_registry.dfy ===
/** The set of visualizations the data explorer has on screen
    (src/client/js/data-explorer.js:1175-1222): each one is known by a key
    made of its type, title and query, a second request with a key already
    present is refused, closing a visualization forgets its key, and opening
    another table or column forgets them all. */
module VizRegistry {

  /** `${type}-${title}-${query || ''}`, an absent query being "". */
  function VizKey(kind: string, title: string, query: string): (k: string)
    ensures |k| == |kind| + |title| + |query| + 2
    ensures k[..|kind|] == kind && k[|kind|] == '-'
    ensures k[|k| - |query|..] == query && k[|k| - |query| - 1] == '-'
  {
    var k := kind + "-" + title + "-" + query;
    assert k[..|kind|] == kind;
    assert k[|k| - |query|..] == query;
    k
  }

  /** `createDirectVisualization`: the new set and whether the visualization
      was created. An existing key is refused and the set is left alone. */
  function Create(shown: set<string>, key: string): (r: (set<string>, bool))
    ensures r.1 <==> key !in shown
    ensures key in r.0 && shown <= r.0
    ensures r.0 - shown == if r.1 then {key} else {}
  {
    if key in shown then (shown, false) else (shown + {key}, true)
  }

  /** The close button: `createdVisualizations.delete(key)`. */
  function Close(shown: set<string>, key: string): (r: set<string>)
    ensures key !in r
    ensures forall k :: k in shown && k != key ==> k in r
    ensures r <= shown
  {
    shown - {key}
  }

  /** `createdVisualizations.clear()`, run when the panel is emptied for
      another table or column. */
  function Clear(shown: set<string>): (r: set<string>)
    ensures forall key :: key in shown ==> key !in r
    ensures r <= shown
  {
    {}
  }

  /** After the panel is cleared, any visualization can be created again,
      including every one that was on screen. */
  lemma ClearAllowsCreate(shown: set<string>, key: string)
    ensures Create(Clear(shown), key) == ({key}, true)
  {
    var empty: set<string> := {};
    assert empty + {key} == {key};
  }

  /** A second request for the same visualization is refused and changes
      nothing. */
  lemma CreateTwiceRefused(shown: set<string>, key: string)
    ensures var once := Create(shown, key).0;
            Create(once, key) == (once, false)
  {
  }

  /** Closing a visualization that was just created restores the set as it
      was, and the same visualization can then be created again. */
  lemma CloseUndoesCreate(shown: set<string>, key: string)
    requires key !in shown
    ensures Close(Create(shown, key).0, key) == shown
    ensures Create(Close(Create(shown, key).0, key), key).1
  {
  }

  /** The key does not tell all visualizations apart: a dash in a title can
      make two different requests share a key, and then the second one is
      refused. */
  lemma KeysCanCollide()
    ensures VizKey("bar", "a-b", "") == VizKey("bar", "a", "b-")
    ensures !Create(Create({}, VizKey("bar", "a-b", "")).0, VizKey("bar", "a", "b-")).1
  {
  }
}

=== FILE: wrappers.dfy ===
/** Failure-carrying wrappers shared by every module of the model. */
module Wrappers {

  /** An optional value; `None` stands for a field the source leaves undefined. */
  datatype Option<+T> = None | Some(value: T) {
    function GetOr(default: T): T {
      match this
      case Some(v) => v
      case None => default
    }
  }

  /** The outcome of a call into an external collaborator (the SQL driver):
      either its answer or the message of the error it threw. */
  datatype Answer<+T> = Answer(value: T) | Fails(message: string) {
    predicate IsFailure() {
      Fails?
    }

    function PropagateFailure<U>(): Answer<U>
      requires Fails?
    {
      Fails(message)
    }

    function Extract(): T
      requires Answer?
    {
      value
    }
  }
}
